=== FILE: README.md ===
# Xiaozhi voice gateway — a Dafny model of its core

The Xiaozhi server sits between an ESP32 voice device and a chain of
speech and language services. The device streams Opus audio over a
websocket. The server does four things with it:

- It detects the end of an utterance with a small energy-based VAD.
- It transcribes the utterance and asks an LLM for a reply, falling back
  across providers.
- It cuts the streamed reply into sentences and soft chunks, synthesises
  each piece, and frames the PCM into Opus packets.
- It streams the packets back between `tts start` / `sentence_start` /
  `tts stop` notifications.

Besides conversation, it answers MCP tool calls (a music search), detects
music requests, and delivers alarms from a JSON file.

This project models that core as pure Dafny functions over immutable
datatypes. It proves what each operation promises.

| module | file | what it models |
|---|---|---|
| `Basics` | basics.dfy | bytes, `Option`, byte-string concatenation |
| `Strings` | strings.dfy | Python `str.strip`/`lower`/`split`/`partition`/`find`, `int()` on decimal text |
| `JsonValues` | json.dfy | JSON values, Python truthiness, `dict.get`, `str()`/`int()` of a value |
| `Segmenter` | segmenter.dfy | `_extract_sentence` and `_extract_soft_chunk` |
| `Pipeline` | pipeline.dfy | `process`, the producer/consumer queue, `_extract_tracks`, `_send_frames_with_pacing` |
| `Sessions` | session.dfy | the `Session` record, VAD, history and the session registry |
| `Handler` | handler.dfy | one websocket connection as a step function over events; frame headers; MCP routing |
| `OpusCodec` | codec.dfy | `frame_bytes` and `encode_all` chunking |
| `Tts` | tts.dfy | PCM framing with zero padding, resample ratio, voice style, `synthesize`, `stream_audio_url` |
| `Config` | config.dfy | `.env` loading, frame sizes, the `LLM_PROVIDERS` parser and defaults |
| `Tools` | tools.dfy | `list_tools`, `call_tool` and the music-search argument rules |
| `Intent` | intent.dfy | `detect_fast` and `detect` |
| `Llm` | llm.dfy | message assembly, provider fallback for streaming and JSON calls, `_parse_json_content` |
| `Alarms` | alarms.dfy | one poll of the alarm file, and delivery of an alarm to a session |

The model stands in for everything the core cannot see, using parameters:

- The speech-to-text result is a string.
- The LLM reply is a chunk sequence and whether it raises.
- The TTS engine is a function from text to frames.
- The Opus encoder, the resampler and the robot voice are functions on bytes.
- `json.loads` is a function from text to an optional JSON value.
- `datetime.fromisoformat` is a function from a JSON value to an optional stamp, and `float()` is a function to an optional real.
- The Deezer response and ffmpeg's output are given data.
- A frame's RMS level is a natural number.

The abort flag is read, not predicted. Each side of the pipeline is given
what each of its `is_aborted()` calls returns, read by read: the producer
and the consumer each have a function from the number of the read to its
answer. The flag can go up and come down again during a turn, since a
`listen start`, the goodbye flow and an alarm delivery all clear it, so
nothing assumes it stays raised. The final read that decides `tts stop` is
a separate input.

## Model

| member | source | states |
|---|---|---|
| Segmenter.ExtractSentence | app/services/pipeline.py:462-471 | With no character of `.!?;,\n` the buffer comes back whole and no sentence is returned. Otherwise the cut is right after the FIRST ending character: the remainder is exactly the text after it, and no ending character occurs before it. The stripped prefix is returned exactly when it is longer than one character, so a lone "." is consumed and dropped. |
| Segmenter.SentenceShape | app/services/pipeline.py:462-471 | A returned sentence has at least two characters, and only its last character can be a sentence ending. |
| Segmenter.SentenceOfCut | app/services/pipeline.py:464-466 | The text up to and including the first ending character strips to text with no ending character before its last one. That last one is the ending character itself unless `strip` removed it, which only happens to a newline. |
| Segmenter.FindSoftCut | app/services/pipeline.py:479-495 | The cut is the LAST `,，:：、` at an index in [28, min(len, 90)). Failing that, it is the last space in that range. It reports no break exactly when that range holds neither. |
| Segmenter.CutPieces | app/services/pipeline.py:486-495 | A punctuation cut keeps the break character, a space cut drops the space. The chunk is a right-stripped prefix of at most 90 characters. The rest is a left-stripped suffix strictly shorter than the buffer. Only whitespace and the break space are lost at the seam. |
| Segmenter.ExtractSoftChunk | app/services/pipeline.py:474-499 | The buffer comes back unchanged when it is shorter than 28, has no break, or the chunk would be shorter than 28. A returned chunk has 28..90 characters, comes from the soft cut, and leaves a shorter remainder with a whitespace-only seam. |
| Segmenter.SoftChunkAtWordBoundary | app/services/pipeline.py:486-495 | A soft chunk never ends inside a word. It ends in a punctuation break, or the buffer has whitespace right after it. |
| Segmenter.PunctEndKept | app/services/pipeline.py:486-487 | `rstrip` removes nothing from a prefix that ends in the punctuation break, so the break stays in the chunk. |
| Segmenter.SeamOfCut | app/services/pipeline.py:487-495 | `rstrip` of the text before the cut and `lstrip` of the text after it leave only whitespace between chunk and remainder. The chunk is a prefix and the remainder a suffix. |
| Pipeline.Enqueue | app/services/pipeline.py:441-459 | `_enqueue_sentence` appends exactly one block (the marker then its frames) and keeps the queue sound. The queued frames are a prefix of the synthesis: those read before the first read that reports an abort, or all of them when no read does. When the first read reports an abort no frame is queued. |
| Pipeline.PutFrames | app/services/pipeline.py:453-458 | The flag is read before each frame. The frames queued are exactly those before the first read that reports an abort, all of them when none does. One read is made per queued frame, plus the aborting read. |
| Pipeline.SentenceText | app/services/pipeline.py:462-471 | A sentence handed to the synthesiser is non-empty and does not end in whitespace. |
| Pipeline.SoftChunkText | app/services/pipeline.py:474-499 | A soft chunk handed to the synthesiser is non-empty and does not end in whitespace. |
| Pipeline.DrainSentences | app/services/pipeline.py:222-228 | The sentence loop only appends blocks and keeps the queue sound. A buffer without an ending character is left untouched. Which texts it enqueues is stated by `Pipeline.DrainSentencesTexts`. |
| Pipeline.DrainSentencesTexts | app/services/pipeline.py:222-228 | Whatever the flag reads, the sentence loop enqueues exactly the texts `SentenceCuts` cuts from the buffer, in order, and leaves the buffer `SentenceCuts` leaves. |
| Pipeline.DrainSoft | app/services/pipeline.py:231-237 | The soft-chunk loop only appends blocks and keeps the queue sound. A buffer shorter than 90 characters is left untouched. When none of its reads reports an abort it enqueues exactly the texts `SoftCuts` cuts, in order, and leaves the buffer `SoftCuts` leaves. |
| Pipeline.Flush | app/services/pipeline.py:239-244 | The remainder is enqueued as one block holding the stripped buffer when the iterator did not raise, the remainder is non-blank and the read reports no abort. A raised iterator or a blank remainder leaves the queue as it was. The reply and the consumed count are kept. |
| Pipeline.FlushTexts | app/services/pipeline.py:239-244 | When no read reports an abort the flush enqueues the stripped remainder as one more text iff the iterator did not raise and the remainder is not blank. |
| Pipeline.ProduceChunks | app/services/pipeline.py:215-238 | The reply text is exactly the concatenation of the chunks taken in. The loop breaks only at a read that reports an abort, and when no read in the loop reports one every chunk is taken. The queue is sound and only grows. When no read reports an abort the texts enqueued are exactly `StreamCuts` of the buffer and the chunks, and the buffer is what `StreamCuts` leaves. |
| Pipeline.FeedTexts | app/services/pipeline.py:215-237 | One LLM chunk appended to the buffer: when no read reports an abort, its sentences and then its soft chunks are enqueued, exactly `FeedCuts` of the old buffer and the chunk, and the buffer becomes what `FeedCuts` leaves. |
| Pipeline.Produce | app/services/pipeline.py:211-249 | The reply is the concatenation of the LLM chunks the producer took in, all of them when none of its reads reported an abort. Every queued block is a marker followed by a prefix of its synthesis, and every block is complete when no read reported an abort. When no read reports an abort, the texts queued are exactly `ReplyTexts` of the stream. |
| Pipeline.SentenceCuts | app/services/pipeline.py:222-228 | Reference for the sentence loop on text alone: a buffer without an ending character yields no text and stays as it is. |
| Pipeline.SentenceCutsShape | app/services/pipeline.py:462-471 | Every text the sentence loop cuts has at least two characters and ends at its only sentence ending. |
| Pipeline.SoftCuts | app/services/pipeline.py:231-237 | Reference for the soft-chunk loop on text alone: a buffer shorter than 90 characters yields no text and stays as it is. |
| Pipeline.SoftCutsSized | app/services/pipeline.py:474-499 | Every soft chunk the loop cuts is 28 to 90 characters long. |
| Pipeline.SoftCutsStop | app/services/pipeline.py:231-237 | The soft-chunk loop stops only when the buffer is shorter than 90 characters or no chunk can be cut from it. |
| Pipeline.StreamCuts | app/services/pipeline.py:215-237 | Reference for the chunk loop on text alone: with no chunk left, nothing more is cut and the buffer is kept. |
| Pipeline.TextsAt | app/services/pipeline.py:441-459 | The texts of a run of blocks are the blocks' texts, position by position. |
| Pipeline.CompleteBlocksSpoken | app/services/pipeline.py:262-279 | Blocks whose frames are their text's whole synthesis forward to one `on_sentence_start` per text followed by one audio callback per frame, in order. |
| Pipeline.ChunkingMatters | app/services/pipeline.py:215-244 | Example: the spoken texts depend on how the reply is chunked. ". Hi. Yo." in one chunk is spoken as one text "Hi. Yo.", because the lone "." ends the sentence loop. Sent as "." then " Hi. Yo." it is spoken as "Hi." and "Yo.". |
| Pipeline.FlattenHasNoDone | app/services/pipeline.py:245-249 | `_DONE` appears only at the end of the queue, after every block. |
| Pipeline.ConsumeFrom | app/services/pipeline.py:262-279 | The consumer fires at most one callback per item before `_DONE`, each a sentence or audio callback, and none at all when every read it makes reports an abort. |
| Pipeline.Kept | app/services/pipeline.py:266-279 | An item survives iff its read reports no abort: every item when no read reports one, none when every read does, and only items of the run. |
| Pipeline.KeptAt | app/services/pipeline.py:266-267 | Item k is dropped iff read k reports an abort, and otherwise kept in its place, whatever the other reads report. |
| Pipeline.KeptAppend | app/services/pipeline.py:262-279 | The reads decide item by item, so keeping distributes over concatenation. |
| Pipeline.ConsumeForwardsKept | app/services/pipeline.py:262-279 | The consumer forwards, in FIFO order, exactly the items before `_DONE` whose own read reports no abort. An item whose read reports one is drained silently, and a later item is forwarded again once the flag reads clear. |
| Pipeline.ConsumeInOrder | app/services/pipeline.py:262-279 | When no read reports an abort, the consumer fires each block's `sentence_start` and then its frames, block after block. So sentence N's audio precedes sentence N+1's marker. |
| Pipeline.SilentWhileRaised | app/services/pipeline.py:266-267 | While the flag stays raised from read a on, no callback fires for an item read from a on: only the kept items before it are forwarded, at most one per earlier read. |
| Pipeline.ForwardAll | app/services/pipeline.py:262-279 | Forwarding queue items fires only `on_tts_sentence` and `on_tts_audio` callbacks. |
| Pipeline.Process | app/services/pipeline.py:59-145 | An empty transcript returns None before any callback. Otherwise `stt_result` then `tts_start` come first. `tts_stop` fires iff the final read of the flag reports no abort, and it fires last. The fast music path returns `(text, "")`. The reply path returns None exactly when the reply is empty, and otherwise `(text, reply)`. The full callback sequence of a turn nothing aborts is stated by `Pipeline.ProcessTrace`. |
| Pipeline.ProcessTrace | app/services/pipeline.py:59-145 | A reply turn that no read of the flag aborts fires `stt_result`, `tts_start`, then for each text of `ReplyTexts` its `sentence_start` and one audio callback per frame of its synthesis, then `tts_stop`, and nothing else. |
| Pipeline.ReplySpoken | app/services/pipeline.py:211-279 | When neither the producer's nor the consumer's reads report an abort, the consumer forwards exactly the callbacks of speaking `ReplyTexts` of the stream completely, in order. |
| Pipeline.TurnEvents | app/services/pipeline.py:81-143 | A turn opens with `on_stt_result` and then `on_tts_start`. `on_tts_stop` fires iff the final read of the flag reports no abort, and then it is the last callback. |
| Pipeline.MusicTurn | app/services/pipeline.py:84-101 | The fast music path returns the transcript with an empty reply. It opens with `on_stt_result` and `on_tts_start`, and closes with `on_tts_stop` iff the final read reports no abort. |
| Pipeline.ReplyTurn | app/services/pipeline.py:103-145 | The reply path returns None iff the reply is empty, and otherwise the transcript with the reply. The callbacks open and close as in every turn. What lies between them is stated by `Pipeline.ProcessTrace`. |
| Pipeline.ExtractTracks | app/services/pipeline.py:421-439 | A `content` that is not a list gives []. Otherwise the result is the dict-only elements of the first item whose `type` is "json" and whose `json.tracks` is a list, or [] when there is none. |
| Pipeline.DictsOnly | app/services/pipeline.py:438 | Keeps exactly the dict elements, in order. All of them are kept when every element is a dict. |
| Pipeline.FirstWithTracks | app/services/pipeline.py:428-437 | Finds the first content item that is a `json` dict carrying a `tracks` list. No item before it carries one. |
| Pipeline.ScanTracks | app/services/pipeline.py:428-439 | The result is the dicts of the first track list found, or [] when no item carries one. |
| Pipeline.SendFramesWithPacing | app/services/pipeline.py:354-383 | The frames sent are those before the first read that reports an abort, in order. The count is the number sent, but 0 when an abort cut the stream short. |
| Sessions.NewSession | app/websocket/session.py:28-62 | A new session has an empty buffer and history, is neither speaking nor aborted, has zero VAD counters, and never assigns `is_idling`. |
| Sessions.ResetAudioBuffer | app/websocket/session.py:69-75 | Empties the PCM, zeroes both counters, clears `has_speech` and `aborted`. Nothing else changes. |
| Sessions.AppendAudio | app/websocket/session.py:77-87 | An aborted session or a failed decode returns None and leaves the session as it was. Otherwise the buffer grows by exactly the decoded PCM, which is also returned. |
| Sessions.TakeAudioBuffer | app/websocket/session.py:142-146 | Returns the whole buffer and leaves it empty. Nothing else changes. |
| Sessions.TakeAfterAppends | app/websocket/session.py:77-146 | Taking after a run of appends gives the concatenation of the decoded pieces, in order. |
| Sessions.CheckVad | app/websocket/session.py:89-124 | A frame above 2000 resets the silent counter and a quiet one adds one. The speech counter counts frames above 2500 and is never reset by quiet frames. `has_speech` turns on at the 8th loud frame and stays on. The result is 'silence_after_speech' iff there was speech and at least 10 quiet frames in a row. |
| Sessions.VadCounters | app/websocket/session.py:89-124 | After any run of frames from a reset state: the speech counter is the number of loud frames, `has_speech` holds iff there were at least 8, and the silent counter is the length of the trailing quiet run. |
| Sessions.EndOfUtterance | app/websocket/session.py:120-124 | A frame ends the utterance iff at least 8 loud frames came before it and it closes a run of at least 10 quiet frames. |
| Sessions.SpeechSticks | app/websocket/session.py:111-119 | Once `has_speech` holds, no sequence of frames clears it. |
| Sessions.SaveHistory | app/websocket/session.py:148-154 | Appends the user turn, then the assistant turn. When the history is longer than `max_history`, only the last `max_history` entries are kept, with Python's slice meaning for zero and negative bounds. |
| Sessions.HistoryBounded | app/websocket/session.py:148-154 | With the configured maximum of 20, the history never grows past 20. |
| Sessions.PyTail | app/websocket/session.py:153 | `items[-n:]` is a suffix of the list: of length min(n, len) for positive n, the whole list for 0, and len - min(-n, len) for negative n. |
| Sessions.Abort | app/websocket/session.py:156-159 | Sets `aborted` and clears `is_speaking`. Nothing else changes. |
| Sessions.CreateSession | app/websocket/session.py:166-171 | Registers the session under its id. A new id goes to the end of the registration order, and a re-registered id keeps its place. Every other entry is kept, and a consistent registry stays consistent. |
| Sessions.RemoveSession | app/websocket/session.py:174-178 | Drops exactly that id from the table and the order, and the other ids keep their order. A missing id is not an error. A consistent registry stays consistent. |
| Sessions.RemoveIdempotent | app/websocket/session.py:174-178 | Removing twice is removing once. |
| Sessions.CreateThenRemove | app/websocket/session.py:166-178 | Creating and then removing a fresh id restores the registry. |
| Sessions.AllSessions | app/websocket/session.py:181-183 | Lists the registered sessions in registration order, as a dict keeps them, each exactly once. |
| Sessions.RegisterAppends | app/websocket/session.py:166-183 | Listing after registering a new session gives the old list followed by that session. |
| Sessions.AllSessionIds | app/websocket/session.py:181-183 | The listed sessions carry exactly the registered ids, in registration order. |
| Handler.ExtractOpusPayload | app/websocket/handler.py:161-170 | Version 2 with more than 16 bytes drops a 16-byte header. Version 3 with more than 4 bytes returns `data[4:4+size]` with the big-endian size at bytes 2..3, so the length is min(size, len-4). Every other case returns the input. The output is never longer. |
| Handler.V3RoundTrip | app/websocket/handler.py:161-170 | A version-3 frame built from a payload gives the payload back, whatever trails it. |
| Handler.V2RoundTrip | app/websocket/handler.py:161-170 | A 16-byte header followed by a payload gives the payload back. |
| Handler.HeaderOnlyFrames | app/websocket/handler.py:161-170 | A frame that is only a header is passed through unchanged. |
| Handler.KindNamesRoundTrip | app/websocket/handler.py:97-106 | Each message type name dispatches to its own handler. |
| Handler.KindOf | app/websocket/handler.py:97-104 | A type name selects the handler registered under that name. A name no handler has selects none. |
| Handler.OnText | app/websocket/handler.py:86-108 | Invalid JSON and an unknown or missing `type` are ignored. A JSON value that is not an object, or a list- or dict-valued `type`, raises and ends the loop. A known string type routes to its handler with the message. |
| Handler.OnTextStep | app/websocket/handler.py:86-108 | A message that raises crashes the loop, and an ignored one changes nothing. An MCP call of the music tool with truthy non-object arguments raises inside `call_tool` and crashes the loop too. Only a trigger sets the trigger mark, and only on a connection not yet triggered. `is_idling`, once assigned, stays assigned. |
| Handler.OnListen | app/websocket/handler.py:225-245 | `start`/`detect` resets the buffer (clearing `aborted`), sets `is_idling` false, zeroes the frame counter and un-triggers. `stop` starts the pipeline only when not yet triggered, and marks it triggered. Any other state changes nothing. |
| Handler.RepeatedStopIsNoOp | app/websocket/handler.py:238-245 | A `stop` after a trigger changes nothing and starts nothing. |
| Handler.LongVersionCrashes | app/websocket/handler.py:48 | A non-empty binary frame on a connection whose `Protocol-Version` header is more than 4300 digits crashes the connection, because `int()` raises. |
| Handler.OnBinary | app/websocket/handler.py:119-158 | An empty payload or a rejected append leaves the state as it was. A counted frame appends exactly its PCM. Once triggered, VAD is not evaluated. 'silence_after_speech' triggers the pipeline. After 167 counted frames without speech, the goodbye flow starts once unless already idling. A missing `is_idling` makes that read raise. |
| Handler.RunPipeline | app/websocket/handler.py:320-413 | Always consumes the buffer. Below 3200 bytes nothing else changes. Otherwise `is_speaking` is false at the end, and the history gains the turn exactly when the pipeline returned a result. |
| Handler.SafeSendAll | app/websocket/handler.py:333-349 | Messages go out in order until the first failed send, and no send is attempted after it. |
| Handler.Finish | app/websocket/handler.py:57-82 | On disconnect the pipeline runs once iff the buffer holds more than 3200 bytes and no run was triggered. |
| Handler.Step | app/websocket/handler.py:26-82 | A closed connection ignores events. A close runs the cleanup. A raising handler ends the loop and runs the cleanup. A connection never reopens, and a crash always leaves it closed. |
| Handler.Run | app/websocket/handler.py:40-82 | Over any run of events: a closed connection ignores them all, a closed connection never reopens, and a crash anywhere leaves the connection closed. |
| Handler.Connect | app/websocket/handler.py:26-38 | A new connection is open and untriggered, with no frames counted. Its session has no `is_idling` attribute. |
| Handler.React | app/websocket/handler.py:119-250 | Each event keeps the connection open. Only a hand-over sets the trigger mark, and only a listen start or detect clears it. `is_idling`, once assigned, stays assigned and is never read while missing. |
| Handler.Settle | app/websocket/handler.py:40-57 | A handler that returns leaves the loop running. One that raises ends it through the cleanup. |
| Handler.StepSpendsBudget | app/websocket/handler.py:141-245 | An event that does not re-arm listening never starts more pipelines than the interval's remaining budget. |
| Handler.AtMostOneTriggerPerInterval | app/websocket/handler.py:141-245 | Between two `listen start/detect` messages, at most one pipeline run is started by VAD, `listen stop` and disconnect together. |
| Handler.RearmResets | app/websocket/handler.py:231-236 | `listen start/detect` restores a full budget of one run with an empty, un-aborted buffer. |
| Handler.ResolveMcp | app/websocket/handler.py:254-316 | The op is the first truthy of `msg.op`, `payload.op`, `msg.method`, `payload.method`. List aliases give the tool list, call aliases give a call, and any other op is unsupported. A call's name is the or-chain of the name fields, and its arguments default to {}. |
| Handler.McpFlatFormat | app/websocket/handler.py:259-306 | The flat `{op, name, arguments}` format resolves to that call. |
| Handler.McpNestedFormat | app/websocket/handler.py:259-306 | The nested JSON-RPC `payload.method/params` format resolves to the same call. |
| Handler.NestedCallResolves | app/websocket/handler.py:256-294 | A message whose request fields all sit in `payload`, with the method there and the name and arguments in `payload.params`, resolves to a call of that tool with those arguments. |
| Handler.ToolName | app/websocket/handler.py:294 | `str(name or "")`: a falsy name gives "", and a string name is passed as it is. |
| Handler.McpArgumentsDefault | app/websocket/handler.py:286-292 | A call without arguments gets {}. |
| Handler.McpReply | app/websocket/handler.py:266-316 | A list returns `ok: true` with the tool list. A call echoes the name with the tool's `ok` and content. An unsupported op returns `ok: false` with an error. Every reply has `type: mcp`. |
| Handler.ListReply | app/websocket/handler.py:266-276 | The list reply has `type: mcp`, `ok: true` and the registry's tool list. |
| Handler.CallReply | app/websocket/handler.py:294-305 | The call reply has `type: mcp` and echoes the name, with the result's `ok` and content. |
| Handler.UnsupportedReply | app/websocket/handler.py:308-316 | Any other op gets exactly the keys `type: mcp`, `ok: false` and `error`. The error text starts with "Unsupported MCP operation: " and, for a string op, continues with the op itself. |
| Handler.HandleMcp | app/websocket/handler.py:254-316 | When resolving the request raises, no reply is sent. A list op is answered with the tool list. |
| Handler.McpStepCrashesIffRaises | app/websocket/handler.py:254-306 | An MCP frame ends the connection loop exactly when handling it raises, whatever the search response. Otherwise the resolved request is answered and the connection is left as it was. |
| Handler.SendJson | app/websocket/handler.py:416-419 | Every sent message carries the session's `session_id`, and every other field is kept. |
| Handler.HelloAck | app/websocket/handler.py:211-222 | The hello reply has exactly the keys `type` ("hello"), `transport` ("websocket"), `session_id` and `audio_params`. The audio parameters have exactly `format` ("opus", the `AudioParams` default) and the server's sample rate, channel count and frame duration, whatever the client sent. |
| Handler.IdleTimeoutCrashes | app/websocket/handler.py:119-158 | As written: a client that says hello and sends 167 quiet frames without `listen` makes the connection raise. |
| Handler.QuietStep | app/websocket/handler.py:129-158 | A quiet frame below the timeout on a connection that has only seen quiet frames is counted and buffered, and nothing else happens. |
| Handler.QuietBinary | app/websocket/handler.py:119-158 | The binary handler on a quiet frame: below 167 frames it only counts and buffers, leaving the connection open, untriggered, not speaking and still without `is_idling`. The frame that reaches 167 reads the unassigned `is_idling`. |
| Handler.QuietTimeout | app/websocket/handler.py:150-152 | The quiet frame that reaches 167 reads the unassigned `is_idling`. |
| Handler.QuietPrefix | app/websocket/handler.py:119-158 | Fewer than 167 quiet frames on a fresh connection only count and buffer. |
| Handler.QuietRunStep | app/websocket/handler.py:119-158 | A run whose last event is one more quiet frame below the timeout, after a run that left a quiet connection and no action, again leaves a quiet connection, one frame further, and no action. |
| Handler.QuietCrash | app/websocket/handler.py:119-158 | As written: on any connection whose version header reads 1, 167 quiet frames make the connection raise the missing-attribute error. |
| Handler.NeverMissingIdling | app/websocket/handler.py:119-158 | Corrected: with `is_idling` set at connect, no event sequence ever reaches the missing-attribute error. |
| Handler.ConnectNotIdling | app/websocket/session.py:28-62 | Corrected: the connection is the same except that its session starts with `is_idling` false. |
| Handler.StepKeepsIdlingAssigned | app/websocket/handler.py:119-250 | Corrected: once `is_idling` is assigned, no event unassigns it or reads it while missing. |
| OpusCodec.EncodeAll | app/audio/opus_codec.py:53-59 | Produces floor(len / frame_bytes) frames. Each is the encoding of the next whole block from offset 0, and a trailing partial block is dropped. |
| OpusCodec.FullBlocks | app/audio/opus_codec.py:55-58 | floor(len / fb) blocks, each exactly `fb` bytes. |
| OpusCodec.EncodeEach | app/audio/opus_codec.py:57 | One frame per block, each the encoding of its block, in order. |
| OpusCodec.EncodeAllContiguous | app/audio/opus_codec.py:55-58 | Frame i encodes exactly the bytes at [i*fb, (i+1)*fb). |
| OpusCodec.SplitBlocks | app/audio/opus_codec.py:55-58 | The blocks followed by the dropped remainder glue back to the input. |
| OpusCodec.BlocksUnique | app/audio/opus_codec.py:55-58 | That block split is the only one with full blocks and a shorter tail. |
| Tts.Framed | app/services/tts.py:152-171 | Every block passed to the encoder is exactly `frame_bytes` long, and the whole blocks come first and in order. |
| Tts.FramedCount | app/services/tts.py:152-171 | With padding the count is ceil(len / frame_bytes). Without padding (a failure mid-way) it is floor. |
| Tts.FramedContent | app/services/tts.py:152-171 | Padded blocks glue to the PCM followed by fewer than `frame_bytes` zeros. Unpadded blocks glue to a prefix that is short by less than one frame. |
| Tts.FrameStream | app/services/tts.py:127-171 | Feeding synthesis pieces through the byte buffer yields the encoding of the framing of their concatenation. |
| Tts.VoiceStyle | app/services/tts.py:44-89 | The style is the stripped, lowercased setting, "normal" when the setting is empty. An unknown style falls back to "normal". |
| Tts.VoiceStyleStable | app/services/tts.py:85-89 | Normalising a normalised style changes nothing. |
| Tts.KnownStyleFixed | app/services/tts.py:63-89 | Every known style name is already stripped and lower-case, so normalising it keeps it. |
| Tts.ResampleRatio | app/services/tts.py:45-53 | Resampling is needed iff the rates differ. `up`/`down` are the target and source divided by their gcd, so up·source = down·target. |
| Tts.DefaultResampleRatio | app/services/tts.py:45-53 | Example: 24000/22050 reduces to 160/147. |
| Tts.ConvertedIdentity | app/services/tts.py:146-149 | With no resampling and the "normal" style, the pieces reach framing unchanged, from any effect state. |
| Tts.NonEmpty | app/services/tts.py:125-131 | The producer's filter keeps only non-empty pieces and loses no byte of the stream. |
| Tts.NonEmptyAppend | app/services/tts.py:125-131 | The filter distributes over concatenation, so it keeps the non-empty pieces in their order. |
| Tts.NonEmptySingle | app/services/tts.py:129-130 | A single piece is kept iff it is non-empty. |
| Tts.NonEmptyKeepsAll | app/services/tts.py:125-131 | A stream with no empty piece passes the filter unchanged. |
| Tts.ConvertEach | app/services/tts.py:138-149 | Output k is chunk k resampled when needed and styled from the effect state chunk k - 1 left. The "normal" style never changes the state. |
| Tts.Converted | app/services/tts.py:125-149 | Exactly the non-empty pieces reach framing, in order, one output each. Each is resampled when needed and styled from the robot state its predecessor left (`_robot_phase`, `_robot_lp_prev`). |
| Tts.Synthesize | app/services/tts.py:105-193 | Empty or whitespace-only text yields no frames and leaves the effect state alone. Otherwise the frames encode the framed, converted pieces, padded unless synthesis raised. The effect state after the last piece carries over to the next synthesis; the "normal" style never changes it. |
| Tts.StreamAudioUrl | app/services/tts.py:195-270 | An empty URL or a missing ffmpeg yields nothing. Otherwise the frames encode ffmpeg's output up to its first empty read, padded unless the read loop failed. |
| Tts.UntilEof | app/services/tts.py:238-248 | The chunks read are the non-empty prefix of the output before its first empty read. |
| Config.EnvLine | app/config.py:16-20 | A stripped line that is blank, a comment or has no "=" is skipped. Otherwise it splits at the FIRST "=" into a stripped key and value. |
| Config.Lines | app/config.py:16 | No line holds a line-break character, and there is at least one line. |
| Config.EnvLineRoundTrip | app/config.py:16-20 | A line written as `key=value` from clean parts parses back to them. |
| Config.SetDefault | app/config.py:20 | An existing variable is never overwritten. An empty key is rejected as `os.environ` rejects it. A new key gets the line's value. |
| Config.LoadEnvValues | app/config.py:16-20 | After loading, a variable is the pre-existing value if there was one, else the value on the first line that assigns it, else absent. |
| Config.LoadEnvNoAssignments | app/config.py:16-20 | A file without assignments leaves the environment as it was. |
| Config.FrameSize | app/config.py:28-49 | `rate * ms // 1000`: the largest n with n·1000 ≤ rate·ms. |
| Config.DefaultFrameSizes | app/config.py:28-49 | Example: 960 for the default input, 1440 for the default output, 2880 bytes per output frame. |
| Config.ProviderEntryRoundTrip | app/config.py:83-90 | A `name|url|model|key` entry of clean fields parses back to that provider. A `name|url|model` entry parses to the same provider with the default key. |
| Config.EntryProviders | app/config.py:80-90 | A blank entry, or one with fewer than three fields, contributes nothing. Any other entry contributes its one provider. |
| Config.ParseEntries | app/config.py:79-90 | No more providers come out than there are entries. |
| Config.SplitEntry | app/config.py:83 | A `name|url|model|key` entry with separator-free fields splits back into its four fields. |
| Config.ParseCleanEntries | app/config.py:79-90 | Clean providers rendered as entries parse back to the same list. |
| Config.ParseEntriesAppend | app/config.py:79-90 | Parsing keeps entry order: parsing two lists is parsing each and concatenating. |
| Config.ParseRenderRoundTrip | app/config.py:77-91 | Rendering clean providers as `name|url|model|key;...` parses back to the same list. |
| Config.FromEnv | app/config.py:76-103 | The provider list is never empty. It is the parsed list, or one "default" provider when none parse. `max_tokens` is `int(LLM_MAX_TOKENS)` with default 500. The configuration fails to load iff that value is not an integer text of at most 4300 digits or `float(LLM_TEMPERATURE)` (default "0.7") raises. |
| Config.DefaultProvider | app/config.py:92-98 | The fallback provider is named "default". |
| Config.ParseDefaultMaxTokens | app/config.py:101 | Example: The default "500" reads as 500. |
| Strings.ParseUnsigned | app/config.py:101 | Text that starts and ends with a digit or underscore is read by `int()` as its digits with the underscores dropped, exactly when it is groups of digits joined by single underscores with at most 4300 digits in all (underscores not counted), and raises otherwise. |
| Strings.ParseInt | app/config.py:101 | A successful `int()` of text is a run of ASCII digits read in decimal, possibly negated. Blank text raises. |
| Strings.ParseIntOfNat | app/config.py:101 | The decimal text of a natural number of at most 4300 digits reads back as that number. |
| Strings.DigitsWithinLimitRead | app/config.py:101 | A run of at most 4300 ASCII digits is read as its decimal value. |
| Strings.TooManyDigitsRaises | app/config.py:101 | A run of more than 4300 ASCII digits makes `int()` raise ValueError (Python's default `int_max_str_digits`). |
| Config.LongMaxTokensFails | app/config.py:101 | An `LLM_MAX_TOKENS` of more than 4300 digits makes loading the configuration fail. |
| Config.LoadEnv | app/config.py:15-20 | Loading `.env` never overwrites a variable already in the environment: every such variable keeps its value. |
| Config.ParseProviders | app/config.py:78-90 | The `if raw:` guard changes nothing: an empty variable gives no providers, as splitting it would. There is at most one provider per `;`-separated entry. |
| Strings.UnderscoreIgnored | app/config.py:101 | An underscore between two runs of digits does not change the value `int()` reads. |
| Strings.DoubledUnderscoreRaises | app/config.py:101 | Two underscores in a row make `int()` raise. |
| Strings.EdgeUnderscoreRaises | app/config.py:101 | A leading or a trailing underscore makes `int()` raise. |
| Config.EmptyEnvironmentDefaults | app/config.py:92-103 | Example: With nothing set: one default provider at `http://127.0.0.1:8045/v1` with model `claude-sonnet-4-5`, and 500 tokens. |
| Config.IntentConfig | app/config.py:141-151 | A blank `INTENT_LLM_PROVIDERS` reuses the main chain. Otherwise the intent variables are used. |
| Tools.ListTools | app/mcp/tools.py:29-57 | Exactly one tool, named `search_vietnamese_music`, with an input schema. |
| Tools.ClampLimit | app/mcp/tools.py:80-84 | A non-integer limit becomes 5, and an integer is clamped to [1, 20]. |
| Tools.DigitLimit | app/mcp/tools.py:80-84 | A limit given as a string of more than 4300 digits becomes 5, because `int()` raises; one of at most 4300 digits is clamped like the integer it spells. |
| Tools.ClampIdempotent | app/mcp/tools.py:80-84 | Clamping a clamped limit changes nothing. |
| Tools.SearchTerms | app/mcp/tools.py:72-78 | The song name is stripped. The query is a stripped string, empty iff both terms are blank, and it is the song name whenever that is not blank. |
| Tools.NoTermsNoRequest | app/mcp/tools.py:72-78 | With both terms empty the result is `ok=false` whatever the network would have answered, so no request matters. |
| Tools.SearchEchoesRequest | app/mcp/tools.py:93-124 | A successful search returns at most `limit` tracks and echoes the effective `song_name`, `query` and `limit`. |
| Tools.SearchMusic | app/mcp/tools.py:71-130 | With both terms empty the result is the "missing parameter" refusal. A successful result needs a non-empty query and a response. |
| Tools.DeezerTracks | app/mcp/tools.py:93-105 | Tracks come only from a dict body, and there are at most `limit` of them. |
| Tools.TracksOfItems | app/mcp/tools.py:96-105 | Every returned track is the field projection of the corresponding Deezer item. |
| Tools.TrackOf | app/mcp/tools.py:96-104 | A track has exactly the keys title, artist, album, deezer_url, preview_url and duration. An item that is not a dict gives none. |
| Tools.CallTool | app/mcp/tools.py:59-69 | An unknown name gives `ok=false` with one text item. Falsy arguments count as {}. A truthy non-dict raises. |
| Tools.CallWithoutArguments | app/mcp/tools.py:59-78 | Example: Calling the music tool with `None` arguments is the "missing parameter" refusal. |
| Intent.DetectFast | app/services/intent.py:32-69 | "music" iff the lowercased text contains a trigger word and a music word, otherwise ("other", ""). A music result carries the cleaned title. |
| Intent.AnyIn | app/services/intent.py:55-56 | `any(w in lowered for w in words)` holds iff some word occurs in the text. |
| Intent.ExampleMentions | app/services/intent.py:37-56 | Example: "phát nhạc" contains a trigger word and a music word. |
| Intent.SongName | app/services/intent.py:60-68 | The song name is never empty, has no trimmed characters at its ends and no doubled spaces, falling back to "nhạc việt". |
| Intent.Collapse | app/services/intent.py:67 | Every whitespace run becomes one space, and the emptiness of the text is kept. |
| Intent.ScrubIdentity | app/services/intent.py:61-66 | Text with no trigger or filler word is left as it was. |
| Intent.FirstMatch | app/services/intent.py:61-66 | A match ends after the start, inside the text and at a word boundary, and it is the match of one of the alternatives. |
| Intent.ScrubShrinks | app/services/intent.py:61-66 | Replacing each match with one space never lengthens the text. |
| Intent.CleanedTitle | app/services/intent.py:67 | The cleaned title has no ` ,.!?`, newline or tab at either end and no doubled space. |
| Intent.DefaultSongShape | app/services/intent.py:68 | The fallback "nhạc việt" is non-empty, trimmed and single-spaced. |
| Intent.DetectFastExample | app/services/intent.py:32-69 | Example: "Phát nhạc" is a music request. |
| Intent.Detect | app/services/intent.py:71-93 | A non-dict LLM result gives ("other", ""). The intent is "music" iff the stripped, lowercased raw intent is "music". A music result always has a song name, and an "other" result keeps the given one. |
| Intent.Verdict | app/services/intent.py:85-90 | The intent is "music" exactly for the raw word "music", and "other" otherwise. A music verdict never has an empty song name. The name is kept, except that an empty one becomes "nhạc việt" for music. |
| Intent.DetectRoundTrip | app/services/intent.py:71-93 | Feeding a normalised result back through `detect` returns it unchanged. |
| Intent.DetectOfMusic | app/services/intent.py:85-90 | A clean music verdict is taken as given. |
| Intent.DetectOfOther | app/services/intent.py:85-90 | A clean "other" verdict is taken as given, song name included. |
| Llm.BuildMessages | app/services/llm.py:85-91 | The system message, then the history verbatim, then the user message, for a length of len(history)+2. |
| Llm.JsonMessagesHaveNoHistory | app/services/llm.py:102-105 | `chat_json` sends only the system and the user message. |
| Llm.ChatStream | app/services/llm.py:29-83 | The output is never empty and never yields an empty chunk. |
| Llm.FirstComplete | app/services/llm.py:39-73 | Picks the first provider that both produced a non-empty delta and did not fail. |
| Llm.ChatStreamShape | app/services/llm.py:39-83 | The output is the partial output of the providers that failed, then either the first complete provider's deltas or the apology. |
| Llm.FirstResponderWins | app/services/llm.py:55-73 | When earlier providers yielded nothing, the first complete provider's non-empty deltas are the whole output. |
| Llm.AllSilentApologises | app/services/llm.py:81-83 | When every provider fails silently, or there are none, the output is exactly the apology. |
| Llm.SilentPartial | app/services/llm.py:56-79 | Providers that fail before yielding a delta add nothing to the output. |
| Llm.FailoverMixesAnswers | app/services/llm.py:39-79 | Example: A provider that fails after committing leaves its prefix in the output, and the next provider's answer follows it. |
| Llm.ParseJsonOrder | app/services/llm.py:155-188 | The result is the first object among the candidate texts, tried in order: the stripped text, the fence-stripped text, then the slice from the first "{" to the last "}" when there is one. Nothing else is tried. |
| Llm.ParseJsonContent | app/services/llm.py:155-188 | A returned value is a JSON object that `json.loads` read from one of the candidate texts. |
| Llm.Candidates | app/services/llm.py:155-183 | The stripped text and the fence-stripped text are always tried, and the brace slice is tried as a third candidate iff there is one. |
| Llm.PlainObjectFirst | app/services/llm.py:158-167 | A reply that already is an object is returned as is. |
| Llm.FencedAnswer | app/services/llm.py:170 | A reply fenced as ```json ... ``` has exactly the fences removed. |
| Llm.OpeningFence | app/services/llm.py:170 | An opening fence, when there is one, starts with three backticks and lies inside the text. |
| Llm.StripFences | app/services/llm.py:170 | Removing fences never lengthens the text. Text with no backticks at either end is left as it is. |
| Llm.ObjectIn | app/services/llm.py:161-165 | A value is taken iff `json.loads` reads a dict, and it is that dict. |
| Llm.BraceSpan | app/services/llm.py:180-183 | The slice runs from the first "{" to the last "}", and there is one iff a "{" precedes some "}". |
| Llm.BraceSpanNone | app/services/llm.py:180-182 | There is no slice iff no "{" comes before a "}". |
| Llm.ChatJson | app/services/llm.py:93-153 | The result is the first provider's object that parses, in list order, or None when none does. |
| Llm.FirstObject | app/services/llm.py:108-153 | None iff no provider produced an object. Otherwise it is the first provider's object. |
| Llm.ProviderJson | app/services/llm.py:108-150 | A provider whose requests both failed, or whose content is empty, gives nothing. Otherwise its object is one `json.loads` read from a candidate of the returned content. |
| Llm.ContentOf | app/services/llm.py:115-137 | The JSON-format request is preferred, and the plain request is used only when it raised. |
| Alarms.AlarmStarts | app/mcp/alarm_scheduler.py:36-39 | Delivery sets `is_idling` false, `aborted` false and `is_speaking` true, and changes nothing else. |
| Alarms.AlarmStops | app/mcp/alarm_scheduler.py:144-148 | After playback `is_speaking` is false, and nothing else changes. |
| Alarms.RingtonePath | app/mcp/alarm_scheduler.py:61-70 | A string ringtone gives a path: an absolute one is kept, and a relative one is joined to the module directory. Any other value makes `isabs` raise. |
| Alarms.DefaultRingtoneChosen | app/mcp/alarm_scheduler.py:25-70 | A missing or falsy ringtone resolves to the default `BaoThuc.mp3` beside the module. |
| Alarms.RingsFirstStop | app/mcp/alarm_scheduler.py:113-129 | The ringtone plays at least once. No pass before the last one meets a stop condition, and the last pass meets one unless the passes ran out. |
| Alarms.RingsFromFirstStop | app/mcp/alarm_scheduler.py:113-129 | Counted from any pass, the loop ends at the first pass that meets a stop condition, or when the passes run out. |
| Alarms.Rings | app/mcp/alarm_scheduler.py:113-129 | Never more passes than there are, and at least one pass is played whenever there is one. |
| Alarms.PlayDuration | app/mcp/alarm_scheduler.py:75-81 | A missing or null `play_duration` gives no duration. Any other value gives `float()` of it, or no duration when that raises. |
| Alarms.RingsOnce | app/mcp/alarm_scheduler.py:122-124 | An absent, zero or unparseable `play_duration` plays one pass. |
| Alarms.RingsStopOnSilence | app/mcp/alarm_scheduler.py:117-120 | A pass that streamed no frames is the last pass. |
| Alarms.RingsReachDuration | app/mcp/alarm_scheduler.py:126-128 | The loop stops at the first pass where the played time reaches `play_duration`, and not before. |
| Alarms.Deliver | app/mcp/alarm_scheduler.py:28-152 | `tts start` and the `sentence_start` message come first. The spoken-message fallback is never used. For a string ringtone the ringtone frames of the passes played follow, then `tts stop` last; otherwise `tts stop` is not last. The session ends not idling and not aborted, and still speaking iff the ringtone is not a string (resolving its path raises, which skips `tts stop` and the reset of `is_speaking`). Nothing else changes. |
| Alarms.Judge | app/mcp/alarm_scheduler.py:174-185 | An entry is skipped iff it is triggered or its time does not parse. It raises iff it is not a dict or holds an aware time. It is due iff it is untriggered with a naive time not after now. |
| Alarms.JudgeLater | app/mcp/alarm_scheduler.py:173-185 | Only "not yet" depends on the clock: any other verdict is kept at a later time, and an entry not yet due later was not due earlier. |
| Alarms.ScanDue | app/mcp/alarm_scheduler.py:173-185 | The due list is in file order. Every index on it is a due entry. |
| Alarms.ScanFrom | app/mcp/alarm_scheduler.py:173-185 | The scan keeps the number of entries and never changes an entry before the one it is at. |
| Alarms.ScanComplete | app/mcp/alarm_scheduler.py:173-185 | When the poll completes, an entry is due iff `now >= time` and it was neither triggered nor unparseable. Exactly the due entries are marked. |
| Alarms.ScanRaised | app/mcp/alarm_scheduler.py:176-204 | The poll raises only in the code as written, and only because some entry's comparison raised. |
| Alarms.TargetsExactly | app/mcp/alarm_scheduler.py:188-192 | An alarm goes to a session iff the session is live and has a registered websocket. |
| Alarms.Targets | app/mcp/alarm_scheduler.py:188-192 | Every target has a registered websocket. |
| Alarms.Tasks | app/mcp/alarm_scheduler.py:187-194 | There are as many deliveries as due alarms times targets. |
| Alarms.TasksExactly | app/mcp/alarm_scheduler.py:182-194 | There is one delivery per due alarm per target. |
| Alarms.PollFacts | app/mcp/alarm_scheduler.py:162-206 | A delivery starts iff the alarm is due and its session is a target, and a raising poll keeps only the deliveries made before the raise. The file is rewritten iff the poll completed with a due alarm, and then it holds exactly the marked list. |
| Alarms.PollOnce | app/mcp/alarm_scheduler.py:162-206 | A missing file gives no deliveries. Every delivery goes to a live session with a registered websocket. The file is kept, or rewritten with the same number of entries. |
| Alarms.PollInRegistrationOrder | app/mcp/alarm_scheduler.py:187-194 | With the registry as the live list, the deliveries are each due alarm for each target, targets in registration order. |
| Alarms.MarkedSkipped | app/mcp/alarm_scheduler.py:174-184 | A marked alarm is skipped by every later poll. |
| Alarms.FireOnce | app/mcp/alarm_scheduler.py:172-201 | Corrected: an alarm delivered by one poll is not delivered again by the next. |
| Alarms.RedeliveredAsWritten | app/mcp/alarm_scheduler.py:173-204 | As written: an alarm file whose later entry has a timezone makes every poll re-deliver the earlier due alarm and never rewrite the file. |
| Alarms.RaisingPollKeepsFile | app/mcp/alarm_scheduler.py:182-204 | As written: an entry that raises right after a due one leaves the file unchanged, after the due one has been delivered. |

## Left out

- Transport: the websocket and FastAPI plumbing, the REST routes, `main.py`/`run.py`, send locks and the per-session socket table are left out. They have no logic of their own. A send is an event in a list, and a send failure is an input (`Handler.SafeSendAll`).
- Concurrency and time: asyncio tasks, `sleep`, `loop.time` pacing, the pre-buffer of three frames, the 50 ms grace and the goodbye pacing are left out. The producer and the consumer are modelled as separate runs over the same queue, each with its own sequence of flag reads, so any interleaving with the handler's changes to the flag is an input. The queue is the ordered sequence the producer puts.
- Signal processing: `_calc_rms`, scipy resampling, the robot-voice DSP, `length_scale` and the temperature are left out because they are floating-point numerics. RMS is a natural-number input, and the resampler and effect are functions. The robot effect's memory (`_robot_phase`, `_robot_lp_prev`) is threaded from piece to piece and from one synthesis to the next as an `EffectState`, but its values are not computed.
- Pipeline: the synthesiser `synth` is a function of the text alone. With a robot style the source's frames also depend on the effect state left by earlier calls; the pipeline model does not carry that state between its calls.
- Foreign engines: Whisper and Groq STT (`stt.py`), the OpenAI-compatible LLM calls, Piper, Opus encode/decode, Deezer `urlopen`, ffmpeg and yt-dlp, `json.loads`, `datetime` and `uuid4` are left out. Each becomes a parameter or given data.
- `stream_full_song_by_query` and the yt-dlp lookup are left out; they are subprocess calls. The music preview's frames are given to `Pipeline.Process` as blocks, so the acknowledgement text, the full-song attempt and the preview fallback are not modelled.
- `_detect_and_handle_music_intent` and `should_stop_generation` are left out: the session builds its pipeline with `prefer_fast_only=True`, so that task never runs and the flag is always false.
- File I/O is left out: reading `.env` and `alarms.json`, a missing file, `json.dump` formatting, and a failed rewrite. The file contents are given as text or as a JSON value.
- `_ensure_default_ringtone` is left out. Its sine-wave generation is numerics and file output.
- Logging is left out.
- `app/models.py` and `app/prompt_store.py` are left out. They hold shapes and prompt constants.
- Config.Lines: `str.splitlines` is modelled for `\n`, `\r`, `\r\n` and the other line-boundary characters. The position of a final empty line is approximated; it only changes a blank line, which is skipped.
- Config.SetDefault: `os.environ` also rejects a name containing NUL. This is not modelled.
- JsonValues.PyInt: JSON integers are unbounded. Python's `str()` of an int of more than 4300 digits raises, and `json.loads` refuses such literals; neither limit is modelled for JSON numbers, only for `int()` on text.
- JsonValues.PyStr: `str()` of a list or a dict is the placeholder "[...]" or "{...}", not Python's repr, which quotes the strings inside and lists a dict's keys in insertion order that a map does not keep. Only the placeholder's non-emptiness agrees with Python.
- Handler.ToolName: a truthy list or dict name becomes the `PyStr` placeholder, not its `str()`; it then names no tool, as any repr would.
- Handler.UnsupportedReply: for a list or dict op the error text ends in the `PyStr` placeholder, not the op's `str()`.
- Tools.SearchTerms: a list or dict `song_name` or `query` becomes the `PyStr` placeholder, not its `str()`.
- Intent.Detect: a list or dict `song_name` or `intent` becomes the `PyStr` placeholder, not its `str()`.
- Tools.ClampLimit: JSON floats are not representable, so `int(7.9) == 7` and the OverflowError of `int(Infinity)` are not modelled. Non-ASCII decimal digits are not accepted by `int()` here.
- Config.ParseDefaultMaxTokens: `int()` is modelled with ASCII digits, a sign, surrounding whitespace and single underscores between digits; non-ASCII decimal digits, which Python also reads, are not accepted.
- Strings.ParseInt: as for Config.ParseDefaultMaxTokens, non-ASCII decimal digits are not read.
- Strings.Lower: lower-casing covers ASCII, Latin-1 and the Vietnamese letters of Latin Extended Additional, not all of Unicode.
- Intent.DetectFast: the regex word scrub is a scanner. Its `\b` is approximated by "the next character is not a word character". IGNORECASE matters only after `lower()`.
- Tools.SearchMusic: the exact text of a Deezer error message is not modelled. Only `ok=false` with one text item is stated.
- OpusCodec.EncodeAll, Tts.FrameStream, Tts.Synthesize, Tts.StreamAudioUrl: these require a positive frame size. With a zero size the source loops forever.
- Alarms.PlayDuration: `float()` is a parameter. NaN and infinities are not distinguished from other reals, and the played seconds are exact reals rather than floats.
- Alarms.Deliver: a failure of the start or sentence sends does not change what follows. It is caught and logged, so it is not modelled. The ringtone's frame counts per pass are given.
- Alarms.PollOnce: the session list is read once per poll. No `await` runs between the reads, so it cannot change mid-poll.

## Findings

| source | as written | input that shows it | evidently intended | confidence | as-written member | corrected member |
|---|---|---|---|---|---|---|
| app/websocket/handler.py:152, app/websocket/session.py:28-62 | `Session.__init__` never assigns `is_idling`. `_on_binary` reads it once 167 frames without speech have been counted. | hello, then 167 quiet binary frames with no `listen` message: the read raises AttributeError and the connection loop ends | `is_idling` starts as False, so the goodbye flow starts instead | high (not executed) | Handler.IdleTimeoutCrashes | Handler.NeverMissingIdling |
| app/mcp/alarm_scheduler.py:177-185, 203-204 | `now >= alarm_dt` compares a naive `now()` with a timezone-aware time and raises TypeError. The whole poll is abandoned before the file is rewritten, after earlier due alarms were already delivered. | `[{"time": "2024-01-01T07:00"}, {"time": "2024-01-01T07:00+07:00"}]` polled at 07:10 and then at 07:15 on 2024-01-01: alarm 0 is delivered on both polls and never marked | a bad entry is skipped like an unparseable time, so a delivered alarm is marked and fires once | high (not executed) | Alarms.RedeliveredAsWritten | Alarms.FireOnce |

=== FILE: alarms.dfy ===
/** The alarm scheduler (app/mcp/alarm_scheduler.py): one poll of the alarm
    file picks the due alarms, marks them and hands them to every session
    with a live websocket; delivering an alarm plays its ringtone, repeated
    until the requested play time is reached.

    Clock readings, `datetime.fromisoformat`, `float()` and the ffmpeg
    stream are parameters; sending, pacing and file I/O are not modelled. */
module Alarms {

  import opened Basics
  import opened JsonValues
  import opened Sessions

  // ---------------------------------------------------------------------
  // Session flags around a delivery
  // ---------------------------------------------------------------------

  /** What a delivery does to the session first: not idling, not aborted,
      speaking. Nothing else about the session changes. */
  function AlarmStarts(s: Session): (r: Session)
    ensures r.isIdling == Some(false) && !r.aborted && r.isSpeaking
    ensures r.(isIdling := s.isIdling, aborted := s.aborted, isSpeaking := s.isSpeaking) == s
  {
    s.(isIdling := Some(false), aborted := false, isSpeaking := true)
  }

  /** What a delivery does to the session once playback is over. */
  function AlarmStops(s: Session): (r: Session)
    ensures !r.isSpeaking
    ensures r.(isSpeaking := s.isSpeaking) == s
  {
    s.(isSpeaking := false)
  }

  // ---------------------------------------------------------------------
  // Ringtone path
  // ---------------------------------------------------------------------

  /** `os.path.isabs` on POSIX. */
  predicate IsAbsolute(p: string) {
    |p| > 0 && p[0] == '/'
  }

  /** `os.path.join(base, p)` for a relative `p` on POSIX. */
  function PathJoin(base: string, p: string): (r: string)
    requires !IsAbsolute(p)
    ensures |r| >= |base| + |p| && r[..|base|] == base && r[|r| - |p|..] == p
  {
    if base == [] || base[|base| - 1] == '/' then base + p else base + "/" + p
  }

  /** The bundled ringtone file name. */
  const RingtoneFile: string := "BaoThuc.mp3"

  /** `DEFAULT_RINGTONE`: the bundled file next to the scheduler module. */
  function DefaultRingtone(moduleDir: string): (p: string)
    ensures |p| >= |RingtoneFile| && p[|p| - |RingtoneFile|..] == RingtoneFile
  {
    PathJoin(moduleDir, RingtoneFile)
  }

  /** `alarm.get("ringtone") or DEFAULT_RINGTONE`. */
  function ChosenRingtone(alarm: Dict, moduleDir: string): Json {
    var own := Get(alarm, "ringtone", JNull);
    if Truthy(own) then own else JStr(DefaultRingtone(moduleDir))
  }

  /** The file ffmpeg is asked to play: an absolute ringtone as it is, a
      relative one under the module directory. `None` where
      `os.path.isabs` raises because the ringtone is not a string. */
  function RingtonePath(ringtone: Json, moduleDir: string): (r: Option<string>)
    ensures r.Some? <==> ringtone.JStr?
    ensures r.Some? && IsAbsolute(ringtone.s) ==> r.value == ringtone.s
    ensures r.Some? && !IsAbsolute(ringtone.s) ==> r.value == PathJoin(moduleDir, ringtone.s)
  {
    match ringtone
    case JStr(p) => Some(if IsAbsolute(p) then p else PathJoin(moduleDir, p))
    case _ => None
  }

  /** An alarm without a ringtone of its own plays the bundled file; for an
      absolute module directory that is `DEFAULT_RINGTONE` itself. */
  lemma DefaultRingtoneChosen(alarm: Dict, moduleDir: string)
    requires !Truthy(Get(alarm, "ringtone", JNull))
    requires IsAbsolute(moduleDir)
    ensures RingtonePath(ChosenRingtone(alarm, moduleDir), moduleDir) == Some(DefaultRingtone(moduleDir))
  {
  }

  // ---------------------------------------------------------------------
  // Repeating the ringtone
  // ---------------------------------------------------------------------

  /** Frames streamed by a sequence of passes. */
  function FramesIn(passes: seq<nat>): nat {
    if passes == [] then 0 else FramesIn(passes[..|passes| - 1]) + passes[|passes| - 1]
  }

  /** `not play_duration`: no duration, or zero. */
  predicate PlaysOnce(duration: Option<real>) {
    duration.None? || duration.value == 0.0
  }

  /** Seconds played once pass `k` is over. */
  function PlayedBy(passes: seq<nat>, k: nat, frameS: real): real
    requires k < |passes|
  {
    FramesIn(passes[..k + 1]) as real * frameS
  }

  /** Pass `k` ends the ringing: it streamed nothing, no duration was asked
      for, or the time played so far has reached the duration. */
  predicate StopsAfter(passes: seq<nat>, k: nat, frameS: real, duration: Option<real>)
    requires k < |passes|
  {
    passes[k] as real * frameS == 0.0
    || PlaysOnce(duration)
    || PlayedBy(passes, k, frameS) >= duration.value
  }

  /** The repeat loop from pass `k` on, with `total` seconds played so
      far: the number of passes played. `passes[i]` is the number of frames
      pass `i` manages to stream; running out of `passes` means the loop is
      still going when the model stops looking. */
  function RingsFrom(passes: seq<nat>, k: nat, total: real, frameS: real, duration: Option<real>): (n: nat)
    requires k <= |passes|
    ensures k <= n <= |passes|
    ensures k < |passes| ==> n > k
    decreases |passes| - k
  {
    if k == |passes| then k
    else
      var played := passes[k] as real * frameS;
      if played == 0.0 || PlaysOnce(duration) || total + played >= duration.value then k + 1
      else RingsFrom(passes, k + 1, total + played, frameS, duration)
  }

  /** Passes played by the repeat loop: the first pass always plays, since
      the checks come after it. */
  function Rings(passes: seq<nat>, frameS: real, duration: Option<real>): (n: nat)
    ensures n <= |passes|
    ensures |passes| > 0 ==> n > 0
  {
    RingsFrom(passes, 0, 0.0, frameS, duration)
  }

  /** One more pass adds its seconds. */
  lemma PlayedBySnoc(passes: seq<nat>, k: nat, frameS: real)
    requires k < |passes|
    ensures PlayedBy(passes, k, frameS) == FramesIn(passes[..k]) as real * frameS + passes[k] as real * frameS
  {
    assert passes[..k + 1][..k] == passes[..k];
    assert FramesIn(passes[..k + 1]) == FramesIn(passes[..k]) + passes[k];
    Distribute(FramesIn(passes[..k]), passes[k], frameS);
  }

  lemma Distribute(a: nat, b: nat, f: real)
    ensures (a + b) as real * f == a as real * f + b as real * f
  {
  }

  /** The loop runs until the first pass that stops it: no earlier pass
      stops it, and unless the passes ran out, the last one played does. */
  lemma {:induction false} RingsFromFirstStop(passes: seq<nat>, k: nat, total: real, frameS: real, duration: Option<real>)
    requires k <= |passes|
    requires total == FramesIn(passes[..k]) as real * frameS
    requires forall j :: 0 <= j < k ==> !StopsAfter(passes, j, frameS, duration)
    ensures var n := RingsFrom(passes, k, total, frameS, duration);
            && k <= n <= |passes|
            && (forall j :: 0 <= j < n - 1 ==> !StopsAfter(passes, j, frameS, duration))
            && (n == |passes| || (n > 0 && StopsAfter(passes, n - 1, frameS, duration)))
            && (k < |passes| ==> n > k)
    decreases |passes| - k
  {
    if k < |passes| {
      var played := passes[k] as real * frameS;
      PlayedBySnoc(passes, k, frameS);
      assert PlayedBy(passes, k, frameS) == total + played;
      if played == 0.0 || PlaysOnce(duration) || total + played >= duration.value {
        assert RingsFrom(passes, k, total, frameS, duration) == k + 1;
        assert StopsAfter(passes, k, frameS, duration);
      } else {
        assert RingsFrom(passes, k, total, frameS, duration) == RingsFrom(passes, k + 1, total + played, frameS, duration);
        assert !StopsAfter(passes, k, frameS, duration);
        assert passes[..k + 1][..k + 1] == passes[..k + 1];
        RingsFromFirstStop(passes, k + 1, total + played, frameS, duration);
      }
    }
  }

  /** The ringing characterised: at least one pass when there is one, no
      pass before the last stops it, and the last one does unless the
      passes ran out. */
  lemma RingsFirstStop(passes: seq<nat>, frameS: real, duration: Option<real>)
    ensures var n := Rings(passes, frameS, duration);
            && n <= |passes|
            && (|passes| > 0 ==> n > 0)
            && (forall j :: 0 <= j < n - 1 ==> !StopsAfter(passes, j, frameS, duration))
            && (n == |passes| || (n > 0 && StopsAfter(passes, n - 1, frameS, duration)))
  {
    RingsFromFirstStop(passes, 0, 0.0, frameS, duration);
  }

  /** Without a duration (absent, zero or unparseable) the file plays once. */
  lemma RingsOnce(passes: seq<nat>, frameS: real, duration: Option<real>)
    requires PlaysOnce(duration) && |passes| > 0
    ensures Rings(passes, frameS, duration) == 1
  {
  }

  /** A pass that streams no frames is the last one. */
  lemma RingsStopOnSilence(passes: seq<nat>, frameS: real, duration: Option<real>, k: nat)
    requires k < |passes| && passes[k] == 0
    ensures Rings(passes, frameS, duration) <= k + 1
  {
    RingsFirstStop(passes, frameS, duration);
    assert StopsAfter(passes, k, frameS, duration);
  }

  /** With a duration, every pass streaming frames, and the ringing over,
      the time played reaches the duration, and it had not before the last
      pass. */
  lemma RingsReachDuration(passes: seq<nat>, frameS: real, d: real)
    requires d != 0.0 && frameS > 0.0
    requires forall k :: 0 <= k < |passes| ==> passes[k] > 0
    requires Rings(passes, frameS, Some(d)) < |passes|
    ensures var n := Rings(passes, frameS, Some(d));
            && n > 0 && PlayedBy(passes, n - 1, frameS) >= d
            && forall j :: 0 <= j < n - 1 ==> PlayedBy(passes, j, frameS) < d
  {
    RingsFirstStop(passes, frameS, Some(d));
    var n := Rings(passes, frameS, Some(d));
    assert passes[n - 1] as real * frameS > 0.0;
    forall j | 0 <= j < n - 1
      ensures PlayedBy(passes, j, frameS) < d
    {
      assert passes[j] as real * frameS > 0.0;
      assert !StopsAfter(passes, j, frameS, Some(d));
    }
  }

  // ---------------------------------------------------------------------
  // Delivering one alarm to one session
  // ---------------------------------------------------------------------

  /** The default spoken text of an alarm. */
  const DefaultMessage: string := "Báo thức"

  /** What reaches the client, in order. */
  datatype Sent =
    | TtsStart
    | SentenceStart(text: Json)
    | Ringtone(path: string, frames: nat)   // the passes over the file
    | Spoken(text: Json)                    // the TTS fallback
    | TtsStop

  datatype Delivered = Delivered(session: Session, sent: seq<Sent>)

  /** `play_duration`: absent or null means none; otherwise `float()` of
      it, none where that raises. */
  function PlayDuration(alarm: Dict, toFloat: Json -> Option<real>): (r: Option<real>)
    ensures "play_duration" !in alarm || alarm["play_duration"] == JNull ==> r.None?
    ensures "play_duration" in alarm && alarm["play_duration"] != JNull ==> r == toFloat(alarm["play_duration"])
  {
    var pd := Get(alarm, "play_duration", JNull);
    if pd == JNull then None else toFloat(pd)
  }

  /** `_trigger_alarm_for_session` with sends that succeed: the opening
      messages, then the ringtone repeated, or the message spoken when
      there is no ringtone, then the stop message and the speaking flag
      cleared. A ringtone that is not a string raises in `os.path.isabs`,
      which skips everything after the opening messages. */
  function Deliver(s: Session, alarm: Dict, moduleDir: string, passes: seq<nat>,
                   frameS: real, toFloat: Json -> Option<real>): (r: Delivered)
    ensures var ringtone := ChosenRingtone(alarm, moduleDir);
            && |r.sent| >= 2 && r.sent[0] == TtsStart
            && r.sent[1] == SentenceStart(Get(alarm, "message", JStr(DefaultMessage)))
            && (forall i :: 0 <= i < |r.sent| ==> !r.sent[i].Spoken?)
            && (ringtone.JStr? <==> r.sent[|r.sent| - 1] == TtsStop)
            && (ringtone.JStr? ==>
                  var n := Rings(passes, frameS, PlayDuration(alarm, toFloat));
                  r.sent == r.sent[..2] + [Ringtone(RingtonePath(ringtone, moduleDir).value, FramesIn(passes[..n])), TtsStop])
            && r.session.isIdling == Some(false) && !r.session.aborted
            && r.session.isSpeaking == !ringtone.JStr?
            && r.session.(isIdling := s.isIdling, aborted := s.aborted, isSpeaking := s.isSpeaking) == s
  {
    var started := AlarmStarts(s);
    var message := Get(alarm, "message", JStr(DefaultMessage));
    var opening := [TtsStart, SentenceStart(message)];
    var ringtone := ChosenRingtone(alarm, moduleDir);
    if Truthy(ringtone) then
      match RingtonePath(ringtone, moduleDir)
      case None => Delivered(started, opening)
      case Some(path) =>
        var n := Rings(passes, frameS, PlayDuration(alarm, toFloat));
        Delivered(AlarmStops(started), opening + [Ringtone(path, FramesIn(passes[..n])), TtsStop])
    else
      Delivered(AlarmStops(started), opening + [Spoken(message), TtsStop])
  }

  // ---------------------------------------------------------------------
  // One poll of the alarm file
  // ---------------------------------------------------------------------

  /** A parsed alarm time: its instant in ticks of local time, and whether
      it carries a UTC offset. */
  datatype Stamp = Stamp(ticks: int, aware: bool)

  /** What the poll makes of one entry. `Raises` is an exception outside
      the per-entry `try`: an entry that is not an object, or an aware
      time compared with the naive `datetime.now()`. */
  datatype Verdict = Skipped | Due | NotYet | Raises

  /** The checks on one entry: already triggered, or an unparseable time
      (`parse` is `datetime.fromisoformat` of `alarm.get("time")`), skips
      it; otherwise it is due when `now >= time`. */
  function Judge(entry: Json, now: int, parse: Json -> Option<Stamp>): (v: Verdict)
    ensures var triggered := entry.JObj? && Truthy(Get(entry.fields, "triggered", JNull));
            var time := if entry.JObj? then parse(Get(entry.fields, "time", JNull)) else None;
            && (v == Skipped <==> entry.JObj? && (triggered || time.None?))
            && (v == Raises <==> !entry.JObj? || (!triggered && time.Some? && time.value.aware))
            && (v == Due <==> entry.JObj? && !triggered && time.Some? && !time.value.aware && now >= time.value.ticks)
  {
    if !entry.JObj? then Raises
    else if Truthy(Get(entry.fields, "triggered", JNull)) then Skipped
    else
      match parse(Get(entry.fields, "time", JNull))
      case None => Skipped
      case Some(t) => if t.aware then Raises else if now >= t.ticks then Due else NotYet
  }

  /** The clock only moves an entry from not yet due to due: every verdict
      but `NotYet` is the same at any later time. */
  lemma JudgeLater(entry: Json, now: int, later: int, parse: Json -> Option<Stamp>)
    requires now <= later
    ensures Judge(entry, now, parse) != NotYet ==> Judge(entry, later, parse) == Judge(entry, now, parse)
    ensures Judge(entry, later, parse) == NotYet ==> Judge(entry, now, parse) == NotYet
  {
  }

  /** `alarm["triggered"] = True`. */
  function Mark(entry: Json): Json {
    if entry.JObj? then JObj(entry.fields["triggered" := JBool(true)]) else entry
  }

  /** The entries after the loop, the due positions in order, and whether
      an exception ended the poll. */
  datatype Scan = Scan(marked: seq<Json>, due: seq<nat>, raised: bool)

  /** The loop over the entries from position `i`. As written (`tolerant`
      false) an entry that raises ends the poll; the corrected loop skips
      it like an unparseable time. */
  function ScanFrom(entries: seq<Json>, i: nat, now: int, parse: Json -> Option<Stamp>, tolerant: bool): (r: Scan)
    requires i <= |entries|
    ensures |r.marked| == |entries|
    ensures forall k :: 0 <= k < i ==> r.marked[k] == entries[k]
    decreases |entries| - i
  {
    if i == |entries| then Scan(entries, [], false)
    else
      var rest := ScanFrom(entries, i + 1, now, parse, tolerant);
      match Judge(entries[i], now, parse)
      case Due => Scan(rest.marked[i := Mark(entries[i])], [i] + rest.due, rest.raised)
      case Raises => if tolerant then rest else Scan(entries, [], true)
      case _ => rest
  }

  /** `due` lists due entries at positions from `i` on, in increasing order. */
  predicate DueOrdered(due: seq<nat>, entries: seq<Json>, i: nat, now: int, parse: Json -> Option<Stamp>) {
    && (forall j :: 0 <= j < |due| ==> i <= due[j] < |entries| && Judge(entries[due[j]], now, parse) == Due)
    && (forall j, l :: 0 <= j < l < |due| ==> due[j] < due[l])
  }

  /** The due positions from `i` on are due entries, in increasing order. */
  lemma {:induction false} ScanDue(entries: seq<Json>, i: nat, now: int, parse: Json -> Option<Stamp>, tolerant: bool)
    requires i <= |entries|
    ensures DueOrdered(ScanFrom(entries, i, now, parse, tolerant).due, entries, i, now, parse)
    decreases |entries| - i
  {
    if i < |entries| {
      ScanDue(entries, i + 1, now, parse, tolerant);
      var r := ScanFrom(entries, i, now, parse, tolerant);
      var rest := ScanFrom(entries, i + 1, now, parse, tolerant);
      var v := Judge(entries[i], now, parse);
      if v == Due {
        assert r.due == [i] + rest.due;
      } else if v == Raises && !tolerant {
        assert r.due == [];
      } else {
        assert r.due == rest.due;
      }
    }
  }

  /** Only the loop as written raises, and only at an entry that raises. */
  lemma {:induction false} ScanRaised(entries: seq<Json>, i: nat, now: int, parse: Json -> Option<Stamp>, tolerant: bool)
    requires i <= |entries|
    ensures ScanFrom(entries, i, now, parse, tolerant).raised ==>
              !tolerant && exists k :: i <= k < |entries| && Judge(entries[k], now, parse) == Raises
    decreases |entries| - i
  {
    if i < |entries| {
      ScanRaised(entries, i + 1, now, parse, tolerant);
    }
  }

  /** A pass from `i` that did not raise lists exactly the due entries and
      marks exactly those, leaving the others as they were. */
  lemma {:induction false} ScanComplete(entries: seq<Json>, i: nat, now: int, parse: Json -> Option<Stamp>, tolerant: bool)
    requires i <= |entries|
    ensures var r := ScanFrom(entries, i, now, parse, tolerant);
            !r.raised ==> forall k :: i <= k < |entries| ==>
              && (Judge(entries[k], now, parse) == Due <==> k in r.due)
              && r.marked[k] == (if Judge(entries[k], now, parse) == Due then Mark(entries[k]) else entries[k])
    decreases |entries| - i
  {
    if i < |entries| {
      var r := ScanFrom(entries, i, now, parse, tolerant);
      var rest := ScanFrom(entries, i + 1, now, parse, tolerant);
      ScanComplete(entries, i + 1, now, parse, tolerant);
      ScanDue(entries, i + 1, now, parse, tolerant);
      if !r.raised {
        var v := Judge(entries[i], now, parse);
        assert v == Raises ==> r == rest;
        assert v == Due ==> r == Scan(rest.marked[i := Mark(entries[i])], [i] + rest.due, rest.raised);
        assert v != Due && v != Raises ==> r == rest;
        assert !rest.raised;
        assert i !in rest.due;
      }
    }
  }

  /** The sessions an alarm goes to: those with a registered websocket,
      in `get_all_sessions()` order. */
  function Targets(sessions: seq<string>, registered: set<string>): (ts: seq<string>)
    ensures forall j :: 0 <= j < |ts| ==> ts[j] in registered
  {
    if sessions == [] then []
    else (if sessions[0] in registered then [sessions[0]] else []) + Targets(sessions[1..], registered)
  }

  /** `Targets` keeps exactly the registered sessions. */
  lemma {:induction false} TargetsExactly(sessions: seq<string>, registered: set<string>, id: string)
    ensures id in Targets(sessions, registered) <==> id in sessions && id in registered
  {
    if sessions != [] {
      TargetsExactly(sessions[1..], registered, id);
      assert sessions == [sessions[0]] + sessions[1..];
    }
  }

  /** One delivery task: the entry at `alarm`, marked, to session `session`. */
  datatype Task = Task(alarm: nat, session: string)

  /** A task per due entry and target, entry by entry. */
  function Tasks(due: seq<nat>, targets: seq<string>): (ts: seq<Task>)
    ensures |ts| == |due| * |targets|
    ensures forall k :: 0 <= k < |ts| ==> ts[k].alarm in due && ts[k].session in targets
  {
    if due == [] then []
    else
      var head := seq(|targets|, j requires 0 <= j < |targets| => Task(due[0], targets[j]));
      var rest := Tasks(due[1..], targets);
      assert forall k :: 0 <= k < |rest| ==> rest[k].alarm in due;
      head + rest
  }

  /** The tasks are exactly the pairs of a due entry and a target. */
  lemma {:induction false} TasksExactly(due: seq<nat>, targets: seq<string>, t: Task)
    ensures t in Tasks(due, targets) <==> t.alarm in due && t.session in targets
  {
    if due != [] {
      TasksExactly(due[1..], targets, t);
      var head := seq(|targets|, j requires 0 <= j < |targets| => Task(due[0], targets[j]));
      assert t in head <==> t.alarm == due[0] && t.session in targets by {
        if t.alarm == due[0] && t.session in targets {
          var j :| 0 <= j < |targets| && targets[j] == t.session;
          assert head[j] == t;
        }
      }
      assert due == [due[0]] + due[1..];
    }
  }

  /** What a poll leaves behind: the file's contents and the tasks it
      started. */
  datatype Poll = Poll(file: Option<Json>, tasks: seq<Task>)

  /** The entries `for alarm in alarms` visits: a list's items; an empty
      object or string has none; any other value raises at once (a key or
      character has no `.get`, a number is not iterable). */
  function Entries(j: Json): Option<seq<Json>> {
    match j
    case JArr(items) => Some(items)
    case JObj(fields) => if fields == map[] then Some([]) else None
    case JStr(s) => if s == [] then Some([]) else None
    case _ => None
  }

  /** One poll of `_alarm_loop`. `file` is what `json.load` read (`None`
      when the file is missing or does not load); `live` is what
      `get_all_sessions()` returns and `registered` the ids with a
      websocket. The file is rewritten only when the loop finished and
      marked something, and then it keeps one entry per entry read. */
  function PollOnce(file: Option<Json>, now: int, parse: Json -> Option<Stamp>,
                    live: seq<Session>, registered: set<string>, tolerant: bool): (p: Poll)
    ensures file.None? ==> p == Poll(None, [])
    ensures forall k :: 0 <= k < |p.tasks| ==> p.tasks[k].session in registered && p.tasks[k].session in Ids(live)
    ensures p.file == file
            || (file.Some? && Entries(file.value).Some? && p.file.Some? && p.file.value.JArr?
                && |p.file.value.items| == |Entries(file.value).value|)
  {
    match file
    case None => Poll(None, [])
    case Some(j) =>
      match Entries(j)
      case None => Poll(file, [])
      case Some(entries) =>
        var sc := ScanFrom(entries, 0, now, parse, tolerant);
        var targets := Targets(Ids(live), registered);
        var tasks := Tasks(sc.due, targets);
        assert forall k :: 0 <= k < |tasks| ==> tasks[k].session in targets;
        assert forall x :: x in targets ==> x in Ids(live) by {
          forall x | x in targets ensures x in Ids(live) {
            TargetsExactly(Ids(live), registered, x);
          }
        }
        if sc.raised || sc.due == [] then Poll(file, tasks)
        else Poll(Some(JArr(sc.marked)), tasks)
  }

  /** The poll's promises: a task goes to a registered session for a due
      entry, every due entry reaches every registered session, already
      triggered or unparseable entries are left alone, and the file is
      rewritten exactly when the loop finished with something marked. */
  lemma PollFacts(file: Option<Json>, now: int, parse: Json -> Option<Stamp>,
                  live: seq<Session>, registered: set<string>, tolerant: bool, t: Task)
    requires file.Some? && Entries(file.value).Some?
    ensures var entries := Entries(file.value).value;
            var sc := ScanFrom(entries, 0, now, parse, tolerant);
            var p := PollOnce(file, now, parse, live, registered, tolerant);
            && (t in p.tasks <==> t.alarm < |entries| && Judge(entries[t.alarm], now, parse) == Due
                                  && t.session in Ids(live) && t.session in registered
                                  && (!sc.raised || t.alarm in sc.due))
            && (p.file != file <==> !sc.raised && sc.due != [])
            && (p.file != file ==>
                  && p.file == Some(JArr(sc.marked)) && |sc.marked| == |entries|
                  && forall k :: 0 <= k < |entries| ==>
                       sc.marked[k] == (if Judge(entries[k], now, parse) == Due then Mark(entries[k]) else entries[k]))
  {
    var entries := Entries(file.value).value;
    var sc := ScanFrom(entries, 0, now, parse, tolerant);
    ScanDue(entries, 0, now, parse, tolerant);
    ScanComplete(entries, 0, now, parse, tolerant);
    TasksExactly(sc.due, Targets(Ids(live), registered), t);
    TargetsExactly(Ids(live), registered, t.session);
    if !sc.raised && sc.due != [] {
      assert JArr(sc.marked) != file.value by {
        var k := sc.due[0];
        assert sc.marked[k] == Mark(entries[k]);
        assert entries[k].JObj?;
        assert "triggered" in Mark(entries[k]).fields && !Truthy(Get(entries[k].fields, "triggered", JNull));
        assert Mark(entries[k]) != entries[k];
      }
    }
  }

  /** A marked entry is skipped by every later poll. */
  lemma MarkedSkipped(entry: Json, now: int, parse: Json -> Option<Stamp>, now2: int)
    requires Judge(entry, now, parse) == Due
    ensures Judge(Mark(entry), now2, parse) == Skipped
  {
  }

  /** Fire once (corrected loop): an alarm delivered by one poll is not
      delivered by the next, whatever the clock says then. */
  lemma FireOnce(file: Option<Json>, now1: int, now2: int, parse: Json -> Option<Stamp>,
                 live1: seq<Session>, live2: seq<Session>, registered1: set<string>, registered2: set<string>,
                 t1: Task, t2: Task)
    requires t1 in PollOnce(file, now1, parse, live1, registered1, true).tasks
    requires t2 in PollOnce(PollOnce(file, now1, parse, live1, registered1, true).file, now2, parse,
                            live2, registered2, true).tasks
    ensures t1.alarm != t2.alarm
  {
    var p1 := PollOnce(file, now1, parse, live1, registered1, true);
    var entries := Entries(file.value).value;
    var sc := ScanFrom(entries, 0, now1, parse, true);
    ScanComplete(entries, 0, now1, parse, true);
    ScanRaised(entries, 0, now1, parse, true);
    PollFacts(file, now1, parse, live1, registered1, true, t1);
    assert p1.file == Some(JArr(sc.marked));
    PollFacts(p1.file, now2, parse, live2, registered2, true, t2);
    if t1.alarm == t2.alarm {
      MarkedSkipped(entries[t1.alarm], now1, parse, now2);
    }
  }

  /** The deliveries of a poll fed `get_all_sessions()` go, alarm by
      alarm, to the registered sessions with a websocket in registration
      order. */
  lemma PollInRegistrationOrder(entries: seq<Json>, now: int, parse: Json -> Option<Stamp>,
                                reg: Registry, registered: set<string>, tolerant: bool)
    requires Consistent(reg)
    ensures var sc := ScanFrom(entries, 0, now, parse, tolerant);
            PollOnce(Some(JArr(entries)), now, parse, AllSessions(reg), registered, tolerant).tasks
              == Tasks(sc.due, Targets(reg.order, registered))
  {
    AllSessionIds(reg);
  }

  /** As written, an entry that raises right after a due one leaves the
      file as it was, while the due one has been delivered. */
  lemma RaisingPollKeepsFile(due: Json, bad: Json, now: int, parse: Json -> Option<Stamp>, s: Session)
    requires Judge(due, now, parse) == Due && Judge(bad, now, parse) == Raises
    ensures PollOnce(Some(JArr([due, bad])), now, parse, [s], {s.id}, false)
            == Poll(Some(JArr([due, bad])), [Task(0, s.id)])
  {
    var entries := [due, bad];
    assert ScanFrom(entries, 1, now, parse, false) == Scan(entries, [], true);
    var sc := ScanFrom(entries, 0, now, parse, false);
    assert sc.due == [0] && sc.raised;
    assert Ids([s]) == [s.id];
    assert Targets([s.id], {s.id}) == [s.id] by {
      assert [s.id][1..] == [];
    }
    assert Tasks([0], [s.id]) == [Task(0, s.id)] by {
      assert [0][1..] == [];
    }
  }

  /** The ISO times of the example below and what `fromisoformat` makes of
      them: 07:00 on 2024-01-01 as minutes of that day, naive or with an
      offset. */
  const NaiveSeven: string := "2024-01-01T07:00"
  const AwareSeven: string := "2024-01-01T07:00+07:00"

  function ExampleParse(j: Json): Option<Stamp> {
    if j == JStr(NaiveSeven) then Some(Stamp(420, false))
    else if j == JStr(AwareSeven) then Some(Stamp(420, true))
    else None
  }

  /** As written, one entry with an offset in its time stops the poll
      before the file is rewritten, so a due alarm ahead of it is
      delivered again on every poll: here at 07:10 and again at 07:15. */
  lemma RedeliveredAsWritten(s: Session)
    ensures var due := JObj(map["time" := JStr(NaiveSeven)]);
            var aware := JObj(map["time" := JStr(AwareSeven)]);
            var file := Some(JArr([due, aware]));
            var p1 := PollOnce(file, 430, ExampleParse, [s], {s.id}, false);
            var p2 := PollOnce(p1.file, 435, ExampleParse, [s], {s.id}, false);
            && p1.tasks == [Task(0, s.id)] && p1.file == file
            && p2.tasks == [Task(0, s.id)]
  {
    var due := JObj(map["time" := JStr(NaiveSeven)]);
    var aware := JObj(map["time" := JStr(AwareSeven)]);
    assert Get(due.fields, "time", JNull) == JStr(NaiveSeven);
    assert Get(aware.fields, "time", JNull) == JStr(AwareSeven);
    assert JStr(AwareSeven) != JStr(NaiveSeven) by {
      assert |AwareSeven| != |NaiveSeven|;
    }
    assert !Truthy(Get(due.fields, "triggered", JNull)) && !Truthy(Get(aware.fields, "triggered", JNull));
    RaisingPollKeepsFile(due, aware, 430, ExampleParse, s);
    RaisingPollKeepsFile(due, aware, 435, ExampleParse, s);
  }
}

=== FILE: basics.dfy ===
/** Small shared vocabulary: an optional value and raw bytes. */
module Basics {

  /** A value that may be absent (Python's `None`). */
  datatype Option<+T> = None | Some(value: T)

  /** One octet. */
  type Byte = b: int | 0 <= b < 256

  /** A byte string (Python's `bytes`). */
  type Bytes = seq<Byte>

  /** `n` zero bytes (Python's `b"\x00" * n`). */
  function Zeros(n: nat): (z: Bytes)
    ensures |z| == n
    ensures forall i :: 0 <= i < n ==> z[i] == 0
  {
    seq(n, i => 0)
  }

  /** Concatenation of byte strings (`b"".join(parts)`). */
  function ConcatBytes(parts: seq<Bytes>): Bytes {
    if |parts| == 0 then [] else parts[0] + ConcatBytes(parts[1..])
  }

  /** Concatenation distributes over sequence concatenation. */
  lemma {:induction false} ConcatBytesAppend(a: seq<Bytes>, b: seq<Bytes>)
    ensures ConcatBytes(a + b) == ConcatBytes(a) + ConcatBytes(b)
    decreases |a|
  {
    if |a| == 0 {
      assert a + b == b;
    } else {
      assert (a + b)[1..] == a[1..] + b;
      ConcatBytesAppend(a[1..], b);
    }
  }

  /** One part in front adds its bytes in front. */
  lemma ConcatBytesCons(b: Bytes, bs: seq<Bytes>)
    ensures ConcatBytes([b] + bs) == b + ConcatBytes(bs)
  {
    assert ([b] + bs)[1..] == bs;
  }

  /** One part in back adds its bytes in back. */
  lemma ConcatBytesSnoc(bs: seq<Bytes>, b: Bytes)
    ensures ConcatBytes(bs + [b]) == ConcatBytes(bs) + b
  {
    ConcatBytesAppend(bs, [b]);
    ConcatBytesCons(b, []);
    assert [b] + [] == [b];
  }

  lemma AppendAssoc<T>(a: seq<T>, b: seq<T>, c: seq<T>)
    ensures (a + b) + c == a + (b + c)
  {
  }

  /** Dropping the first of the first `k` is taking `k - 1` of the rest. */
  lemma TakeThenDrop<T>(s: seq<T>, k: nat)
    requires 1 <= k <= |s|
    ensures s[..k][1..] == s[1..][..k - 1]
  {
  }

  /** The rest of `a + b` after its first element, when `a` is not empty. */
  lemma DropOfAppend<T>(a: seq<T>, b: seq<T>)
    requires |a| > 0
    ensures (a + b)[0] == a[0] && (a + b)[1..] == a[1..] + b
  {
  }

  /** A non-empty sequence is its first element followed by the rest. */
  lemma ConsOfDrop<T>(s: seq<T>)
    requires |s| > 0
    ensures s == [s[0]] + s[1..]
  {
  }

  /** A prefix of a prefix is a prefix. */
  lemma TakeOfTake<T>(s: seq<T>, j: nat, n: nat)
    requires n <= j <= |s|
    ensures s[..j][..n] == s[..n]
  {
  }

  /** A suffix of a suffix is a suffix. */
  lemma DropOfDrop<T>(s: seq<T>, k: nat, n: nat)
    requires k <= |s| && n <= |s| - k
    ensures s[k..][n..] == s[k + n..]
  {
  }

  /** A slice cut at `j` and `k` is the end of the part before `j`, the
      part between, and the start of the part after `k`. */
  lemma SliceInThree<T>(s: seq<T>, a: nat, j: nat, k: nat, b: nat)
    requires a <= j <= k <= b <= |s|
    ensures s[a..b] == s[..j][a..] + s[j..k] + s[k..][..b - k]
  {
  }

  /** A prefix of a suffix is a middle slice, and the suffix of that suffix
      is a suffix of the whole. */
  lemma DropThenTake<T>(s: seq<T>, a: nat, n: nat)
    requires a + n <= |s|
    ensures s[a..][..n] == s[a..a + n]
    ensures s[a..][n..] == s[a + n..]
  {
  }
}

=== FILE: codec.dfy ===
/** Cutting PCM into Opus frames (app/audio/opus_codec.py). The Opus
    encoder itself is not modelled: it is a function from one frame of PCM
    to its encoding. */
module OpusCodec {

  import opened Basics

  /** PCM bytes per frame: two bytes per 16-bit sample. */
  function FrameBytes(frameSize: nat): nat {
    2 * frameSize
  }

  /** The consecutive `fb`-byte blocks of `pcm`, from offset 0, with a
      shorter remainder left over. */
  function FullBlocks(pcm: Bytes, fb: nat): (bs: seq<Bytes>)
    requires fb > 0
    ensures |bs| == |pcm| / fb
    ensures forall i :: 0 <= i < |bs| ==> |bs[i]| == fb
    decreases |pcm|
  {
    if |pcm| < fb then
      DivOfBounds(|pcm|, fb, 0);
      []
    else
      var rest := FullBlocks(pcm[fb..], fb);
      DivStep(|pcm|, fb);
      [pcm[..fb]] + rest
  }

  /** Block `i` is the bytes at offsets `[i * fb, (i + 1) * fb)`. */
  lemma {:induction false} FullBlockAt(pcm: Bytes, fb: nat, i: nat)
    requires fb > 0 && i < |pcm| / fb
    ensures i * fb + fb <= |pcm|
    ensures FullBlocks(pcm, fb)[i] == pcm[i * fb..i * fb + fb]
    decreases i
  {
    if |pcm| < fb {
      DivOfBounds(|pcm|, fb, 0);
    } else if i == 0 {
      FullBlocksStep(pcm, fb);
    } else {
      DivStep(|pcm|, fb);
      FullBlockAt(pcm[fb..], fb, i - 1);
      BlockAtStep(pcm, fb, i);
    }
  }

  /** `FullBlockAt` for block `i` of `pcm` from block `i - 1` of the bytes
      after the first block. */
  lemma BlockAtStep(pcm: Bytes, fb: nat, i: nat)
    requires fb > 0 && 0 < i < |pcm| / fb && fb <= |pcm| && i - 1 < |pcm[fb..]| / fb
    requires (i - 1) * fb + fb <= |pcm| - fb
    requires FullBlocks(pcm[fb..], fb)[i - 1] == pcm[fb..][(i - 1) * fb..(i - 1) * fb + fb]
    ensures i * fb + fb <= |pcm|
    ensures FullBlocks(pcm, fb)[i] == pcm[i * fb..i * fb + fb]
  {
    FullBlocksStep(pcm, fb);
    ShiftBlock(pcm, fb, i, FullBlocks(pcm[fb..], fb)[i - 1]);
  }

  /** Block `i - 1` of the bytes after the first block is block `i` of
      the whole. */
  lemma ShiftBlock(pcm: Bytes, fb: nat, i: nat, block: Bytes)
    requires i > 0 && fb <= |pcm| && (i - 1) * fb + fb <= |pcm| - fb
    requires block == pcm[fb..][(i - 1) * fb..(i - 1) * fb + fb]
    ensures i * fb + fb <= |pcm|
    ensures block == pcm[i * fb..i * fb + fb]
  {
    MulPred(i, fb);
  }

  /** `i * d == (i - 1) * d + d`. */
  lemma MulPred(i: nat, d: nat)
    requires i > 0
    ensures (i - 1) * d + d == i * d
  {
  }

  /** What is left after the whole blocks: the last `|pcm| % fb` bytes. */
  function Remainder(pcm: Bytes, fb: nat): (rest: Bytes)
    requires fb > 0
    ensures |rest| < fb && |rest| <= |pcm|
    ensures rest == pcm[|pcm| - |rest|..]
    decreases |pcm|
  {
    if |pcm| < fb then pcm else Remainder(pcm[fb..], fb)
  }

  /** The whole blocks glued back together, followed by the remainder, are
      the PCM again: nothing is lost, duplicated or reordered. */
  lemma {:induction false} SplitBlocks(pcm: Bytes, fb: nat)
    requires fb > 0
    ensures ConcatBytes(FullBlocks(pcm, fb)) + Remainder(pcm, fb) == pcm
    decreases |pcm|
  {
    if |pcm| >= fb {
      SplitBlocks(pcm[fb..], fb);
      SplitStep(pcm, fb);
    }
  }

  /** Splitting survives putting one more block in front. */
  lemma SplitStep(pcm: Bytes, fb: nat)
    requires fb > 0 && |pcm| >= fb
    requires ConcatBytes(FullBlocks(pcm[fb..], fb)) + Remainder(pcm[fb..], fb) == pcm[fb..]
    ensures ConcatBytes(FullBlocks(pcm, fb)) + Remainder(pcm, fb) == pcm
  {
    FullBlocksStep(pcm, fb);
    GlueStep(pcm, fb, FullBlocks(pcm[fb..], fb), Remainder(pcm[fb..], fb));
  }

  /** Putting the first `fb` bytes in front of a split of the rest gives a
      split of the whole. */
  lemma GlueStep(pcm: Bytes, fb: nat, full: seq<Bytes>, rest: Bytes)
    requires fb <= |pcm| && ConcatBytes(full) + rest == pcm[fb..]
    ensures ConcatBytes([pcm[..fb]] + full) + rest == pcm
  {
    ConcatBytesCons(pcm[..fb], full);
    AppendAssoc(pcm[..fb], ConcatBytes(full), rest);
    assert pcm == pcm[..fb] + pcm[fb..];
  }

  /** A PCM of at least one block is that block followed by the blocks
      and remainder of the rest. */
  lemma FullBlocksStep(pcm: Bytes, fb: nat)
    requires fb > 0 && |pcm| >= fb
    ensures FullBlocks(pcm, fb) == [pcm[..fb]] + FullBlocks(pcm[fb..], fb)
    ensures Remainder(pcm, fb) == Remainder(pcm[fb..], fb)
  {
  }

  /** `fb`-byte blocks glue to `|bs| * fb` bytes. */
  lemma {:induction false} ConcatLength(bs: seq<Bytes>, fb: nat)
    requires forall i :: 0 <= i < |bs| ==> |bs[i]| == fb
    ensures |ConcatBytes(bs)| == |bs| * fb
    decreases |bs|
  {
    if |bs| > 0 {
      ConcatLength(bs[1..], fb);
      MulPred(|bs|, fb);
    }
  }

  /** The blocks and remainder of `pcm` are the only way to write it as
      `fb`-byte blocks followed by something shorter. */
  lemma {:induction false} BlocksUnique(bs: seq<Bytes>, rest: Bytes, pcm: Bytes, fb: nat)
    requires fb > 0 && |rest| < fb
    requires forall i :: 0 <= i < |bs| ==> |bs[i]| == fb
    requires ConcatBytes(bs) + rest == pcm
    ensures bs == FullBlocks(pcm, fb)
    ensures rest == Remainder(pcm, fb)
    decreases |bs|
  {
    if |bs| == 0 {
      assert pcm == rest;
    } else {
      var tail := ConcatBytes(bs[1..]) + rest;
      assert pcm == bs[0] + tail;
      assert pcm[..fb] == bs[0];
      assert pcm[fb..] == tail;
      BlocksUnique(bs[1..], rest, tail, fb);
    }
  }

  /** The encoder applied to each block, in order. */
  function EncodeEach(blocks: seq<Bytes>, encode: Bytes -> Bytes): (frames: seq<Bytes>)
    ensures |frames| == |blocks|
    ensures forall i :: 0 <= i < |blocks| ==> frames[i] == encode(blocks[i])
  {
    seq(|blocks|, i requires 0 <= i < |blocks| => encode(blocks[i]))
  }

  /** `encode_all`: encodes every whole frame of the PCM from offset 0, in
      order, and drops a trailing partial frame. A zero frame size would
      never leave the loop, so it is excluded. */
  method EncodeAll(pcm: Bytes, fb: nat, encode: Bytes -> Bytes) returns (frames: seq<Bytes>)
    requires fb > 0
    ensures |frames| == |pcm| / fb
    ensures frames == EncodeEach(FullBlocks(pcm, fb), encode)
  {
    frames := [];
    var offset := 0;
    while offset + fb <= |pcm|
      invariant offset <= |pcm|
      invariant EncodeEach(FullBlocks(pcm, fb), encode) == frames + EncodeEach(FullBlocks(pcm[offset..], fb), encode)
      decreases |pcm| - offset
    {
      var frame := encode(pcm[offset..offset + fb]);
      EncodeStep(pcm, offset, fb, encode);
      AppendAssoc(frames, [frame], EncodeEach(FullBlocks(pcm[offset + fb..], fb), encode));
      frames := frames + [frame];
      offset := offset + fb;
    }
    assert FullBlocks(pcm[offset..], fb) == [];
    assert frames + [] == frames;
  }

  /** Encoding from `offset` is the frame at `offset` followed by the
      encoding from the next frame. */
  lemma EncodeStep(pcm: Bytes, offset: nat, fb: nat, encode: Bytes -> Bytes)
    requires fb > 0 && offset + fb <= |pcm|
    ensures EncodeEach(FullBlocks(pcm[offset..], fb), encode)
            == [encode(pcm[offset..offset + fb])] + EncodeEach(FullBlocks(pcm[offset + fb..], fb), encode)
  {
    var chunk := pcm[offset..offset + fb];
    assert pcm[offset..][fb..] == pcm[offset + fb..] && pcm[offset..][..fb] == chunk;
    FullBlocksStep(pcm[offset..], fb);
    EncodeEachCons(chunk, FullBlocks(pcm[offset + fb..], fb), encode);
  }

  lemma EncodeEachSnoc(bs: seq<Bytes>, b: Bytes, encode: Bytes -> Bytes)
    ensures EncodeEach(bs + [b], encode) == EncodeEach(bs, encode) + [encode(b)]
  {
  }

  lemma EncodeEachCons(b: Bytes, bs: seq<Bytes>, encode: Bytes -> Bytes)
    ensures EncodeEach([b] + bs, encode) == [encode(b)] + EncodeEach(bs, encode)
  {
  }

  /** Encoded frame `i` is the encoding of the PCM at offsets
      `[i * fb, (i + 1) * fb)`: the frames are contiguous and in order. */
  lemma EncodeAllContiguous(pcm: Bytes, fb: nat, encode: Bytes -> Bytes, i: nat)
    requires fb > 0 && i < |pcm| / fb
    ensures i * fb + fb <= |pcm|
    ensures EncodeEach(FullBlocks(pcm, fb), encode)[i] == encode(pcm[i * fb..i * fb + fb])
  {
    FullBlockAt(pcm, fb, i);
  }

  /** `n // d == k` when `k * d <= n < (k + 1) * d`. */
  lemma DivOfBounds(n: nat, d: nat, k: nat)
    requires d > 0 && k * d <= n < k * d + d
    ensures n / d == k
  {
    var q := n / d;
    assert q * d <= n < q * d + d;
    if q < k {
      MulMono(q + 1, k, d);
    } else if q > k {
      MulMono(k + 1, q, d);
    }
  }

  /** Multiplication by a natural number is monotone. */
  lemma MulMono(a: nat, b: nat, d: nat)
    requires a <= b
    ensures a * d <= b * d
  {
  }

  /** One block off the front is one off the quotient. */
  lemma DivStep(n: nat, d: nat)
    requires d > 0 && n >= d
    ensures n / d == 1 + (n - d) / d
  {
    var k := (n - d) / d;
    assert k * d <= n - d < k * d + d;
    assert (k + 1) * d == k * d + d;
    DivOfBounds(n, d, k + 1);
  }
}

=== FILE: config.dfy ===
/** Start-up configuration (app/config.py): the `.env` loader, the audio
    frame arithmetic and the LLM provider chain read from the environment.
    The environment is a map from variable names to values; reading the
    `.env` file itself is not modelled, its text is a parameter. */
module Config {

  import opened Basics
  import opened Strings
  import opened OpusCodec

  /** The process environment. */
  type Env = map<string, string>

  /** `os.environ.get(name, default)`. */
  function EnvGet(env: Env, name: string, default: string): string {
    if name in env then env[name] else default
  }

  // ---------------------------------------------------------------------
  // .env loading
  // ---------------------------------------------------------------------

  /** The characters `str.splitlines` breaks at. */
  predicate IsLineBreak(c: char) {
    var n := c as int;
    n == 0x0A || n == 0x0D || n == 0x0B || n == 0x0C || n == 0x1C || n == 0x1D || n == 0x1E
    || n == 0x85 || n == 0x2028 || n == 0x2029
  }

  /** The lines of a text, cut at every line-break character. Unlike
      `splitlines`, "\r\n" yields an empty line between the two characters
      and a trailing break yields an empty last line; every such extra line
      is blank and the loader skips blank lines, so the loader sees the
      same lines. */
  function Lines(text: string): (lines: seq<string>)
    ensures |lines| >= 1
    ensures forall k :: 0 <= k < |lines| ==> forall j :: 0 <= j < |lines[k]| ==> !IsLineBreak(lines[k][j])
    decreases |text|
  {
    var i := FindFirst(text, IsLineBreak);
    if i == |text| then [text] else [text[..i]] + Lines(text[i + 1..])
  }

  /** One `.env` line: skipped (`None`) when blank after stripping, a `#`
      comment, or without `=`; otherwise the stripped text before the
      first `=` and the stripped text after it. */
  function EnvLine(line: string): (r: Option<(string, string)>)
    ensures r.None? <==> var l := Strip(line); |l| == 0 || l[0] == '#' || '=' !in l
    ensures r.Some? ==> '=' !in r.value.0 && Strip(r.value.0) == r.value.0 && Strip(r.value.1) == r.value.1
    ensures r.Some? ==> exists before, after :: Strip(line) == before + "=" + after
                         && '=' !in before && r.value == (Strip(before), Strip(after))
  {
    var l := Strip(line);
    if |l| == 0 || l[0] == '#' || '=' !in l then None
    else
      var (key, value) := Partition(l, '=');
      assert '=' !in Strip(key) by {
        var a := LeadingCount(key, IsSpace);
        assert Strip(key) == key[a..a + |Strip(key)|];
      }
      StripIdempotent(key);
      StripIdempotent(value);
      Some((Strip(key), Strip(value)))
  }

  /** A well-formed assignment line reads back as written. */
  lemma EnvLineRoundTrip(key: string, value: string)
    requires |key| > 0 && key[0] != '#' && '=' !in key && Strip(key) == key && Strip(value) == value
    ensures EnvLine(key + "=" + value) == Some((key, value))
  {
    var line := key + "=" + value;
    assert line == key + ['='] + value;
    assert line[0] == key[0];
    if |value| > 0 {
      assert line[|line| - 1] == value[|value| - 1];
    }
    StripOfTrimmed(line);
    PartitionOf(line, '=', key, value);
  }

  /** `os.environ.setdefault(key, value)` for one line: a variable already
      set keeps its value. `None` when the line assigns the empty name to
      an unset variable: Python refuses it with `ValueError` and the module
      fails to import. */
  function SetDefault(env: Env, line: string): (r: Option<Env>)
    ensures EnvLine(line).None? ==> r == Some(env)
    ensures EnvLine(line).Some? && EnvLine(line).value.0 in env ==> r == Some(env)
    ensures r.None? <==> EnvLine(line).Some? && EnvLine(line).value.0 !in env && |EnvLine(line).value.0| == 0
    ensures r.Some? && EnvLine(line).Some? && EnvLine(line).value.0 !in env ==>
              r.value == env[EnvLine(line).value.0 := EnvLine(line).value.1]
  {
    match EnvLine(line)
    case None => Some(env)
    case Some((key, value)) =>
      if key in env then Some(env)
      else if |key| == 0 then None
      else Some(env[key := value])
  }

  /** The `.env` lines applied in order. */
  function LoadEnv(env: Env, lines: seq<string>): (r: Option<Env>)
    ensures r.Some? ==> forall k :: k in env ==> k in r.value && r.value[k] == env[k]
    decreases |lines|
  {
    if |lines| == 0 then Some(env)
    else
      match SetDefault(env, lines[0])
      case None => None
      case Some(e) => LoadEnv(e, lines[1..])
  }

  /** Lines without an assignment leave the environment as it is. */
  lemma {:induction false} LoadEnvNoAssignments(env: Env, lines: seq<string>)
    requires forall i :: 0 <= i < |lines| ==> EnvLine(lines[i]).None?
    ensures LoadEnv(env, lines) == Some(env)
    decreases |lines|
  {
    if |lines| > 0 {
      LoadEnvNoAssignments(env, lines[1..]);
    }
  }

  /** The value the first line assigning `key` gives it, if any line does. */
  function FirstValue(lines: seq<string>, key: string): Option<string>
    decreases |lines|
  {
    if |lines| == 0 then None
    else match EnvLine(lines[0])
      case Some((k, v)) => if k == key then Some(v) else FirstValue(lines[1..], key)
      case None => FirstValue(lines[1..], key)
  }

  /** What loading the lines does to each variable: one already set keeps
      its value; an unset one gets the value of the first line that assigns
      it, and stays unset when no line does. */
  lemma {:induction false} LoadEnvValues(env: Env, lines: seq<string>, key: string)
    requires LoadEnv(env, lines).Some?
    ensures key in env ==> key in LoadEnv(env, lines).value && LoadEnv(env, lines).value[key] == env[key]
    ensures key !in env ==> (key in LoadEnv(env, lines).value <==> FirstValue(lines, key).Some?)
    ensures key !in env && FirstValue(lines, key).Some? ==> LoadEnv(env, lines).value[key] == FirstValue(lines, key).value
    decreases |lines|
  {
    if |lines| > 0 {
      var next := SetDefault(env, lines[0]).value;
      assert LoadEnv(env, lines) == LoadEnv(next, lines[1..]);
      LoadEnvValues(next, lines[1..], key);
      match EnvLine(lines[0])
      case None =>
      case Some((k, v)) =>
        if k != key && k !in env {
          assert next == env[k := v];
        }
    }
  }

  /** The `.env` file's text, line by line. */
  function LoadEnvText(env: Env, text: string): Option<Env> {
    LoadEnv(env, Lines(text))
  }

  // ---------------------------------------------------------------------
  // Audio frames
  // ---------------------------------------------------------------------

  /** Defaults of the two audio directions. */
  const InputSampleRate: int := 16000
  const OutputSampleRate: int := 24000
  const FrameDurationMs: int := 60

  /** Samples per frame: `sample_rate * frame_duration_ms // 1000`, rounded
      down (Dafny's division by a positive constant floors as Python's does). */
  function FrameSize(sampleRate: int, frameDurationMs: int): (n: int)
    ensures n * 1000 <= sampleRate * frameDurationMs < n * 1000 + 1000
  {
    sampleRate * frameDurationMs / 1000
  }

  /** 960 samples per 60 ms input frame, 1440 per output frame, and 2880
      PCM bytes per output frame. */
  lemma DefaultFrameSizes()
    ensures FrameSize(InputSampleRate, FrameDurationMs) == 960
    ensures FrameSize(OutputSampleRate, FrameDurationMs) == 1440
    ensures FrameBytes(1440) == 2880
  {
  }

  // ---------------------------------------------------------------------
  // LLM provider chain
  // ---------------------------------------------------------------------

  /** `LLMProviderConfig`. */
  datatype Provider = Provider(name: string, apiKey: string, baseUrl: string, model: string)

  /** `LLMConfig` without the temperature and the system prompt. */
  datatype LlmConfig = LlmConfig(providers: seq<Provider>, maxTokens: int)

  /** The environment variable names `from_env` reads. */
  datatype ProviderVars = ProviderVars(providers: string, apiKey: string, baseUrl: string, model: string)

  const MainVars: ProviderVars := ProviderVars("LLM_PROVIDERS", "OPENAI_API_KEY", "OPENAI_BASE_URL", "OPENAI_LLM_MODEL")
  const IntentVars: ProviderVars := ProviderVars("INTENT_LLM_PROVIDERS", "INTENT_LLM_API_KEY", "INTENT_LLM_BASE_URL", "INTENT_LLM_MODEL")

  const DefaultMaxTokens: int := 500

  /** One `name|base_url|model[|api_key]` entry: `None` with fewer than
      three fields; fields are stripped, fields after the fourth ignored,
      and a missing key is `defaultKey`. */
  function ProviderOf(entry: string, defaultKey: string): (r: Option<Provider>)
    ensures r.None? <==> |Split(entry, '|')| < 3
    ensures r.Some? ==> var parts := Split(entry, '|');
              r.value.name == Strip(parts[0]) && r.value.baseUrl == Strip(parts[1]) && r.value.model == Strip(parts[2])
              && r.value.apiKey == (if |parts| > 3 then Strip(parts[3]) else defaultKey)
  {
    var parts := Split(entry, '|');
    if |parts| < 3 then None
    else Some(Provider(Strip(parts[0]), if |parts| > 3 then Strip(parts[3]) else defaultKey, Strip(parts[1]), Strip(parts[2])))
  }

  /** A field as the entry format can carry it: no `|` inside and nothing
      for `strip()` to remove. */
  predicate EntryField(f: string) {
    '|' !in f && (|f| > 0 ==> !IsSpace(f[0]) && !IsSpace(f[|f| - 1]))
  }

  /** Writing a provider as `name|base_url|model|api_key` and parsing it
      gives it back; written without the key, it parses with the default
      key. */
  lemma ProviderEntryRoundTrip(p: Provider, defaultKey: string)
    requires EntryField(p.name) && EntryField(p.baseUrl) && EntryField(p.model) && EntryField(p.apiKey)
    ensures ProviderOf(Join([p.name, p.baseUrl, p.model, p.apiKey], '|'), defaultKey) == Some(p)
    ensures ProviderOf(Join([p.name, p.baseUrl, p.model], '|'), defaultKey) == Some(p.(apiKey := defaultKey))
  {
    KeyedEntry(p, defaultKey);
    UnkeyedEntry(p, defaultKey);
  }

  /** The four-field half of the round trip. */
  lemma KeyedEntry(p: Provider, defaultKey: string)
    requires EntryField(p.name) && EntryField(p.baseUrl) && EntryField(p.model) && EntryField(p.apiKey)
    ensures ProviderOf(Join([p.name, p.baseUrl, p.model, p.apiKey], '|'), defaultKey) == Some(p)
  {
    var four := [p.name, p.baseUrl, p.model, p.apiKey];
    assert forall k :: 0 <= k < |four| ==> EntryField(four[k]);
    ProviderFields(four, defaultKey);
  }

  /** The three-field half of the round trip: the key comes from the default. */
  lemma UnkeyedEntry(p: Provider, defaultKey: string)
    requires EntryField(p.name) && EntryField(p.baseUrl) && EntryField(p.model)
    ensures ProviderOf(Join([p.name, p.baseUrl, p.model], '|'), defaultKey) == Some(p.(apiKey := defaultKey))
  {
    var three := [p.name, p.baseUrl, p.model];
    assert forall k :: 0 <= k < |three| ==> EntryField(three[k]);
    ProviderFields(three, defaultKey);
  }

  /** Joined entry fields split back into themselves, so each lands in its place. */
  lemma ProviderFields(fields: seq<string>, defaultKey: string)
    requires 3 <= |fields| && forall k :: 0 <= k < |fields| ==> EntryField(fields[k])
    ensures var r := ProviderOf(Join(fields, '|'), defaultKey);
            r.Some? && r.value.name == fields[0] && r.value.baseUrl == fields[1] && r.value.model == fields[2]
            && r.value.apiKey == (if |fields| > 3 then fields[3] else defaultKey)
  {
    var entry := Join(fields, '|');
    SplitJoin(fields, '|');
    assert Split(entry, '|') == fields;
    StripOfTrimmed(fields[0]);
    StripOfTrimmed(fields[1]);
    StripOfTrimmed(fields[2]);
    if |fields| > 3 {
      StripOfTrimmed(fields[3]);
    }
  }

  /** The providers one `;`-separated entry contributes: none when it is
      blank or has fewer than three fields, otherwise its provider. */
  function EntryProviders(entry: string, defaultKey: string): (ps: seq<Provider>)
    ensures |ps| <= 1
  {
    var e := Strip(entry);
    if |e| == 0 then []
    else match ProviderOf(e, defaultKey)
      case None => []
      case Some(p) => [p]
  }

  /** The providers of the `;`-separated entries, in order, skipping blank
      entries and entries with fewer than three fields. */
  function ParseEntries(entries: seq<string>, defaultKey: string): (ps: seq<Provider>)
    ensures |ps| <= |entries|
    decreases |entries|
  {
    if |entries| == 0 then []
    else EntryProviders(entries[0], defaultKey) + ParseEntries(entries[1..], defaultKey)
  }

  /** Entries are read independently and in order. */
  lemma {:induction false} ParseEntriesAppend(a: seq<string>, b: seq<string>, defaultKey: string)
    ensures ParseEntries(a + b, defaultKey) == ParseEntries(a, defaultKey) + ParseEntries(b, defaultKey)
    decreases |a|
  {
    if |a| > 0 {
      ParseEntriesAppend(a[1..], b, defaultKey);
      AppendStep(a, b, defaultKey);
    } else {
      assert a + b == b;
    }
  }

  /** Appending carries over from the entries after the first to all. */
  lemma AppendStep(a: seq<string>, b: seq<string>, defaultKey: string)
    requires |a| > 0
    requires ParseEntries(a[1..] + b, defaultKey) == ParseEntries(a[1..], defaultKey) + ParseEntries(b, defaultKey)
    ensures ParseEntries(a + b, defaultKey) == ParseEntries(a, defaultKey) + ParseEntries(b, defaultKey)
  {
    DropOfAppend(a, b);
    AppendAssoc(EntryProviders(a[0], defaultKey), ParseEntries(a[1..], defaultKey), ParseEntries(b, defaultKey));
  }

  /** The `LLM_PROVIDERS` value read as provider entries. */
  function ParseProviders(raw: string, defaultKey: string): (r: seq<Provider>)
    ensures |r| <= |Split(raw, ';')|
    ensures r == ParseEntries(Split(raw, ';'), defaultKey)
  {
    if |raw| == 0 then
      assert Split(raw, ';') == [raw];
      assert Strip(raw) == raw;
      []
    else ParseEntries(Split(raw, ';'), defaultKey)
  }

  /** A field that survives the round trip: no whitespace at either end
      (so it is its own `strip()`) and no separator. */
  predicate CleanField(f: string) {
    (|f| > 0 ==> !IsSpace(f[0]) && !IsSpace(f[|f| - 1])) && ';' !in f && '|' !in f
  }

  predicate CleanProvider(p: Provider) {
    CleanField(p.name) && CleanField(p.apiKey) && CleanField(p.baseUrl) && CleanField(p.model)
  }

  /** The four-field entry for a provider. */
  function EntryOf(p: Provider): string {
    p.name + "|" + p.baseUrl + "|" + p.model + "|" + p.apiKey
  }

  /** Joining four parts. */
  lemma Join4(a: string, b: string, c: string, d: string, sep: char)
    ensures Join([a, b, c, d], sep) == a + [sep] + b + [sep] + c + [sep] + d
  {
    assert [a, b, c, d][1..] == [b, c, d];
    assert [b, c, d][1..] == [c, d];
    assert [c, d][1..] == [d];
    assert Join([c, d], sep) == c + [sep] + d;
    assert Join([b, c, d], sep) == b + [sep] + (c + [sep] + d);
  }

  /** The entries of several providers. */
  function EntriesOf(ps: seq<Provider>): (es: seq<string>)
    ensures |es| == |ps| && forall k :: 0 <= k < |ps| ==> es[k] == EntryOf(ps[k])
  {
    seq(|ps|, k requires 0 <= k < |ps| => EntryOf(ps[k]))
  }

  /** An `LLM_PROVIDERS` value listing `ps`. */
  function RenderProviders(ps: seq<Provider>): string
    requires |ps| >= 1
  {
    Join(EntriesOf(ps), ';')
  }

  /** The entry of a clean provider is stripped, holds no `;`, and reads
      back as the provider. */
  lemma EntryOfClean(p: Provider, defaultKey: string)
    requires CleanProvider(p)
    ensures ';' !in EntryOf(p) && |EntryOf(p)| > 0
    ensures Strip(EntryOf(p)) == EntryOf(p)
    ensures ProviderOf(EntryOf(p), defaultKey) == Some(p)
  {
    SplitEntry(p);
    EntryTrimmed(p);
    CleanStripped(p);
    ProviderOfFields(EntryOf(p), p, defaultKey);
  }

  /** The fields of a clean provider are their own `strip()`. */
  lemma CleanStripped(p: Provider)
    requires CleanProvider(p)
    ensures Strip(p.name) == p.name && Strip(p.baseUrl) == p.baseUrl
    ensures Strip(p.model) == p.model && Strip(p.apiKey) == p.apiKey
  {
    StripOfTrimmed(p.name);
    StripOfTrimmed(p.baseUrl);
    StripOfTrimmed(p.model);
    StripOfTrimmed(p.apiKey);
  }

  /** Text that splits into four stripped fields reads as the provider
      with those fields. */
  lemma ProviderOfFields(e: string, p: Provider, defaultKey: string)
    requires Split(e, '|') == [p.name, p.baseUrl, p.model, p.apiKey]
    requires Strip(p.name) == p.name && Strip(p.baseUrl) == p.baseUrl
    requires Strip(p.model) == p.model && Strip(p.apiKey) == p.apiKey
    ensures ProviderOf(e, defaultKey) == Some(p)
  {
  }

  /** An entry whose fields hold no separator splits back into its four
      fields. */
  lemma SplitEntry(p: Provider)
    requires ';' !in p.name && ';' !in p.baseUrl && ';' !in p.model && ';' !in p.apiKey
    requires '|' !in p.name && '|' !in p.baseUrl && '|' !in p.model && '|' !in p.apiKey
    ensures ';' !in EntryOf(p) && |EntryOf(p)| > 0
    ensures Split(EntryOf(p), '|') == [p.name, p.baseUrl, p.model, p.apiKey]
  {
    var fields := [p.name, p.baseUrl, p.model, p.apiKey];
    Join4(p.name, p.baseUrl, p.model, p.apiKey, '|');
    assert EntryOf(p) == Join(fields, '|');
    forall k | 0 <= k < 4
      ensures ';' !in fields[k] && '|' !in fields[k]
    {
      assert fields[k] in {p.name, p.baseUrl, p.model, p.apiKey};
    }
    NotInJoin(fields, '|', ';');
    SplitJoin(fields, '|');
  }

  /** An entry whose name does not start, and whose key does not end, with
      whitespace is its own `strip()`. */
  lemma EntryTrimmed(p: Provider)
    requires |p.name| > 0 ==> !IsSpace(p.name[0])
    requires |p.apiKey| > 0 ==> !IsSpace(p.apiKey[|p.apiKey| - 1])
    ensures Strip(EntryOf(p)) == EntryOf(p)
  {
    var e := EntryOf(p);
    var rest := "|" + p.baseUrl + "|" + p.model + "|";
    assert e == p.name + rest + p.apiKey;
    assert e[0] == if |p.name| > 0 then p.name[0] else '|';
    assert e[|e| - 1] == if |p.apiKey| > 0 then p.apiKey[|p.apiKey| - 1] else '|';
    StripOfTrimmed(e);
  }

  /** A character that is not the separator and occurs in no part does not
      occur in the join. */
  lemma {:induction false} NotInJoin(parts: seq<string>, sep: char, c: char)
    requires |parts| >= 1 && c != sep
    requires forall k :: 0 <= k < |parts| ==> c !in parts[k]
    ensures c !in Join(parts, sep)
    decreases |parts|
  {
    if |parts| > 1 {
      NotInJoin(parts[1..], sep, c);
    }
  }

  /** Parsing back the rendering of clean providers gives the same
      providers in the same order. */
  lemma {:induction false} ParseRenderRoundTrip(ps: seq<Provider>, defaultKey: string)
    requires |ps| >= 1
    requires forall k :: 0 <= k < |ps| ==> CleanProvider(ps[k])
    ensures ParseProviders(RenderProviders(ps), defaultKey) == ps
  {
    var es := EntriesOf(ps);
    forall k | 0 <= k < |ps|
      ensures ';' !in es[k]
    {
      EntryOfClean(ps[k], defaultKey);
    }
    SplitJoin(es, ';');
    assert |RenderProviders(ps)| > 0 by {
      EntryOfClean(ps[0], defaultKey);
      JoinLength(es, ';');
    }
    ParseCleanEntries(ps, defaultKey);
  }

  /** A join is at least as long as its first part. */
  lemma JoinLength(parts: seq<string>, sep: char)
    requires |parts| >= 1
    ensures |Join(parts, sep)| >= |parts[0]|
  {
  }

  lemma {:induction false} ParseCleanEntries(ps: seq<Provider>, defaultKey: string)
    requires forall k :: 0 <= k < |ps| ==> CleanProvider(ps[k])
    ensures ParseEntries(EntriesOf(ps), defaultKey) == ps
    decreases |ps|
  {
    if |ps| > 0 {
      ParseCleanEntries(ps[1..], defaultKey);
      CleanStep(ps, defaultKey);
    }
  }

  /** Reading back carries over from the providers after the first to
      all of them. */
  lemma CleanStep(ps: seq<Provider>, defaultKey: string)
    requires |ps| > 0 && CleanProvider(ps[0])
    requires ParseEntries(EntriesOf(ps[1..]), defaultKey) == ps[1..]
    ensures ParseEntries(EntriesOf(ps), defaultKey) == ps
  {
    var es := EntriesOf(ps);
    EntryOfClean(ps[0], defaultKey);
    EntriesOfTail(ps);
    assert EntryProviders(es[0], defaultKey) == [ps[0]];
    ConsOfDrop(ps);
  }

  lemma EntriesOfTail(ps: seq<Provider>)
    requires |ps| > 0
    ensures EntriesOf(ps)[1..] == EntriesOf(ps[1..])
  {
  }

  /** `LLMConfig.from_env`: the parsed providers, or when there are none a
      single "default" provider from the key, URL and model variables
      (falling back to the OpenAI variables and the local defaults), and
      `int(LLM_MAX_TOKENS)` defaulting to 500. `None` when that value is not
      an integer, or when `float(LLM_TEMPERATURE)` (default "0.7") raises:
      the module then fails to import. Whether Python's `float()` accepts a
      text is the parameter `isFloat`; the temperature's value is not kept. */
  function FromEnv(env: Env, vars: ProviderVars, isFloat: string -> bool): (r: Option<LlmConfig>)
    ensures r.Some? ==> |r.value.providers| >= 1
    ensures r.None? <==> ParseInt(EnvGet(env, "LLM_MAX_TOKENS", "500")).None?
                         || !isFloat(EnvGet(env, "LLM_TEMPERATURE", "0.7"))
    ensures r.Some? ==> var parsed := ParseProviders(EnvGet(env, vars.providers, ""), EnvGet(env, vars.apiKey, ""));
              (|parsed| > 0 ==> r.value.providers == parsed)
              && (|parsed| == 0 ==> r.value.providers == [DefaultProvider(env, vars)])
    ensures "LLM_MAX_TOKENS" !in env && isFloat(EnvGet(env, "LLM_TEMPERATURE", "0.7")) ==>
              r.Some? && r.value.maxTokens == DefaultMaxTokens
  {
    var parsed := ParseProviders(EnvGet(env, vars.providers, ""), EnvGet(env, vars.apiKey, ""));
    var providers := if |parsed| > 0 then parsed else [DefaultProvider(env, vars)];
    ParseDefaultMaxTokens();
    match ParseInt(EnvGet(env, "LLM_MAX_TOKENS", "500"))
    case None => None
    case Some(n) => if isFloat(EnvGet(env, "LLM_TEMPERATURE", "0.7")) then Some(LlmConfig(providers, n)) else None
  }

  /** An `LLM_MAX_TOKENS` of more than 4300 digits makes the configuration
      fail to load, however small the number it spells. */
  lemma LongMaxTokensFails(env: Env, vars: ProviderVars, isFloat: string -> bool)
    requires "LLM_MAX_TOKENS" in env && AllBy(env["LLM_MAX_TOKENS"], IsDigit)
    requires |env["LLM_MAX_TOKENS"]| > MaxStrDigits
    ensures FromEnv(env, vars, isFloat).None?
  {
    TooManyDigitsRaises(env["LLM_MAX_TOKENS"]);
  }

  /** The default `"500"` reads as 500. */
  lemma ParseDefaultMaxTokens()
    ensures ParseInt("500") == Some(DefaultMaxTokens)
  {
    assert NatToString(500) == "500";
    ParseIntOfNat(500);
  }

  /** The fallback provider named "default". */
  function DefaultProvider(env: Env, vars: ProviderVars): (p: Provider)
    ensures p.name == "default"
  {
    Provider("default",
      EnvGet(env, vars.apiKey, EnvGet(env, "OPENAI_API_KEY", "")),
      EnvGet(env, vars.baseUrl, EnvGet(env, "OPENAI_BASE_URL", "http://127.0.0.1:8045/v1")),
      EnvGet(env, vars.model, EnvGet(env, "OPENAI_LLM_MODEL", "claude-sonnet-4-5")))
  }

  /** With nothing configured the chain is the local default endpoint. */
  lemma EmptyEnvironmentDefaults(isFloat: string -> bool)
    requires isFloat("0.7")
    ensures FromEnv(map[], MainVars, isFloat) == Some(LlmConfig([Provider("default", "", "http://127.0.0.1:8045/v1", "claude-sonnet-4-5")], DefaultMaxTokens))
  {
  }

  /** The intent classifier's chain: its own variables when
      `INTENT_LLM_PROVIDERS` is non-blank, otherwise the main chain. */
  function IntentConfig(env: Env, isFloat: string -> bool): (r: Option<LlmConfig>)
    ensures |Strip(EnvGet(env, IntentVars.providers, ""))| == 0 ==> r == FromEnv(env, MainVars, isFloat)
    ensures |Strip(EnvGet(env, IntentVars.providers, ""))| > 0 ==> r == FromEnv(env, IntentVars, isFloat)
  {
    if |Strip(EnvGet(env, IntentVars.providers, ""))| > 0 then FromEnv(env, IntentVars, isFloat) else FromEnv(env, MainVars, isFloat)
  }
}

=== FILE: handler.dfy ===
/** The per-connection websocket handler (app/websocket/handler.py): the
    binary frame header, JSON message dispatch, the MCP request parser, and
    the control state that decides when a recorded utterance is handed to
    the pipeline.

    The connection is a pure step function over a sequence of events.
    Starting an asyncio task is an action the step reports; what a task
    later does to the session (the goodbye task, a pipeline run, an alarm)
    arrives as an event of its own. The transport, logging and pacing are
    not modelled. */
module Handler {

  import opened Basics
  import opened Strings
  import opened JsonValues
  import opened Sessions
  import Tools
  import Alarms

  // ------------------------------------------------------------ binary frames

  /** The big-endian unsigned 16-bit integer `struct.unpack("!H", ...)` reads. */
  function BigEndian16(hi: Byte, lo: Byte): nat {
    hi * 256 + lo
  }

  /** `_extract_opus_payload`: protocol 2 frames longer than 16 bytes lose a
      16-byte header; protocol 3 frames longer than 4 bytes carry their
      payload size big-endian in bytes 2..3 and the payload from byte 4,
      cut at the end of the frame; anything else is passed on whole. */
  function ExtractOpusPayload(data: Bytes, version: int): (r: Bytes)
    ensures |r| <= |data|
    ensures version == 2 && |data| > 16 ==> r == data[16..]
    ensures version == 3 && |data| > 4 ==>
              |r| == Min(BigEndian16(data[2], data[3]), |data| - 4) && r == data[4..4 + |r|]
    ensures !(version == 2 && |data| > 16) && !(version == 3 && |data| > 4) ==> r == data
  {
    if version == 2 && |data| > 16 then data[16..]
    else if version == 3 && |data| > 4 then
      data[4..4 + Min(BigEndian16(data[2], data[3]), |data| - 4)]
    else data
  }

  /** A protocol 3 frame as the device builds it: a type byte, a reserved
      byte, the payload size big-endian, then the payload. */
  function V3Frame(kind: Byte, payload: Bytes): (f: Bytes)
    requires |payload| < 65536
    ensures |f| == |payload| + 4
  {
    [kind, 0, |payload| / 256, |payload| % 256] + payload
  }

  /** A protocol 3 frame gives back its payload, whatever follows it. */
  lemma V3RoundTrip(kind: Byte, payload: Bytes, trailing: Bytes)
    requires 0 < |payload| < 65536
    ensures ExtractOpusPayload(V3Frame(kind, payload) + trailing, 3) == payload
  {
    var data := V3Frame(kind, payload) + trailing;
    assert BigEndian16(data[2], data[3]) == |payload|;
    assert data[4..4 + |payload|] == payload;
  }

  /** A protocol 2 frame gives back everything after its 16-byte header. */
  lemma V2RoundTrip(header: Bytes, payload: Bytes)
    requires |header| == 16 && |payload| > 0
    ensures ExtractOpusPayload(header + payload, 2) == payload
  {
    assert (header + payload)[16..] == payload;
  }

  /** A frame that is all header is not recognised as framed: its header
      bytes are handed to the decoder as if they were audio. */
  lemma HeaderOnlyFrames(kind: Byte, header: Bytes)
    requires |header| == 16
    ensures ExtractOpusPayload(V3Frame(kind, []), 3) == V3Frame(kind, [])
    ensures ExtractOpusPayload(header, 2) == header
  {
  }

  // ------------------------------------------------------------ text frames

  /** The four message types with a handler. */
  datatype Kind = HelloKind | ListenKind | AbortKind | McpKind

  /** The `type` value each handler is registered under. */
  function KindName(k: Kind): string {
    match k
    case HelloKind => "hello"
    case ListenKind => "listen"
    case AbortKind => "abort"
    case McpKind => "mcp"
  }

  /** `handlers.get(msg_type)` for a string type. */
  function KindOf(name: string): (r: Option<Kind>)
    ensures r.Some? ==> KindName(r.value) == name
    ensures r.None? ==> forall k: Kind :: KindName(k) != name
  {
    if name == "hello" then Some(HelloKind)
    else if name == "listen" then Some(ListenKind)
    else if name == "abort" then Some(AbortKind)
    else if name == "mcp" then Some(McpKind)
    else None
  }

  /** Every handler is reached by its own name. */
  lemma KindNamesRoundTrip(k: Kind)
    ensures KindOf(KindName(k)) == Some(k)
  {
  }

  /** The exceptions that end the connection loop. */
  datatype Fault =
    | BadVersion       // `int(proto_version)` on a non-numeric or over-long header
    | NotAnObject      // `msg.get` on JSON that is not an object
    | UnhashableType   // `handlers.get` on a list or object `type`
    | NotADict         // `.get` on a truthy `payload`/`params`/`arguments` that is not an object
    | MissingIdling    // `session.is_idling` read before any assignment

  /** What `_on_text` does with a frame. */
  datatype Dispatch = Ignored | Route(kind: Kind, msg: Dict) | Fails(fault: Fault)

  /** `msg.get("type", "")`. */
  function TypeOf(msg: Dict): Json {
    Get(msg, "type", JStr(""))
  }

  /** `_on_text`, given what `json.loads` made of the frame (`None` when it
      raised). Invalid JSON and unknown types are logged and ignored; JSON
      that is not an object, or whose type is a list or object, raises. */
  function OnText(parsed: Option<Json>): (r: Dispatch)
    ensures parsed.None? ==> r == Ignored
    ensures r.Fails? <==> parsed.Some? && (!parsed.value.JObj? || TypeOf(parsed.value.fields).JArr? || TypeOf(parsed.value.fields).JObj?)
    ensures r.Route? <==> parsed.Some? && parsed.value.JObj? && exists k: Kind :: TypeOf(parsed.value.fields) == JStr(KindName(k))
    ensures r.Route? ==> parsed == Some(JObj(r.msg)) && TypeOf(r.msg) == JStr(KindName(r.kind))
  {
    match parsed
    case None => Ignored
    case Some(JObj(msg)) =>
      (match TypeOf(msg)
       case JArr(_) => Fails(UnhashableType)
       case JObj(_) => Fails(UnhashableType)
       case JStr(name) =>
         (match KindOf(name)
          case Some(k) => Route(k, msg)
          case None => Ignored)
       case _ => Ignored)
    case Some(_) => Fails(NotAnObject)
  }

  // ------------------------------------------------------------ MCP requests

  /** `x.get(key)` on a value that should be a dict: `None` when it is not. */
  function Field(x: Json, key: string): Option<Json> {
    if x.JObj? then Some(Get(x.fields, key, JNull)) else None
  }

  /** `x or {}`. */
  function OrEmpty(x: Json): (r: Json)
    ensures Truthy(x) ==> r == x
    ensures !Truthy(x) ==> r == JObj(map[])
  {
    if Truthy(x) then x else JObj(map[])
  }

  /** `(outer.get(key) or {}).get(inner)`, `None` when either `.get` raises. */
  function Nested(outer: Json, key: string, inner: string): Option<Json> {
    match Field(outer, key)
    case None => None
    case Some(v) => Field(OrEmpty(v), inner)
  }

  /** Where Python's lazy `a or b or ...` stops when evaluating an operand
      may raise (`None`): at the first operand that raises or is truthy, or
      at the last. */
  function OrStop(operands: seq<Option<Json>>): (k: nat)
    requires |operands| > 0
    ensures k < |operands|
    ensures forall j :: 0 <= j < k ==> operands[j].Some? && !Truthy(operands[j].value)
    ensures operands[k].None? || Truthy(operands[k].value) || k == |operands| - 1
  {
    if |operands| == 1 || operands[0].None? || Truthy(operands[0].value) then 0
    else 1 + OrStop(operands[1..])
  }

  /** The value of the lazy `or` chain, `None` when it raises. */
  function OrChain(operands: seq<Option<Json>>): Option<Json>
    requires |operands| > 0
  {
    operands[OrStop(operands)]
  }

  /** An MCP request after `_handle_mcp` has resolved its fields. */
  datatype McpRequest = ListTools | CallTool(name: Json, arguments: Json) | Unsupported(op: Json)

  /** The aliases of the two supported operations. */
  predicate IsListOp(op: Json) {
    op == JStr("tools/list") || op == JStr("list_tools") || op == JStr("mcp.tools.list")
  }

  predicate IsCallOp(op: Json) {
    op == JStr("tools/call") || op == JStr("call_tool") || op == JStr("mcp.tools.call")
  }

  /** The operands of the `op` chain: `msg.op`, `payload.op`, `msg.method`,
      `payload.method`, where `payload` is `msg.get("payload") or {}`. */
  function OpSources(msg: Dict): seq<Option<Json>> {
    var payload := OrEmpty(Get(msg, "payload", JNull));
    [Some(Get(msg, "op", JNull)), Field(payload, "op"), Some(Get(msg, "method", JNull)), Field(payload, "method")]
  }

  /** The operands of the `name` or `arguments` chain: the flat field, the
      field of `payload`, of `msg.params` and of `payload.params`. */
  function FieldSources(msg: Dict, key: string): seq<Option<Json>> {
    var payload := OrEmpty(Get(msg, "payload", JNull));
    [Some(Get(msg, key, JNull)), Field(payload, key), Field(OrEmpty(Get(msg, "params", JNull)), key), Nested(payload, "params", key)]
  }

  /** `_handle_mcp`'s field resolution. The op is the first truthy of four
      places; a list alias asks for the tool list, a call alias for a tool
      call whose name and arguments are found the same way, with the
      arguments defaulting to `{}`; anything else is unsupported. `None`
      when a `.get` raises on a truthy non-object. */
  function ResolveMcp(msg: Dict): (r: Option<McpRequest>)
    ensures r.Some? ==> OrChain(OpSources(msg)).Some?
    ensures r == Some(ListTools) <==> OrChain(OpSources(msg)).Some? && IsListOp(OrChain(OpSources(msg)).value)
    ensures r.Some? && r.value.Unsupported? <==>
              OrChain(OpSources(msg)).Some? && !IsListOp(OrChain(OpSources(msg)).value) && !IsCallOp(OrChain(OpSources(msg)).value)
    ensures r.Some? && r.value.Unsupported? ==> r.value.op == OrChain(OpSources(msg)).value
    ensures r.Some? && r.value.CallTool? ==>
              && Some(r.value.name) == OrChain(FieldSources(msg, "name"))
              && (Truthy(r.value.arguments) || r.value.arguments == JObj(map[]))
  {
    match OrChain(OpSources(msg))
    case None => None
    case Some(op) =>
      if IsListOp(op) then Some(ListTools)
      else if IsCallOp(op) then
        match OrChain(FieldSources(msg, "name"))
        case None => None
        case Some(name) =>
          match OrChain(FieldSources(msg, "arguments") + [Some(JObj(map[]))])
          case None => None
          case Some(arguments) => Some(CallTool(name, arguments))
      else Some(Unsupported(op))
  }

  /** The flat request format names the call directly. */
  lemma McpFlatFormat(msg: Dict, name: string, arguments: Dict)
    requires |name| > 0 && |arguments| > 0
    requires msg == map["type" := JStr("mcp"), "op" := JStr("tools/call"), "name" := JStr(name), "arguments" := JObj(arguments)]
    ensures ResolveMcp(msg) == Some(CallTool(JStr(name), JObj(arguments)))
  {
    assert OpSources(msg)[0] == Some(JStr("tools/call"));
    assert OrChain(OpSources(msg)) == Some(JStr("tools/call"));
    assert FieldSources(msg, "name")[0] == Some(JStr(name));
    assert OrChain(FieldSources(msg, "name")) == Some(JStr(name));
    assert (FieldSources(msg, "arguments") + [Some(JObj(map[]))])[0] == Some(JObj(arguments));
  }

  /** The payload/params format asks for the same call as the flat one. */
  lemma McpNestedFormat(msg: Dict, name: string, arguments: Dict)
    requires |name| > 0 && |arguments| > 0
    requires msg == map["type" := JStr("mcp"), "payload" := JObj(map["method" := JStr("tools/call"),
                        "params" := JObj(map["name" := JStr(name), "arguments" := JObj(arguments)])])]
    ensures ResolveMcp(msg) == Some(CallTool(JStr(name), JObj(arguments)))
  {
    var params := map["name" := JStr(name), "arguments" := JObj(arguments)];
    var payload := map["method" := JStr("tools/call"), "params" := JObj(params)];
    assert "name" != "type" by {
      assert "name"[0] != "type"[0];
    }
    NestedCallResolves(msg, payload, params, name, arguments);
  }

  /** A message whose only request fields sit in `payload`, with the
      method there and the name and arguments in `payload.params`, asks
      for that call. */
  lemma NestedCallResolves(msg: Dict, payload: Dict, params: Dict, name: string, arguments: Dict)
    requires |name| > 0 && |arguments| > 0
    requires "op" !in msg && "method" !in msg && "params" !in msg && "name" !in msg && "arguments" !in msg
    requires "payload" in msg && msg["payload"] == JObj(payload)
    requires "op" !in payload && "name" !in payload && "arguments" !in payload
    requires "method" in payload && payload["method"] == JStr("tools/call")
    requires "params" in payload && payload["params"] == JObj(params)
    requires "name" in params && params["name"] == JStr(name)
    requires "arguments" in params && params["arguments"] == JObj(arguments)
    ensures ResolveMcp(msg) == Some(CallTool(JStr(name), JObj(arguments)))
  {
    assert OrEmpty(Get(msg, "payload", JNull)) == JObj(payload);
    assert OrEmpty(Get(msg, "params", JNull)) == JObj(map[]);
    var ops := OpSources(msg);
    assert ops[0] == ops[1] == ops[2] == Some(JNull) && ops[3] == Some(JStr("tools/call"));
    OrChainAtFourth(ops);
    var names := FieldSources(msg, "name");
    assert names[0] == names[1] == names[2] == Some(JNull) && names[3] == Some(JStr(name));
    OrChainAtFourth(names);
    var args := FieldSources(msg, "arguments") + [Some(JObj(map[]))];
    assert args[0] == args[1] == args[2] == Some(JNull) && args[3] == Some(JObj(arguments));
    OrChainAtFourth(args);
    assert !IsListOp(JStr("tools/call")) && IsCallOp(JStr("tools/call"));
  }

  /** Three falsy operands followed by a truthy one: the chain yields the
      fourth. */
  lemma OrChainAtFourth(ops: seq<Option<Json>>)
    requires |ops| >= 4
    requires ops[0] == ops[1] == ops[2] == Some(JNull)
    requires ops[3].Some? && Truthy(ops[3].value)
    ensures OrChain(ops) == ops[3]
  {
    assert OrStop(ops[3..]) == 0;
    assert ops[1..][1..][1..] == ops[3..];
  }

  /** A call request without any arguments calls the tool with `{}`. */
  lemma McpArgumentsDefault(name: string)
    requires |name| > 0
    ensures ResolveMcp(map["op" := JStr("call_tool"), "name" := JStr(name)]) == Some(CallTool(JStr(name), JObj(map[])))
  {
    var msg := map["op" := JStr("call_tool"), "name" := JStr(name)];
    assert OrChain(OpSources(msg)) == Some(JStr("call_tool"));
    assert OrChain(FieldSources(msg, "name")) == Some(JStr(name));
    assert FieldSources(msg, "arguments") + [Some(JObj(map[]))]
        == [Some(JNull), Some(JNull), Some(JNull), Some(JNull), Some(JObj(map[]))];
  }

  /** The reply `_handle_mcp` sends for a request, given the tool's result
      when it is a call (`None` when calling it raised). `None` when no reply
      is sent because the call raised. */
  function McpReply(request: McpRequest, result: Option<Tools.ToolResult>): (r: Option<Dict>)
    ensures r.Some? ==> HasEntry(r.value, "type", JStr("mcp"))
    ensures request.ListTools? ==>
              r.Some? && HasEntry(r.value, "ok", JBool(true)) && HasEntry(r.value, "tools", JArr(Tools.ListTools()))
    ensures request.Unsupported? ==> r.Some? && HasEntry(r.value, "ok", JBool(false)) && "error" in r.value
    ensures request.CallTool? ==> (r.Some? <==> result.Some?)
    ensures request.CallTool? && result.Some? ==>
              && HasEntry(r.value, "name", request.name)
              && HasEntry(r.value, "ok", JBool(result.value.ok))
              && HasEntry(r.value, "content", JArr(result.value.content))
  {
    match request
    case ListTools => Some(ListReply())
    case CallTool(name, _) => if result.Some? then Some(CallReply(name, result.value)) else None
    case Unsupported(op) => Some(UnsupportedReply(op))
  }

  /** The `tools/list` reply. */
  function ListReply(): (d: Dict)
    ensures HasEntry(d, "type", JStr("mcp")) && HasEntry(d, "ok", JBool(true))
    ensures HasEntry(d, "tools", JArr(Tools.ListTools()))
  {
    assert "ok" != "type" && "tools" != "ok" && "tools" != "type" by {
      assert "ok"[0] != "type"[0] && "tools"[1] != "ok"[1] && "tools"[1] != "type"[1];
    }
    map["type" := JStr("mcp"), "op" := JStr("tools/list"), "ok" := JBool(true), "tools" := JArr(Tools.ListTools())]
  }

  /** The `tools/call` reply for a tool result. */
  function CallReply(name: Json, res: Tools.ToolResult): (d: Dict)
    ensures HasEntry(d, "type", JStr("mcp")) && HasEntry(d, "name", name)
    ensures HasEntry(d, "ok", JBool(res.ok)) && HasEntry(d, "content", JArr(res.content))
  {
    assert "name" != "type" && "ok" != "name" && "ok" != "type" && "content" != "ok"
           && "content" != "name" && "content" != "type" by {
      assert "name"[0] != "type"[0] && "ok"[0] != "name"[0] && "ok"[0] != "type"[0];
      assert "content"[0] != "ok"[0] && "content"[0] != "name"[0] && "content"[0] != "type"[0];
    }
    map["type" := JStr("mcp"), "op" := JStr("tools/call"), "name" := name, "ok" := JBool(res.ok), "content" := JArr(res.content)]
  }

  /** The text an unsupported op's error starts with. */
  const UnsupportedPrefix := "Unsupported MCP operation: "

  /** The reply to an operation other than `tools/list` and `tools/call`. */
  function UnsupportedReply(op: Json): (d: Dict)
    ensures HasEntry(d, "type", JStr("mcp")) && HasEntry(d, "ok", JBool(false)) && "error" in d
    ensures d.Keys == {"type", "ok", "error"}
    ensures d["error"].JStr? && |d["error"].s| >= |UnsupportedPrefix|
            && d["error"].s[..|UnsupportedPrefix|] == UnsupportedPrefix
    ensures op.JStr? ==> d["error"] == JStr(UnsupportedPrefix + op.s)
  {
    assert "ok" != "type" && "error" != "ok" && "error" != "type" by {
      assert "ok"[0] != "type"[0] && "error"[0] != "ok"[0] && "error"[0] != "type"[0];
    }
    map["type" := JStr("mcp"), "ok" := JBool(false), "error" := JStr(UnsupportedPrefix + PyStr(op))]
  }

  /** The tool name `call_tool` is given: `str(name or "")`. */
  function ToolName(name: Json): (r: string)
    ensures !Truthy(name) ==> r == ""
    ensures name.JStr? ==> r == name.s
  {
    if Truthy(name) then PyStr(name) else ""
  }

  /** The whole of `_handle_mcp` for a request with a decoded search
      response: resolve, call the tool when asked, reply. `None` when it
      raises. */
  function HandleMcp(msg: Dict, response: Option<Json>): (r: Option<Dict>)
    ensures ResolveMcp(msg).None? ==> r.None?
    ensures ResolveMcp(msg) == Some(ListTools) ==> r.Some? && HasEntry(r.value, "tools", JArr(Tools.ListTools()))
  {
    match ResolveMcp(msg)
    case None => None
    case Some(request) =>
      var result := if request.CallTool? then Tools.CallTool(ToolName(request.name), request.arguments, response) else None;
      McpReply(request, result)
  }

  // ------------------------------------------------------------ replies

  /** `_send_json`: the message goes out with the session's id added. */
  function SendJson(id: string, data: Dict): (r: Dict)
    ensures "session_id" in r && r["session_id"] == JStr(id)
    ensures forall key :: key in data && key != "session_id" ==> key in r && r[key] == data[key]
    ensures r.Keys == data.Keys + {"session_id"}
  {
    data["session_id" := JStr(id)]
  }

  /** The server's output audio parameters, from `config.audio_output`.
      The format is never passed, so it is always `AudioParams`' default. */
  datatype AudioParams = AudioParams(sampleRate: int, channels: int, frameDuration: int)

  /** The default of `AudioParams.format`. */
  const OutputFormat := "opus"

  /** `_handle_hello`'s reply, the `ServerHello` model: exactly the type,
      the websocket transport, the session's id and the output audio
      parameters, whose format is always Opus. */
  function HelloAck(id: string, output: AudioParams): (r: Dict)
    ensures r.Keys == {"type", "transport", "session_id", "audio_params"}
    ensures r["type"] == JStr("hello") && r["transport"] == JStr("websocket")
    ensures r["session_id"] == JStr(id)
    ensures r["audio_params"].JObj?
    ensures r["audio_params"].fields.Keys == {"format", "sample_rate", "channels", "frame_duration"}
    ensures r["audio_params"].fields["format"] == JStr("opus")
    ensures r["audio_params"].fields["sample_rate"] == JInt(output.sampleRate)
    ensures r["audio_params"].fields["channels"] == JInt(output.channels)
    ensures r["audio_params"].fields["frame_duration"] == JInt(output.frameDuration)
  {
    var params := map[
      "format" := JStr(OutputFormat), "sample_rate" := JInt(output.sampleRate),
      "channels" := JInt(output.channels), "frame_duration" := JInt(output.frameDuration)];
    map["type" := JStr("hello"), "transport" := JStr("websocket"), "session_id" := JStr(id), "audio_params" := JObj(params)]
  }

  // ------------------------------------------------------------ the pipeline task

  /** Utterances shorter than this many bytes (0.1 s of 16 kHz 16-bit PCM)
      are dropped. */
  const MinUtteranceBytes: nat := 3200

  /** `_run_pipeline`, with `process` standing for the pipeline run on the
      taken PCM (`None` for no result or an exception). The buffer is always
      taken; a short one is dropped without running anything; otherwise the
      session speaks for the duration of the run and the history gains the
      turn when the run produced one. The second component says whether the
      pipeline ran. */
  function RunPipeline(s: Session, process: Bytes -> Option<(string, string)>): (r: (Session, bool))
    ensures r.0.pcm == []
    ensures r.1 <==> |s.pcm| >= MinUtteranceBytes
    ensures !r.1 ==> r.0 == s.(pcm := [])
    ensures r.1 ==> !r.0.isSpeaking
    ensures r.1 && process(s.pcm).Some? ==>
              r.0.history == SaveHistory(s, process(s.pcm).value.0, process(s.pcm).value.1).history
    ensures r.1 && process(s.pcm).None? ==> r.0.history == s.history
    ensures r.0 == s.(pcm := [], isSpeaking := r.0.isSpeaking, history := r.0.history)
  {
    var (taken, pcm) := TakeAudioBuffer(s);
    if |pcm| < MinUtteranceBytes then (taken, false)
    else
      var speaking := taken.(isSpeaking := true);
      var saved := match process(pcm)
        case Some((user, assistant)) => SaveHistory(speaking, user, assistant)
        case None => speaking;
      (saved.(isSpeaking := false), true)
  }

  /** `safe_send_json`/`safe_send_bytes` over a turn's messages, where
      `fails[i]` says whether the transport would raise on message `i`: the
      first failure closes the channel and nothing further is attempted. */
  method SafeSendAll<M>(msgs: seq<M>, fails: seq<bool>) returns (delivered: seq<M>, attempts: nat)
    requires |fails| == |msgs|
    ensures var f := FirstFailure(fails);
            delivered == msgs[..f] && attempts == (if f < |msgs| then f + 1 else |msgs|)
  {
    var open := true;
    delivered := [];
    attempts := 0;
    var i := 0;
    while i < |msgs|
      invariant 0 <= i <= |msgs|
      invariant open ==> i <= FirstFailure(fails) && delivered == msgs[..i] && attempts == i
      invariant !open ==> FirstFailure(fails) < i && delivered == msgs[..FirstFailure(fails)]
                          && attempts == FirstFailure(fails) + 1
    {
      if open {
        attempts := attempts + 1;
        if fails[i] {
          open := false;
        } else {
          delivered := delivered + [msgs[i]];
        }
      }
      i := i + 1;
    }
  }

  /** Index of the first failing send, or `|fails|`. */
  function FirstFailure(fails: seq<bool>): (k: nat)
    ensures k <= |fails|
    ensures forall j :: 0 <= j < k ==> !fails[j]
    ensures k < |fails| ==> fails[k]
  {
    if |fails| == 0 || fails[0] then 0 else 1 + FirstFailure(fails[1..])
  }

  // ------------------------------------------------------------ the connection

  /** After this many counted frames with no speech the idle goodbye starts
      (about 10 s of 60 ms frames). */
  const IdleTimeoutFrames: nat := 167

  /** One connection's control state: the session, the `protocol-version`
      header, its entry in `_frame_counters` (an absent entry reads as 0),
      its membership of `_pipeline_triggered`, whether the receive loop is
      still running, and the server's output audio parameters. */
  datatype Conn = Conn(
    session: Session,
    version: string,
    frames: nat,
    triggered: bool,
    open: bool,
    output: AudioParams)

  /** What a step asks of the outside world. */
  datatype Action =
    | StartPipeline         // a `_run_pipeline` task, or the awaited run on disconnect
    | StartGoodbye          // a `_goodbye_and_idle` task
    | Send(message: Dict)   // a JSON text frame
    | Mcp(request: McpRequest)  // an MCP request, answered by `HandleMcp`
    | Crash(fault: Fault)   // an exception ending the receive loop

  /** The inputs the connection reacts to. */
  datatype Event =
    | Text(parsed: Option<Json>)                        // a text frame, `None` when it is not JSON
    | Binary(data: Bytes, decoded: Option<Bytes>, rms: nat)  // the decoder's result and the RMS for its payload
    | GoodbyeStarts                                     // the goodbye task marks the session idling
    | GoodbyeEnds                                       // the goodbye task resets the buffer and counter
    | PipelineRuns(process: Bytes -> Option<(string, string)>)  // a pipeline task runs
    | AlarmRings                                        // the alarm scheduler takes the session over
    | AlarmEnds                                         // ... and gives it back
    | Closed                                            // the device disconnects

  /** A fresh connection (`handle_client` after `create_session`). */
  function Connect(id: string, version: string, output: AudioParams): (c: Conn)
    ensures c.open && !c.triggered && c.frames == 0 && c.session.isIdling.None?
  {
    Conn(NewSession(id, MaxChatHistory), version, 0, false, true, output)
  }

  /** `msg.get("state", "")` of a listen message. */
  function StateOf(msg: Dict): Json {
    Get(msg, "state", JStr(""))
  }

  /** A listen message that opens a new listening interval. */
  predicate Rearms(msg: Dict) {
    StateOf(msg) == JStr("start") || StateOf(msg) == JStr("detect")
  }

  /** `_handle_listen`. Start/detect opens a listening interval: fresh
      buffer, not idling, counter at 0, not triggered. Stop hands the
      utterance to the pipeline unless it was already handed over. */
  function OnListen(c: Conn, msg: Dict): (r: (Conn, Option<Action>))
    ensures Rearms(msg) ==> r.1.None? && r.0 == c.(session := r.0.session, frames := 0, triggered := false)
    ensures Rearms(msg) ==> r.0.session == ResetAudioBuffer(c.session).(isIdling := Some(false))
    ensures !Rearms(msg) && StateOf(msg) == JStr("stop") ==>
              (c.triggered ==> r == (c, None)) && (!c.triggered ==> r == (c.(triggered := true), Some(StartPipeline)))
    ensures !Rearms(msg) && StateOf(msg) != JStr("stop") ==> r == (c, None)
  {
    var state := StateOf(msg);
    if Rearms(msg) then
      (c.(session := ResetAudioBuffer(c.session).(isIdling := Some(false)), frames := 0, triggered := false), None)
    else if state == JStr("stop") then
      if c.triggered then (c, None) else (c.(triggered := true), Some(StartPipeline))
    else (c, None)
  }

  /** `_on_text` followed by the handler it routes to. */
  function OnTextStep(c: Conn, parsed: Option<Json>): (r: (Conn, Option<Action>))
    ensures OnText(parsed).Fails? ==> r == (c, Some(Crash(OnText(parsed).fault)))
    ensures OnText(parsed).Ignored? ==> r == (c, None)
    ensures r.0.open == c.open
    ensures Triggered(r.1) ==> r.1 == Some(StartPipeline) && !c.triggered && r.0.triggered
    ensures !IsRearm(Text(parsed)) && !Triggered(r.1) ==> r.0.triggered == c.triggered
    ensures c.session.isIdling.Some? ==> r.0.session.isIdling.Some? && r.1 != Some(Crash(MissingIdling))
  {
    match OnText(parsed)
    case Ignored => (c, None)
    case Fails(fault) => (c, Some(Crash(fault)))
    case Route(kind, msg) =>
      match kind
      case HelloKind => (c, Some(Send(HelloAck(c.session.id, c.output))))
      case ListenKind => OnListen(c, msg)
      case AbortKind => (c.(session := Abort(c.session)), None)
      case McpKind =>
        (match ResolveMcp(msg)
         case None => (c, Some(Crash(NotADict)))
         case Some(request) =>
           if CallRaises(request) then (c, Some(Crash(NotADict))) else (c, Some(Mcp(request))))
  }

  /** A `tools/call` of the music tool whose arguments are truthy but not an
      object: `arguments.get` raises inside `call_tool`, outside any `try`. */
  predicate CallRaises(request: McpRequest) {
    request.CallTool? && ToolName(request.name) == Tools.SearchToolName
    && Truthy(request.arguments) && !request.arguments.JObj?
  }

  /** An MCP frame ends the connection loop exactly when `_handle_mcp` would
      raise on it, whatever the search response; otherwise the request is
      answered and the connection is left as it was. */
  lemma McpStepCrashesIffRaises(c: Conn, parsed: Option<Json>, response: Option<Json>)
    requires OnText(parsed).Route? && OnText(parsed).kind == McpKind
    ensures var r := OnTextStep(c, parsed);
            r.0 == c && r.1.Some?
            && (r.1.value.Crash? <==> HandleMcp(OnText(parsed).msg, response).None?)
            && (!r.1.value.Crash? ==> r.1 == Some(Mcp(ResolveMcp(OnText(parsed).msg).value)))
  {
    var msg := OnText(parsed).msg;
    var r := OnTextStep(c, parsed);
    match ResolveMcp(msg)
    case None =>
      assert r == (c, Some(Crash(NotADict)));
    case Some(request) =>
      assert r == if CallRaises(request) then (c, Some(Crash(NotADict))) else (c, Some(Mcp(request)));
      if request.CallTool? {
        var result := Tools.CallTool(ToolName(request.name), request.arguments, response);
        assert result.None? <==> CallRaises(request);
      }
  }

  /** The VAD fields of a session, which only `check_vad` and a reset touch. */
  function VadState(s: Session): (nat, bool, nat) {
    (s.silentFrames, s.hasSpeech, s.speechFrames)
  }

  /** `handle_client`'s binary branch and `_on_binary`, as written. Empty
      frames are skipped by the loop; an empty payload or a rejected append
      changes nothing. Otherwise the frame is counted, and unless the
      utterance was already handed over the VAD runs: the end of an
      utterance starts the pipeline, and a counter at 167 with no speech
      starts the goodbye unless the session is already idling. Reading
      `is_idling` raises when nothing has assigned it yet. */
  function OnBinary(c: Conn, data: Bytes, decoded: Option<Bytes>, rms: nat): (r: (Conn, Option<Action>))
    ensures r.1.Some? && (r.1.value.StartPipeline? || r.1.value.StartGoodbye?) ==> !c.triggered && r.0.triggered
    ensures r.0.triggered <==> c.triggered || r.1 == Some(StartPipeline) || r.1 == Some(StartGoodbye)
    ensures r.0.frames == c.frames || r.0.frames == c.frames + 1
    ensures r.0.frames == c.frames ==> r.0 == c
    ensures r.0.frames == c.frames + 1 ==> decoded.Some? && r.0.session.pcm == c.session.pcm + decoded.value
    ensures c.triggered && r.0.frames == c.frames + 1 ==> r.1.None? && VadState(r.0.session) == VadState(c.session)
    ensures r.1 == Some(StartPipeline) ==> r.0.session.hasSpeech && r.0.session.silentFrames >= SilenceFramesNeeded
    ensures r.1 == Some(StartGoodbye) ==>
              r.0.frames >= IdleTimeoutFrames && !r.0.session.hasSpeech && r.0.session.isIdling == Some(false)
    ensures r.1 == Some(Crash(MissingIdling)) ==> c.session.isIdling.None?
    ensures r.0.session.isIdling == c.session.isIdling && r.0.open == c.open
  {
    if |data| == 0 then (c, None)
    else match ParseInt(c.version)
      case None => (c, Some(Crash(BadVersion)))
      case Some(version) =>
        var payload := ExtractOpusPayload(data, version);
        if |payload| == 0 then (c, None)
        else
          var (s1, pcm) := AppendAudio(c.session, decoded);
          if pcm.None? then (c, None)
          else
            var count := c.frames + 1;
            if c.triggered then (c.(session := s1, frames := count), None)
            else
              var (s2, vad) := CheckVad(s1, rms);
              var c2 := c.(session := s2, frames := count);
              if vad == SilenceAfterSpeech then (c2.(triggered := true), Some(StartPipeline))
              else if !s2.hasSpeech && count >= IdleTimeoutFrames then
                match s2.isIdling
                case None => (c2, Some(Crash(MissingIdling)))
                case Some(true) => (c2, None)
                case Some(false) => (c2.(triggered := true), Some(StartGoodbye))
              else (c2, None)
  }

  /** A binary frame on a connection whose version header has more than
      4300 digits ends the loop: `int(proto_version)` raises, whatever the
      frame holds. */
  lemma LongVersionCrashes(c: Conn, data: Bytes, decoded: Option<Bytes>, rms: nat)
    requires |data| > 0 && AllBy(c.version, IsDigit) && |c.version| > MaxStrDigits
    ensures OnBinary(c, data, decoded, rms) == (c, Some(Crash(BadVersion)))
  {
    TooManyDigitsRaises(c.version);
  }

  /** The `finally` of `handle_client`: an utterance longer than 3200 bytes
      that was never handed over is run now; then the counter and the
      trigger mark are dropped and the loop is over. */
  function Finish(c: Conn): (r: (Conn, seq<Action>))
    ensures !r.0.open && !r.0.triggered && r.0.frames == 0 && r.0.session == c.session
    ensures r.1 == (if |c.session.pcm| > MinUtteranceBytes && !c.triggered then [StartPipeline] else [])
  {
    var run := |c.session.pcm| > MinUtteranceBytes && !c.triggered;
    (c.(frames := 0, triggered := false, open := false), if run then [StartPipeline] else [])
  }

  /** An event that opens a new listening interval. */
  predicate IsRearm(e: Event) {
    e.Text? && e.parsed.Some? && e.parsed.value.JObj?
    && TypeOf(e.parsed.value.fields) == JStr("listen") && Rearms(e.parsed.value.fields)
  }

  /** The actions that hand an utterance over: a pipeline run or the goodbye. */
  predicate IsTrigger(a: Action) {
    a.StartPipeline? || a.StartGoodbye?
  }

  /** A handler's action, when it is a hand-over. */
  predicate Triggered(a: Option<Action>) {
    a.Some? && IsTrigger(a.value)
  }

  /** The handler an event runs while the loop is alive (any event but the
      disconnect). Only a hand-over sets the trigger mark, and only on an
      utterance not yet handed over; only a listen start or detect clears
      it; `is_idling`, once assigned, stays assigned and is never missed. */
  function React(c: Conn, e: Event): (r: (Conn, Option<Action>))
    requires !e.Closed?
    ensures r.0.open == c.open
    ensures Triggered(r.1) ==> !c.triggered && r.0.triggered
    ensures !IsRearm(e) && !Triggered(r.1) ==> r.0.triggered == c.triggered
    ensures c.session.isIdling.Some? ==> r.0.session.isIdling.Some? && r.1 != Some(Crash(MissingIdling))
  {
    match e
    case Text(parsed) => OnTextStep(c, parsed)
    case Binary(data, decoded, rms) => OnBinary(c, data, decoded, rms)
    case GoodbyeStarts => (c.(session := c.session.(isIdling := Some(true))), None)
    case GoodbyeEnds => (c.(session := ResetAudioBuffer(c.session), frames := 0), None)
    case PipelineRuns(process) => (c.(session := RunPipeline(c.session, process).0), None)
    case AlarmRings => (c.(session := Alarms.AlarmStarts(c.session)), None)
    case AlarmEnds => (c.(session := Alarms.AlarmStops(c.session)), None)
  }

  /** The loop's reaction to a handler's outcome: an exception ends the loop
      through the `finally` block. */
  function Settle(r: (Conn, Option<Action>)): (s: (Conn, seq<Action>))
    ensures r.1.None? ==> s == (r.0, [])
    ensures r.1.Some? && !r.1.value.Crash? ==> s == (r.0, [r.1.value])
    ensures r.1.Some? && r.1.value.Crash? ==> s == (Finish(r.0).0, [r.1.value] + Finish(r.0).1)
  {
    match r.1
    case None => (r.0, [])
    case Some(a) =>
      if a.Crash? then (Finish(r.0).0, [a] + Finish(r.0).1) else (r.0, [a])
  }

  /** One event; a closed connection ignores everything. */
  function Step(c: Conn, e: Event): (r: (Conn, seq<Action>))
    ensures !c.open ==> r == (c, [])
    ensures c.open && e.Closed? ==> r == Finish(c)
    ensures c.open && !e.Closed? ==> r == Settle(React(c, e))
    ensures r.0.open ==> c.open
    ensures forall k :: 0 <= k < |r.1| && r.1[k].Crash? ==> !r.0.open
  {
    if !c.open then (c, [])
    else if e.Closed? then Finish(c)
    else Settle(React(c, e))
  }

  /** The events of a connection, in order. */
  function Run(c: Conn, events: seq<Event>): (r: (Conn, seq<Action>))
    ensures !c.open ==> r == (c, [])
    ensures r.0.open ==> c.open
    ensures forall k :: 0 <= k < |r.1| && r.1[k].Crash? ==> !r.0.open
    decreases |events|
  {
    if |events| == 0 then (c, [])
    else
      var before := Run(c, events[..|events| - 1]);
      var after := Step(before.0, events[|events| - 1]);
      assert !before.0.open ==> after == (before.0, []);
      (after.0, before.1 + after.1)
  }

  function Triggers(actions: seq<Action>): nat {
    if |actions| == 0 then 0 else (if IsTrigger(actions[0]) then 1 else 0) + Triggers(actions[1..])
  }

  lemma {:induction false} TriggersAppend(a: seq<Action>, b: seq<Action>)
    ensures Triggers(a + b) == Triggers(a) + Triggers(b)
    decreases |a|
  {
    if |a| > 0 {
      assert (a + b)[1..] == a[1..] + b;
      TriggersAppend(a[1..], b);
    } else {
      assert a + b == b;
    }
  }

  /** How many more hand-overs the connection may make before the next
      listen start: one while it is open and not yet triggered. */
  function Budget(c: Conn): nat {
    if c.open && !c.triggered then 1 else 0
  }

  /** A step that does not open a new interval hands over at most what the
      budget allows and uses it up when it does. */
  lemma StepSpendsBudget(c: Conn, e: Event)
    requires !IsRearm(e)
    ensures Triggers(Step(c, e).1) + Budget(Step(c, e).0) <= Budget(c)
  {
    if c.open && e.Closed? {
      if |c.session.pcm| > MinUtteranceBytes && !c.triggered {
        TriggersSingle(StartPipeline);
      }
    } else if c.open {
      var r := React(c, e);
      assert Step(c, e) == Settle(r);
      if r.1.Some? && r.1.value.Crash? {
        var more := Finish(r.0).1;
        TriggersAppend([r.1.value], more);
        TriggersSingle(r.1.value);
        if |r.0.session.pcm| > MinUtteranceBytes && !r.0.triggered {
          TriggersSingle(StartPipeline);
        }
      } else if r.1.Some? {
        TriggersSingle(r.1.value);
      }
    }
  }

  lemma TriggersSingle(a: Action)
    ensures Triggers([a]) == if IsTrigger(a) then 1 else 0
  {
  }

  /** At most one hand-over per listening interval: however the events of
      an interval interleave (stop messages, the end-of-utterance VAD, the
      idle timeout, a crash, the disconnect), the utterance is handed to
      the pipeline or the goodbye at most once, and not at all when it was
      already handed over. */
  lemma {:induction false} AtMostOneTriggerPerInterval(c: Conn, events: seq<Event>)
    requires forall k :: 0 <= k < |events| ==> !IsRearm(events[k])
    ensures Triggers(Run(c, events).1) + Budget(Run(c, events).0) <= Budget(c)
    decreases |events|
  {
    if |events| > 0 {
      var init := events[..|events| - 1];
      assert forall k :: 0 <= k < |init| ==> init[k] == events[k];
      AtMostOneTriggerPerInterval(c, init);
      var before := Run(c, init);
      StepSpendsBudget(before.0, events[|events| - 1]);
      TriggersAppend(before.1, Step(before.0, events[|events| - 1]).1);
    }
  }

  /** A listen start or detect opens a fresh interval on an open connection. */
  lemma RearmResets(c: Conn, e: Event)
    requires c.open && IsRearm(e)
    ensures var r := Step(c, e);
            && r.1 == [] && r.0.open && !r.0.triggered && r.0.frames == 0
            && r.0.session.pcm == [] && !r.0.session.aborted && r.0.session.isIdling == Some(false)
            && Budget(r.0) == 1
  {
    var msg := e.parsed.value.fields;
    assert KindOf("listen") == Some(ListenKind);
    assert OnText(e.parsed) == Route(ListenKind, msg);
  }

  /** A stop that repeats, or follows a VAD hand-over, changes nothing. */
  lemma RepeatedStopIsNoOp(c: Conn, msg: Dict)
    requires c.triggered && StateOf(msg) == JStr("stop")
    ensures OnListen(c, msg) == (c, None)
  {
  }

  // ------------------------------------------------------------ idle finding

  /** A quiet 1-byte frame of protocol 1 that decodes to two zero bytes. */
  function QuietFrame(): Event {
    Binary([1], Some([0, 0]), 0)
  }

  /** `int("1")` reads the protocol version 1. */
  lemma VersionOne()
    ensures ParseInt("1") == Some(1)
  {
    ParseIntOfNat(1);
    assert NatToString(1) == "1";
  }

  /** A connection that has seen `n` quiet frames and nothing else. */
  predicate QuietState(c: Conn, n: nat) {
    && c.open && !c.triggered && c.frames == n && ParseInt(c.version) == Some(1)
    && c.session.isIdling.None? && !c.session.aborted && !c.session.hasSpeech && c.session.speechFrames == 0
  }

  /** One more quiet frame below the timeout is counted and nothing else. */
  lemma QuietStep(c: Conn, n: nat)
    requires QuietState(c, n) && n + 1 < IdleTimeoutFrames
    ensures Step(c, QuietFrame()).1 == [] && QuietState(Step(c, QuietFrame()).0, n + 1)
  {
    QuietBinary(c, n);
    assert React(c, QuietFrame()) == OnBinary(c, [1], Some([0, 0]), 0);
  }

  /** The binary handler on a quiet frame: counted, buffered, and below the
      timeout nothing else; at the timeout it reads the unassigned flag. */
  lemma QuietBinary(c: Conn, n: nat)
    requires QuietState(c, n) && n + 1 <= IdleTimeoutFrames
    ensures var r := OnBinary(c, [1], Some([0, 0]), 0);
            if n + 1 < IdleTimeoutFrames then r.1.None? && QuietState(r.0, n + 1)
            else r.1 == Some(Crash(MissingIdling))
  {
    assert ExtractOpusPayload([1], 1) == [1];
    var s1 := AppendAudio(c.session, Some([0, 0])).0;
    assert CheckVad(s1, 0).1 == Silence;
  }

  /** The quiet frame that reaches the timeout reads the unassigned flag. */
  lemma QuietTimeout(c: Conn)
    requires QuietState(c, IdleTimeoutFrames - 1)
    ensures Step(c, QuietFrame()).1[0] == Crash(MissingIdling)
  {
    QuietBinary(c, IdleTimeoutFrames - 1);
    assert React(c, QuietFrame()) == OnBinary(c, [1], Some([0, 0]), 0);
  }

  /** `n` quiet frames in a row. */
  function QuietFrames(n: nat): (events: seq<Event>)
    ensures |events| == n
    ensures n > 0 ==> events[..n - 1] == QuietFrames(n - 1) && events[n - 1] == QuietFrame()
  {
    if n == 0 then [] else QuietFrames(n - 1) + [QuietFrame()]
  }

  /** While fewer than 167 quiet frames have arrived on a fresh connection,
      nothing has happened except counting and buffering. */
  lemma {:induction false} QuietPrefix(id: string, version: string, output: AudioParams, n: nat)
    requires n < IdleTimeoutFrames && ParseInt(version) == Some(1)
    ensures var r := Run(Connect(id, version, output), QuietFrames(n));
            r.1 == [] && QuietState(r.0, n)
  {
    var c := Connect(id, version, output);
    if n == 0 {
      assert Run(c, []) == (c, []);
    } else {
      QuietPrefix(id, version, output, n - 1);
      QuietRunStep(c, QuietFrames(n), n - 1);
    }
  }

  /** A run whose events before the last leave a connection that has seen
      `n` quiet frames and said nothing, and whose last event is one more
      quiet frame below the timeout, has seen `n + 1` and said nothing. */
  lemma QuietRunStep(c: Conn, events: seq<Event>, n: nat)
    requires |events| > 0 && events[|events| - 1] == QuietFrame() && n + 1 < IdleTimeoutFrames
    requires Run(c, events[..|events| - 1]).1 == [] && QuietState(Run(c, events[..|events| - 1]).0, n)
    ensures Run(c, events).1 == [] && QuietState(Run(c, events).0, n + 1)
  {
    var before := Run(c, events[..|events| - 1]);
    QuietStep(before.0, n);
    RunLast(c, events, before, QuietFrame());
  }

  /** A run is the run of all events but the last, then a step on the last. */
  lemma RunLast(c: Conn, events: seq<Event>, before: (Conn, seq<Action>), last: Event)
    requires |events| > 0 && before == Run(c, events[..|events| - 1]) && last == events[|events| - 1]
    ensures Run(c, events) == (Step(before.0, last).0, before.1 + Step(before.0, last).1)
  {
  }

  /** As written, a device that streams 167 quiet frames without ever
      sending listen start or detect crashes its own connection: the idle
      check reads `is_idling`, which nothing has assigned yet. */
  lemma IdleTimeoutCrashes(id: string, output: AudioParams)
    ensures Crash(MissingIdling) in Run(Connect(id, "1", output), QuietFrames(IdleTimeoutFrames)).1
  {
    VersionOne();
    QuietCrash(id, "1", output);
  }

  /** The idle timeout on a connection whose version header reads 1. */
  lemma QuietCrash(id: string, version: string, output: AudioParams)
    requires ParseInt(version) == Some(1)
    ensures Crash(MissingIdling) in Run(Connect(id, version, output), QuietFrames(IdleTimeoutFrames)).1
  {
    QuietPrefix(id, version, output, IdleTimeoutFrames - 1);
    QuietRunTimeout(Connect(id, version, output), QuietFrames(IdleTimeoutFrames));
  }

  /** A run whose events before the last leave a connection one quiet frame
      short of the timeout, and whose last event is that frame, crashes. */
  lemma QuietRunTimeout(c: Conn, events: seq<Event>)
    requires |events| > 0 && events[|events| - 1] == QuietFrame()
    requires QuietState(Run(c, events[..|events| - 1]).0, IdleTimeoutFrames - 1)
    ensures Crash(MissingIdling) in Run(c, events).1
  {
    var before := Run(c, events[..|events| - 1]);
    QuietTimeout(before.0);
    RunLast(c, events, before, QuietFrame());
    assert Step(before.0, QuietFrame()).1[0] in Run(c, events).1;
  }

  /** A fresh connection whose session starts out not idling, as the
      handler evidently assumes. */
  function ConnectNotIdling(id: string, version: string, output: AudioParams): (c: Conn)
    ensures c == Connect(id, version, output).(session := c.session)
    ensures c.session == NewSession(id, MaxChatHistory).(isIdling := Some(false))
  {
    var c := Connect(id, version, output);
    c.(session := c.session.(isIdling := Some(false)))
  }

  /** Every assignment keeps `is_idling` assigned. */
  lemma StepKeepsIdlingAssigned(c: Conn, e: Event)
    requires c.session.isIdling.Some?
    ensures Step(c, e).0.session.isIdling.Some?
    ensures Crash(MissingIdling) !in Step(c, e).1
  {
    if c.open && !e.Closed? {
      var r := React(c, e);
      if r.1.Some? && r.1.value.Crash? {
        assert Crash(MissingIdling) !in Finish(r.0).1;
      }
    }
  }

  /** With `is_idling` initialised, no sequence of events ever fails on it. */
  lemma {:induction false} NeverMissingIdling(id: string, version: string, output: AudioParams, events: seq<Event>)
    ensures Run(ConnectNotIdling(id, version, output), events).0.session.isIdling.Some?
    ensures Crash(MissingIdling) !in Run(ConnectNotIdling(id, version, output), events).1
    decreases |events|
  {
    if |events| > 0 {
      var init := events[..|events| - 1];
      NeverMissingIdling(id, version, output, init);
      var before := Run(ConnectNotIdling(id, version, output), init);
      StepKeepsIdlingAssigned(before.0, events[|events| - 1]);
    }
  }
}

=== FILE: intent.dfy ===
/** Music-intent classification (app/services/intent.py): a rule-based fast
    path over the transcript, and normalisation of an LLM's JSON verdict. */
module Intent {

  import opened Basics
  import opened Strings
  import opened JsonValues

  datatype IntentResult = IntentResult(intent: string, songName: string)

  /** Verbs that ask for playback ("open", "play", "turn on", "listen"),
      including the two common mis-transcriptions of "mở". */
  const TriggerWords: seq<string> := ["mở", "mơ", "mỡ", "phát", "bật", "nghe", "play"]

  /** Words that name music ("music", "song", "singer", "playlist"). */
  const MusicWords: seq<string> := ["nhạc", "bài", "bài hát", "ca sĩ", "playlist", "music"]

  /** The fallback song name ("Vietnamese music"). */
  const DefaultSong: string := "nhạc việt"

  /** Some word of `words` occurs in `text` as a substring. */
  ghost predicate MentionsAny(text: string, words: seq<string>) {
    exists k, i: nat :: 0 <= k < |words| && OccursAt(text, words[k], i)
  }

  /** `any(w in text for w in words)`. */
  function AnyIn(text: string, words: seq<string>): (b: bool)
    ensures b <==> MentionsAny(text, words)
  {
    if |words| == 0 then false
    else if Contains(text, words[0]) then true
    else
      var b := AnyIn(text, words[1..]);
      assert forall k, i: nat :: 1 <= k < |words| ==> (OccursAt(text, words[k], i) <==> OccursAt(text, words[1..][k - 1], i));
      b
  }

  /** Python's regex `\w`, approximated: ASCII letters, digits and `_`,
      Latin-1 letters, and any other code point from U+0100 up that is not
      whitespace nor general, CJK or full-width punctuation. */
  predicate IsWordChar(c: char) {
    var n := c as int;
    ('a' <= c <= 'z') || ('A' <= c <= 'Z') || ('0' <= c <= '9') || c == '_'
    || n == 0xAA || n == 0xB5 || n == 0xBA || (0xC0 <= n <= 0xFF && n != 0xD7 && n != 0xF7)
    || (n >= 0x100 && !IsSpace(c) && !(0x2000 <= n <= 0x206F) && !(0x3000 <= n <= 0x303F)
        && !(0xFF00 <= n <= 0xFF20))
  }

  /** One alternative of the removal pattern: a word, or two words joined by
      one or more whitespace characters (`cho\s+tôi`). */
  datatype Alternative = Word(w: string) | Pair(first: string, second: string)

  /** `\b(mở|mơ|phát|bật|nghe|cho\s+tôi|giúp\s+tôi|play|bài\s+hát|bài|nhạc|music)\b`,
      alternatives in the order the regex tries them. */
  const Removable: seq<Alternative> := [
    Word("mở"), Word("mơ"), Word("phát"), Word("bật"), Word("nghe"),
    Pair("cho", "tôi"), Pair("giúp", "tôi"), Word("play"),
    Pair("bài", "hát"), Word("bài"), Word("nhạc"), Word("music")
  ]

  /** End of a match of `alt` starting at `i`, if any. `\s+` is greedy, and
      since the second word starts with a letter no backtracking can help. */
  function MatchAlternative(s: string, i: nat, alt: Alternative): (e: Option<nat>)
    ensures e.Some? ==> i < e.value <= |s|
  {
    match alt
    case Word(w) =>
      if |w| > 0 && OccursAt(s, w, i) then Some(i + |w|) else None
    case Pair(first, second) =>
      if |first| > 0 && OccursAt(s, first, i) then
        var j := i + |first|;
        var n := LeadingCount(s[j..], IsSpace);
        if n > 0 && OccursAt(s, second, j + n) then Some(j + n + |second|) else None
      else None
  }

  /** A word boundary sits at `e` after a word character. */
  predicate BoundaryAfter(s: string, e: nat) {
    e == |s| || (e < |s| && !IsWordChar(s[e]))
  }

  /** The first alternative (in pattern order) matching at `i` and followed by
      a word boundary; the regex backtracks into later alternatives when the
      closing `\b` fails. */
  function FirstMatch(s: string, i: nat, alts: seq<Alternative>): (e: Option<nat>)
    ensures e.Some? ==> i < e.value <= |s| && BoundaryAfter(s, e.value)
    ensures e.Some? ==> exists k :: 0 <= k < |alts| && MatchAlternative(s, i, alts[k]) == e
  {
    if |alts| == 0 then None
    else
      var m := MatchAlternative(s, i, alts[0]);
      if m.Some? && BoundaryAfter(s, m.value) then m
      else
        var r := FirstMatch(s, i, alts[1..]);
        assert r.Some? ==> exists k :: 1 <= k < |alts| && MatchAlternative(s, i, alts[k]) == r by {
          if r.Some? {
            var k :| 0 <= k < |alts[1..]| && MatchAlternative(s, i, alts[1..][k]) == r;
            assert alts[k + 1] == alts[1..][k];
          }
        }
        r
  }

  /** A match may start at `i` only after a word boundary. */
  function MatchAt(s: string, i: nat): (e: Option<nat>)
    requires i < |s|
    ensures e.Some? ==> i < e.value <= |s|
  {
    if (i == 0 || !IsWordChar(s[i - 1])) && IsWordChar(s[i]) then FirstMatch(s, i, Removable) else None
  }

  /** `re.sub(pattern, " ", s)`: every removable word becomes one space. */
  function Scrub(s: string, i: nat): string
    decreases |s| - i
  {
    if i >= |s| then ""
    else match MatchAt(s, i)
      case Some(e) => " " + Scrub(s, e)
      case None => [s[i]] + Scrub(s, i + 1)
  }

  /** The scrub never lengthens the text: each match of one or more
      characters becomes one space. */
  lemma {:induction false} ScrubShrinks(s: string, i: nat)
    requires i <= |s|
    ensures |Scrub(s, i)| <= |s| - i
    decreases |s| - i
  {
    if i < |s| {
      var m := MatchAt(s, i);
      if m.Some? {
        ScrubShrinks(s, m.value);
      } else {
        ScrubShrinks(s, i + 1);
      }
    }
  }

  /** Text in which no removable word starts is left exactly as it is. */
  lemma {:induction false} ScrubIdentity(s: string, i: nat)
    requires i <= |s|
    requires forall j :: i <= j < |s| ==> MatchAt(s, j).None?
    ensures Scrub(s, i) == s[i..]
    decreases |s| - i
  {
    if i < |s| {
      assert MatchAt(s, i).None?;
      ScrubIdentity(s, i + 1);
      assert s[i..] == [s[i]] + s[i + 1..];
    }
  }

  /** `re.sub(r"\s+", " ", s)`: every whitespace run becomes a single space. */
  function Collapse(s: string): (r: string)
    ensures |s| > 0 <==> |r| > 0
    ensures |s| > 0 && !IsSpace(s[0]) ==> r[0] == s[0]
    ensures forall k :: 0 <= k < |r| && IsSpace(r[k]) ==> r[k] == ' '
    ensures NoDoubleSpace(r)
    decreases |s|
  {
    if |s| == 0 then ""
    else if IsSpace(s[0]) then
      var n := LeadingCount(s, IsSpace);
      var rest := Collapse(s[n..]);
      assert |s[n..]| > 0 ==> !IsSpace(s[n..][0]);
      " " + rest
    else
      var rest := Collapse(s[1..]);
      [s[0]] + rest
  }

  /** The characters trimmed off the song name: space, `, . ! ?`, newline, tab. */
  predicate IsTrimChar(c: char) {
    c == ' ' || c == ',' || c == '.' || c == '!' || c == '?' || c == '\n' || c == '\t'
  }

  /** No two whitespace characters in a row. */
  predicate NoDoubleSpace(s: string) {
    forall k :: 0 <= k < |s| - 1 ==> !(IsSpace(s[k]) && IsSpace(s[k + 1]))
  }

  /** A slice of text without doubled whitespace has none either. */
  lemma NoDoubleSpaceSlice(s: string, a: nat, b: nat)
    requires a <= b <= |s| && NoDoubleSpace(s)
    ensures NoDoubleSpace(s[a..b])
  {
    assert forall k :: 0 <= k < b - a ==> s[a..b][k] == s[a + k];
  }

  /** What is left of the lower-cased transcript once trigger and music
      words are removed: whitespace runs collapsed to one space, and
      ` ,.!?`, newline and tab trimmed from both ends. */
  function CleanedTitle(lowered: string): (t: string)
    ensures |t| > 0 ==> !IsTrimChar(t[0]) && !IsTrimChar(t[|t| - 1])
    ensures NoDoubleSpace(t)
  {
    var collapsed := Collapse(Scrub(lowered, 0));
    var cleaned := StripBy(collapsed, IsTrimChar);
    var a := LeadingCount(collapsed, IsTrimChar);
    NoDoubleSpaceSlice(collapsed, a, a + |cleaned|);
    cleaned
  }

  /** The song name of a music request: the cleaned title, or "nhạc việt"
      when nothing is left. */
  function SongName(lowered: string): (name: string)
    ensures |name| > 0
    ensures !IsTrimChar(name[0]) && !IsTrimChar(name[|name| - 1])
    ensures NoDoubleSpace(name)
  {
    var cleaned := CleanedTitle(lowered);
    if |cleaned| > 0 then cleaned
    else
      DefaultSongShape();
      DefaultSong
  }

  /** The fallback name is trimmed and single-spaced. */
  lemma DefaultSongShape()
    ensures |DefaultSong| > 0
    ensures !IsTrimChar(DefaultSong[0]) && !IsTrimChar(DefaultSong[|DefaultSong| - 1])
    ensures NoDoubleSpace(DefaultSong)
  {
    assert forall k :: 0 <= k < 9 && k != 4 ==> !IsSpace(DefaultSong[k]);
  }

  /** Rule-based fast intent detection. The transcript is stripped and
      lower-cased; it is "music" exactly when it mentions both a trigger word
      and a music word, and then the song name is what remains of it. */
  function DetectFast(userText: string): (r: IntentResult)
    ensures r.intent == "music" || r.intent == "other"
    ensures var lowered := Lower(Strip(userText));
            r.intent == "music" <==> MentionsAny(lowered, TriggerWords) && MentionsAny(lowered, MusicWords)
    ensures r.intent == "other" ==> r.songName == ""
    ensures r.intent == "music" ==> r.songName == SongName(Lower(Strip(userText)))
  {
    var lowered := Lower(Strip(userText));
    if AnyIn(lowered, TriggerWords) && AnyIn(lowered, MusicWords) then IntentResult("music", SongName(lowered))
    else IntentResult("other", "")
  }

  /** "Phát nhạc" lower-cases to "phát nhạc". */
  lemma ExampleLowered()
    ensures Lower(Strip("Phát nhạc")) == "phát nhạc"
  {
    ExampleTrimmed();
    ExampleLowerChars();
  }

  lemma ExampleTrimmed()
    ensures Strip("Phát nhạc") == "Phát nhạc"
  {
    var s := "Phát nhạc";
    assert s[0] == 'P' && s[|s| - 1] == 'c';
    StripOfTrimmed(s);
  }

  lemma ExampleLowerChars()
    ensures Lower("Phát nhạc") == "phát nhạc"
  {
    var s, t := "Phát nhạc", "phát nhạc";
    assert LowerChar('P') == 'p';
    assert forall i :: 1 <= i < |s| ==> s[i] == t[i] && LowerChar(s[i]) == s[i];
    LowerIs(s, t);
  }

  /** "phát nhạc" ("play music") names both a trigger and a music word. */
  lemma ExampleMentions()
    ensures MentionsAny("phát nhạc", TriggerWords) && MentionsAny("phát nhạc", MusicWords)
  {
    assert OccursAt("phát nhạc", TriggerWords[3], 0);
    assert OccursAt("phát nhạc", MusicWords[0], 5);
  }

  /** "Phát nhạc" ("play music") is a music request. */
  lemma DetectFastExample()
    ensures DetectFast("Phát nhạc").intent == "music"
  {
    ExampleLowered();
    ExampleMentions();
  }

  /** The verdict read from a normalised intent word and a stripped song
      name: "music" exactly for the word "music", a music verdict without
      a song name gets "nhạc việt", and otherwise the name is kept. */
  function Verdict(raw: string, name: string): (r: IntentResult)
    ensures r.intent == "music" || r.intent == "other"
    ensures r.intent == "music" <==> raw == "music"
    ensures r.intent == "music" ==> |r.songName| > 0
    ensures r.songName == name || (name == "" && r.intent == "music" && r.songName == DefaultSong)
  {
    var intent := if raw == "music" then "music" else "other";
    if intent == "music" && name == "" then IntentResult(intent, DefaultSong)
    else IntentResult(intent, name)
  }

  /** Normalises the intent LLM's JSON verdict: anything but a dict is
      "other"; the intent is "music" exactly when its stripped, lower-cased
      text is "music"; a music verdict without a song name gets
      "nhạc việt"; an "other" verdict keeps the song name it came with. */
  function Detect(data: Option<Dict>): (r: IntentResult)
    ensures r.intent == "music" || r.intent == "other"
    ensures data.None? ==> r == IntentResult("other", "")
    ensures data.Some? ==>
              var raw := Lower(Strip(PyStr(Get(data.value, "intent", JStr("other")))));
              (r.intent == "music" <==> raw == "music")
    ensures r.intent == "music" ==> |r.songName| > 0
    ensures data.Some? && r.intent == "other" ==> r.songName == Strip(PyStr(Get(data.value, "song_name", JStr(""))))
  {
    match data
    case None => IntentResult("other", "")
    case Some(d) =>
      Verdict(Lower(Strip(PyStr(Get(d, "intent", JStr("other"))))), Strip(PyStr(Get(d, "song_name", JStr("")))))
  }

  /** The literal verdict words are already stripped and lower-cased. */
  lemma VerdictWordsNormal()
    ensures Lower(Strip("music")) == "music" && Lower(Strip("other")) == "other"
    ensures Strip(DefaultSong) == DefaultSong
  {
    LowerWord("music");
    LowerWord("other");
    DefaultSongStripped();
  }

  lemma DefaultSongStripped()
    ensures Strip(DefaultSong) == DefaultSong
  {
    assert DefaultSong[0] == 'n' && DefaultSong[|DefaultSong| - 1] == 't';
    StripOfTrimmed(DefaultSong);
  }

  /** A dict whose intent and song name are strings is read as the
      verdict of their normalised forms. */
  lemma DetectOfWords(d: Dict, word: string, song: string)
    requires Get(d, "intent", JStr("other")) == JStr(word)
    requires Get(d, "song_name", JStr("")) == JStr(song)
    ensures Detect(Some(d)) == Verdict(Lower(Strip(word)), Strip(song))
  {
  }

  /** The two-entry dict the intent LLM is asked to answer with. */
  function VerdictDict(intent: string, song: string): (d: Dict)
    ensures Get(d, "intent", JStr("other")) == JStr(intent)
    ensures Get(d, "song_name", JStr("")) == JStr(song)
  {
    assert "intent" != "song_name" by {
      assert "intent"[0] != "song_name"[0];
    }
    map["intent" := JStr(intent), "song_name" := JStr(song)]
  }

  /** A dict carrying a music verdict with a stripped, non-empty song name
      is read as exactly that verdict. */
  lemma DetectOfMusic(song: string)
    requires Strip(song) == song && |song| > 0
    ensures Detect(Some(VerdictDict("music", song))) == IntentResult("music", song)
  {
    assert Lower(Strip("music")) == "music" by {
      VerdictWordsNormal();
    }
    DetectOfWords(VerdictDict("music", song), "music", song);
  }

  /** A dict carrying an "other" verdict with a stripped song name is read
      as exactly that verdict. */
  lemma DetectOfOther(song: string)
    requires Strip(song) == song
    ensures Detect(Some(VerdictDict("other", song))) == IntentResult("other", song)
  {
    assert Lower(Strip("other")) == "other" by {
      VerdictWordsNormal();
    }
    assert "other" != "music" by {
      assert "other"[0] != "music"[0];
    }
    DetectOfWords(VerdictDict("other", song), "other", song);
  }

  /** A verdict written back as the JSON the LLM is asked for is read back
      unchanged: `Detect` is a fixed point on its own results. */
  lemma DetectRoundTrip(data: Option<Dict>)
    ensures
      var r := Detect(data);
      Detect(Some(VerdictDict(r.intent, r.songName))) == r
  {
    var r := Detect(data);
    match data {
      case None =>
        StripOfTrimmed("");
      case Some(d0) =>
        var song := Strip(PyStr(Get(d0, "song_name", JStr(""))));
        StripIdempotent(PyStr(Get(d0, "song_name", JStr(""))));
        VerdictWordsNormal();
        assert r.songName == song || r.songName == DefaultSong;
    }
    if r.intent == "music" {
      DetectOfMusic(r.songName);
    } else {
      DetectOfOther(r.songName);
    }
  }
}

=== FILE: json.dfy ===
/** Decoded JSON values as the gateway sees them after `json.loads`, with the
    few Python operations applied to them: truthiness, `dict.get`, `a or b`,
    `str()` and `int()`. JSON numbers are integers here: a float such as
    `7.9`, `NaN` or `Infinity` is not representable. */
module JsonValues {

  import opened Basics
  import opened Strings

  datatype Json =
    | JNull
    | JBool(b: bool)
    | JInt(i: int)
    | JStr(s: string)
    | JArr(items: seq<Json>)
    | JObj(fields: map<string, Json>)

  /** A JSON object as a Python dict. */
  type Dict = map<string, Json>

  /** Python truthiness: `None`, `False`, `0`, `""`, `[]` and `{}` are false. */
  predicate Truthy(j: Json) {
    match j
    case JNull => false
    case JBool(b) => b
    case JInt(i) => i != 0
    case JStr(s) => |s| > 0
    case JArr(items) => |items| > 0
    case JObj(fields) => |fields| > 0
  }

  /** `d.get(key, default)`. */
  function Get(d: Dict, key: string, default: Json): (r: Json)
    ensures key in d ==> r == d[key]
    ensures key !in d ==> r == default
  {
    if key in d then d[key] else default
  }

  /** `d[key] == v` with `key` present. */
  predicate HasEntry(d: Dict, key: string, v: Json) {
    key in d && d[key] == v
  }

  /** Position of the operand that Python's `a or b or ...` evaluates to:
      the first truthy operand, or the last one when none is truthy. */
  function OrIndex(operands: seq<Json>): (k: nat)
    requires |operands| > 0
    ensures k < |operands|
    ensures forall j :: 0 <= j < k ==> !Truthy(operands[j])
    ensures Truthy(operands[k]) || k == |operands| - 1
  {
    if |operands| == 1 || Truthy(operands[0]) then 0 else 1 + OrIndex(operands[1..])
  }

  /** Python's `a or b or ...`. */
  function FirstTruthy(operands: seq<Json>): Json
    requires |operands| > 0
  {
    operands[OrIndex(operands)]
  }

  /** Python's `str(x)`. A list or a dict renders as the placeholder
      "[...]" or "{...}", not as Python's repr, which quotes and escapes
      the strings inside and lists a dict's keys in insertion order, an
      order a map does not keep. Only the placeholder's non-emptiness
      agrees with Python; its text does not. */
  function PyStr(j: Json): (r: string)
    ensures j.JStr? ==> r == j.s
    ensures !j.JStr? ==> |r| > 0
  {
    match j
    case JNull => "None"
    case JBool(b) => if b then "True" else "False"
    case JInt(i) => if i < 0 then "-" + NatToString(-i) else NatToString(i)
    case JStr(s) => s
    case JArr(_) => "[...]"
    case JObj(_) => "{...}"
  }

  /** Python's `int(x)`: `None` when it raises `TypeError` or `ValueError`. */
  function PyInt(j: Json): (r: Option<int>)
    ensures j.JInt? ==> r == Some(j.i)
    ensures j.JNull? || j.JArr? || j.JObj? ==> r.None?
  {
    match j
    case JInt(i) => Some(i)
    case JBool(b) => Some(if b then 1 else 0)
    case JStr(s) => ParseInt(s)
    case _ => None
  }

  /** `str()` then `int()` gives a natural number of at most 4300 digits
      back; with more digits Python's `str()` itself raises. */
  lemma PyIntOfNatString(n: nat)
    requires |NatToString(n)| <= MaxStrDigits
    ensures PyInt(JStr(PyStr(JInt(n)))) == Some(n as int)
  {
    ParseIntOfNat(n);
  }
}

=== FILE: llm.dfy ===
/** The LLM client with provider fallback (app/services/llm.py). Each
    provider's behaviour in one call is a parameter: the deltas its stream
    delivered and whether it then raised, or the replies its requests got.
    `json.loads` is a parameter too. */
module Llm {

  import opened Basics
  import opened Strings
  import opened JsonValues
  import opened Sessions

  // ---------------------------------------------------------------------
  // Messages
  // ---------------------------------------------------------------------

  /** `_build_messages`: the system prompt, the history as given, then the
      user's text. */
  function BuildMessages(systemPrompt: string, history: seq<Turn>, userText: string): (m: seq<Turn>)
    ensures |m| == |history| + 2
    ensures m[0] == Turn("system", systemPrompt) && m[|m| - 1] == Turn("user", userText)
    ensures m[1..|m| - 1] == history
  {
    [Turn("system", systemPrompt)] + history + [Turn("user", userText)]
  }

  /** `chat_json` sends a system and a user message and no history. */
  lemma JsonMessagesHaveNoHistory(systemPrompt: string, userText: string)
    ensures BuildMessages(systemPrompt, [], userText) == [Turn("system", systemPrompt), Turn("user", userText)]
  {
  }

  // ---------------------------------------------------------------------
  // Streaming chat with fallback
  // ---------------------------------------------------------------------

  /** What one provider's streaming call did: the delta texts it delivered,
      in order (`""` for a chunk without choices or content), and whether
      it raised afterwards (an exception before the first chunk is a raise
      with no deltas). */
  datatype Attempt = Attempt(deltas: seq<string>, raises: bool)

  /** The reply when no provider answered. */
  const Apology: string := "Xin lỗi, tất cả LLM đều không phản hồi."

  /** The non-empty deltas, in order: the ones `chat_stream` yields. */
  function NonEmpty(deltas: seq<string>): (r: seq<string>)
    ensures |r| <= |deltas|
    ensures forall k :: 0 <= k < |r| ==> |r[k]| > 0
    ensures (forall k :: 0 <= k < |deltas| ==> |deltas[k]| == 0) <==> r == []
  {
    if |deltas| == 0 then []
    else
      var rest := NonEmpty(deltas[1..]);
      assert forall k :: 0 <= k < |deltas| - 1 ==> deltas[1..][k] == deltas[k + 1];
      if |deltas[0]| > 0 then [deltas[0]] + rest else rest
  }

  /** A provider is committed to for good when it delivered a non-empty
      delta and finished without raising. */
  predicate Completes(a: Attempt) {
    |NonEmpty(a.deltas)| > 0 && !a.raises
  }

  /** `chat_stream` over the providers' attempts, in list order. A provider
      whose stream yields no non-empty delta is skipped without output. One
      that yields some is committed to: its non-empty deltas are passed on,
      and when it then raises the exception is handled like any other and
      the next provider is tried after what was already yielded. When no
      provider completes, the apology follows. */
  function ChatStream(attempts: seq<Attempt>): (out: seq<string>)
    ensures |out| > 0
    ensures forall k :: 0 <= k < |out| ==> |out[k]| > 0
    decreases |attempts|
  {
    if |attempts| == 0 then [Apology]
    else
      var yielded := NonEmpty(attempts[0].deltas);
      if Completes(attempts[0]) then yielded else yielded + ChatStream(attempts[1..])
  }

  /** Index of the first provider that completes, `|attempts|` if none. */
  function FirstComplete(attempts: seq<Attempt>): (k: nat)
    ensures k <= |attempts|
    ensures forall j :: 0 <= j < k ==> !Completes(attempts[j])
    ensures k < |attempts| ==> Completes(attempts[k])
  {
    if |attempts| == 0 || Completes(attempts[0]) then 0 else 1 + FirstComplete(attempts[1..])
  }

  /** Everything the failed providers yielded before giving up, in order. */
  function Partial(attempts: seq<Attempt>): seq<string> {
    if |attempts| == 0 then [] else NonEmpty(attempts[0].deltas) + Partial(attempts[1..])
  }

  /** The stream is whatever the providers before the first completing one
      yielded, followed by that provider's deltas, or by the apology when
      none completes. */
  lemma {:induction false} ChatStreamShape(attempts: seq<Attempt>)
    ensures var k := FirstComplete(attempts);
            ChatStream(attempts) == Partial(attempts[..k]) + (if k < |attempts| then NonEmpty(attempts[k].deltas) else [Apology])
    decreases |attempts|
  {
    if |attempts| > 0 && !Completes(attempts[0]) {
      ChatStreamShape(attempts[1..]);
      ShapeStep(attempts);
    } else {
      assert attempts[..0] == [];
    }
  }

  /** The shape of the stream carries over from the providers after the
      first to all of them when the first does not complete. */
  lemma ShapeStep(attempts: seq<Attempt>)
    requires |attempts| > 0 && !Completes(attempts[0])
    requires var rest := attempts[1..];
             var k := FirstComplete(rest);
             ChatStream(rest) == Partial(rest[..k]) + (if k < |rest| then NonEmpty(rest[k].deltas) else [Apology])
    ensures var k := FirstComplete(attempts);
            ChatStream(attempts) == Partial(attempts[..k]) + (if k < |attempts| then NonEmpty(attempts[k].deltas) else [Apology])
  {
    SkipFirst(attempts);
    var k := FirstComplete(attempts);
    var rest := attempts[1..];
    var tail := if k < |attempts| then NonEmpty(attempts[k].deltas) else [Apology];
    assert tail == if k - 1 < |rest| then NonEmpty(rest[k - 1].deltas) else [Apology];
    AppendAssoc(NonEmpty(attempts[0].deltas), Partial(rest[..k - 1]), tail);
  }

  /** Passing over a provider that does not complete: the stream starts
      with what it yielded, the first completing index moves up by one and
      the partial output before it gains that provider's deltas in front. */
  lemma SkipFirst(attempts: seq<Attempt>)
    requires |attempts| > 0 && !Completes(attempts[0])
    ensures ChatStream(attempts) == NonEmpty(attempts[0].deltas) + ChatStream(attempts[1..])
    ensures FirstComplete(attempts) == 1 + FirstComplete(attempts[1..])
    ensures var k := FirstComplete(attempts);
            Partial(attempts[..k]) == NonEmpty(attempts[0].deltas) + Partial(attempts[1..][..k - 1])
            && (k < |attempts| ==> attempts[k] == attempts[1..][k - 1])
  {
    TakeThenDrop(attempts, FirstComplete(attempts));
  }

  /** When the first provider that delivers anything also completes, the
      output is exactly its non-empty deltas. */
  lemma {:induction false} FirstResponderWins(attempts: seq<Attempt>, k: nat)
    requires k < |attempts| && Completes(attempts[k])
    requires forall j :: 0 <= j < k ==> NonEmpty(attempts[j].deltas) == []
    ensures ChatStream(attempts) == NonEmpty(attempts[k].deltas)
    decreases k
  {
    if k > 0 {
      SilentSkipped(attempts);
      FirstResponderWins(attempts[1..], k - 1);
    }
  }

  /** A first provider that yields nothing leaves the stream to the rest. */
  lemma SilentSkipped(attempts: seq<Attempt>)
    requires |attempts| > 0 && NonEmpty(attempts[0].deltas) == []
    ensures ChatStream(attempts) == ChatStream(attempts[1..])
    ensures forall j :: 1 <= j < |attempts| ==> attempts[1..][j - 1] == attempts[j]
  {
    assert [] + ChatStream(attempts[1..]) == ChatStream(attempts[1..]);
  }

  /** Providers that yielded nothing contribute nothing. */
  lemma {:induction false} SilentPartial(attempts: seq<Attempt>)
    requires forall j :: 0 <= j < |attempts| ==> NonEmpty(attempts[j].deltas) == []
    ensures Partial(attempts) == []
    decreases |attempts|
  {
    if |attempts| > 0 {
      SilentPartial(attempts[1..]);
    }
  }

  /** With no providers, or none that yields anything, the only chunk is the
      apology. */
  lemma {:induction false} AllSilentApologises(attempts: seq<Attempt>)
    requires forall j :: 0 <= j < |attempts| ==> NonEmpty(attempts[j].deltas) == []
    ensures ChatStream(attempts) == [Apology]
    decreases |attempts|
  {
    if |attempts| > 0 {
      SilentSkipped(attempts);
      AllSilentApologises(attempts[1..]);
    }
  }

  /** A provider that fails after its first delta leaves that delta in the
      output, followed by the next provider's answer. */
  lemma FailoverMixesAnswers()
    ensures ChatStream([Attempt(["Xin"], true), Attempt(["", "Chào", "bạn"], false)]) == ["Xin", "Chào", "bạn"]
  {
    var second := ["", "Chào", "bạn"];
    assert NonEmpty(second[1..][1..]) == ["bạn"];
    assert NonEmpty(second) == ["Chào", "bạn"];
    assert NonEmpty(["Xin"]) == ["Xin"];
  }

  // ---------------------------------------------------------------------
  // JSON extraction
  // ---------------------------------------------------------------------

  /** `c` is the ASCII letter `lower` in either case. */
  predicate IsLetterNoCase(c: char, lower: char) {
    c == lower || c as int == lower as int - 32
  }

  /** `s` starts with "json" in any ASCII case. */
  predicate StartsWithJson(s: string) {
    |s| >= 4 && IsLetterNoCase(s[0], 'j') && IsLetterNoCase(s[1], 's') && IsLetterNoCase(s[2], 'o') && IsLetterNoCase(s[3], 'n')
  }

  /** Length of the leading fence: three backticks, an optional "json" and
      whitespace (the first alternative of the fence pattern, anchored at the
      start); 0 when the text does not start with three backticks. */
  function OpeningFence(raw: string): (n: nat)
    ensures n <= |raw|
    ensures n > 0 ==> n >= 3 && raw[..3] == "```"
  {
    if |raw| >= 3 && raw[..3] == "```" then
      var tag := if StartsWithJson(raw[3..]) then 4 else 0;
      3 + tag + LeadingCount(raw[3 + tag..], IsSpace)
    else 0
  }

  /** The fence substitution on stripped text: the opening fence is
      removed, then a closing run of whitespace and three backticks at the
      very end of what remains. */
  function StripFences(raw: string): (r: string)
    ensures |r| <= |raw|
    ensures (|raw| < 3 || raw[..3] != "```") && (|raw| < 3 || raw[|raw| - 3..] != "```") ==> r == raw
  {
    var a := OpeningFence(raw);
    var rest := raw[a..];
    if |rest| >= 3 && rest[|rest| - 3..] == "```" then
      var body := rest[..|rest| - 3];
      body[..|body| - TrailingCount(body, IsSpace)]
    else rest
  }

  /** A fenced JSON answer loses its fence. */
  lemma FencedAnswer(body: string)
    requires |body| > 0 && !IsSpace(body[0]) && !IsSpace(body[|body| - 1])
    ensures StripFences("```json\n" + body + "\n```") == body
  {
    var raw := "```json\n" + body + "\n```";
    assert raw[..3] == "```";
    assert StartsWithJson(raw[3..]) by {
      assert raw[3..7] == "json";
    }
    var after := raw[7..];
    assert after == "\n" + body + "\n```";
    LeadingOne(after, IsSpace);
    assert OpeningFence(raw) == 8;
    var rest := raw[8..];
    assert rest == body + "\n```";
    var inner := rest[..|rest| - 3];
    assert inner == body + "\n";
    TrailingOne(inner, IsSpace);
    assert inner[..|inner| - 1] == body;
  }

  /** One matching character followed by a non-matching one. */
  lemma LeadingOne(s: string, p: char -> bool)
    requires |s| >= 2 && p(s[0]) && !p(s[1])
    ensures LeadingCount(s, p) == 1
  {
    assert s[1..][0] == s[1];
  }

  /** One matching character preceded by a non-matching one. */
  lemma TrailingOne(s: string, p: char -> bool)
    requires |s| >= 2 && p(s[|s| - 1]) && !p(s[|s| - 2])
    ensures TrailingCount(s, p) == 1
  {
    var init := s[..|s| - 1];
    assert init[|init| - 1] == s[|s| - 2];
  }

  /** The bounds of `raw[raw.find("{") : raw.rfind("}") + 1]` when both
      braces occur and the last "}" comes after the first "{": the span
      starts at the first "{" and ends just after the last "}". */
  function BraceSpan(raw: string): (r: Option<(nat, nat)>)
    ensures r.Some? ==> var (a, b) := r.value;
              a + 1 < b <= |raw| && raw[a] == '{' && raw[b - 1] == '}'
              && (forall k :: 0 <= k < a ==> raw[k] != '{') && (forall k :: b <= k < |raw| ==> raw[k] != '}')
  {
    var start := FindFirst(raw, c => c == '{');
    var end := LastIndexIn(raw, 0, |raw|, c => c == '}');
    if start < |raw| && end != -1 && end > start then Some((start, end + 1))
    else None
  }

  /** There is no span exactly when no "{" comes before a "}". */
  lemma BraceSpanNone(raw: string)
    ensures BraceSpan(raw).None? <==> forall a, b :: 0 <= a < b < |raw| ==> !(raw[a] == '{' && raw[b] == '}')
  {
  }

  /** The object `loads` reads from `text`, if it reads a dict. */
  function ObjectIn(text: string, loads: string -> Option<Json>): (r: Option<Dict>)
    ensures r.Some? <==> loads(text).Some? && loads(text).value.JObj?
    ensures r.Some? ==> loads(text) == Some(JObj(r.value))
  {
    match loads(text)
    case Some(JObj(d)) => Some(d)
    case _ => None
  }

  /** The texts `_parse_json_content` tries, in order: the stripped reply,
      the stripped reply without its fences, and the brace span when there
      is one. */
  function Candidates(content: string): (cs: seq<string>)
    ensures 2 <= |cs| <= 3 && cs[0] == Strip(content) && cs[1] == Strip(StripFences(Strip(content)))
    ensures |cs| == 3 <==> BraceSpan(Strip(content)).Some?
  {
    var raw := Strip(content);
    [raw, Strip(StripFences(raw))] + match BraceSpan(raw)
                                     case Some((a, b)) => [raw[a..b]]
                                     case None => []
  }

  /** `_parse_json_content`, `None` where it raises. Whatever comes back is
      an object `loads` read from one of the candidate texts. */
  function ParseJsonContent(content: string, loads: string -> Option<Json>): (r: Option<Dict>)
    ensures r.Some? ==> exists text :: text in Candidates(content) && loads(text) == Some(JObj(r.value))
  {
    var raw := Strip(content);
    var cs := Candidates(content);
    match ObjectIn(raw, loads)
    case Some(d) => assert cs[0] == raw; Some(d)
    case None =>
      match ObjectIn(Strip(StripFences(raw)), loads)
      case Some(d) => assert cs[1] == Strip(StripFences(raw)); Some(d)
      case None =>
        match BraceSpan(raw)
        case Some((a, b)) =>
          assert cs[2] == raw[a..b];
          ObjectIn(raw[a..b], loads)
        case None => None
  }

  /** The extraction order: the result is the object read from the first
      candidate text that reads as one, and `None` when none does; a later
      candidate is tried only when every earlier one failed. */
  lemma ParseJsonOrder(content: string, loads: string -> Option<Json>)
    ensures ParseJsonContent(content, loads) == FirstObject(ObjectsIn(Candidates(content), loads))
  {
    var cs := Candidates(content);
    var rest := cs[1..];
    assert rest[0] == cs[1];
    FirstObjectCons(ObjectIn(cs[0], loads), ObjectsIn(rest, loads));
    FirstObjectCons(ObjectIn(rest[0], loads), ObjectsIn(rest[1..], loads));
    if |cs| == 3 {
      assert rest[1..][0] == cs[2] && rest[1..][1..] == [];
      FirstObjectCons(ObjectIn(cs[2], loads), []);
    } else {
      assert rest[1..] == [];
    }
  }

  /** What `loads` makes of each text, as objects. */
  function ObjectsIn(texts: seq<string>, loads: string -> Option<Json>): (rs: seq<Option<Dict>>)
    ensures |rs| == |texts|
  {
    if texts == [] then [] else [ObjectIn(texts[0], loads)] + ObjectsIn(texts[1..], loads)
  }

  /** `FirstObject` looks at the head first. */
  lemma FirstObjectCons(x: Option<Dict>, rest: seq<Option<Dict>>)
    ensures FirstObject([x] + rest) == if x.Some? then x else FirstObject(rest)
  {
    assert ([x] + rest)[1..] == rest;
  }

  /** An answer that is already a JSON object is taken as it is. */
  lemma PlainObjectFirst(content: string, loads: string -> Option<Json>, d: Dict)
    requires loads(Strip(content)) == Some(JObj(d))
    ensures ParseJsonContent(content, loads) == Some(d)
  {
  }

  // ---------------------------------------------------------------------
  // JSON chat with fallback
  // ---------------------------------------------------------------------

  /** What one request got: it raised, or it returned a message whose
      content may be missing (`None`). */
  datatype Reply = Raised | Answered(content: Option<string>)

  /** One provider's JSON call: the request asking for a JSON object, and
      the plain request sent only when the first one raised. */
  datatype JsonAttempt = JsonAttempt(withFormat: Reply, plain: Reply)

  /** The content one provider returned, if any. */
  function ContentOf(a: JsonAttempt): (c: Option<string>)
    ensures a.withFormat.Answered? ==> c == a.withFormat.content
    ensures a.withFormat.Raised? && a.plain.Raised? ==> c.None?
  {
    match a.withFormat
    case Answered(c) => c
    case Raised => match a.plain
      case Answered(c) => c
      case Raised => None
  }

  /** One provider's parsed object; `None` when the requests raised, the
      content is missing or empty, or it does not parse as an object. */
  function ProviderJson(a: JsonAttempt, loads: string -> Option<Json>): (r: Option<Dict>)
    ensures ContentOf(a).None? || ContentOf(a) == Some("") ==> r.None?
    ensures r.Some? ==> exists text :: text in Candidates(ContentOf(a).value) && loads(text) == Some(JObj(r.value))
  {
    match ContentOf(a)
    case Some(c) => if |c| == 0 then None else ParseJsonContent(c, loads)
    case None => None
  }

  /** The first of the providers' results that is an object, `None` when
      there is none. */
  function FirstObject(results: seq<Option<Dict>>): (r: Option<Dict>)
    ensures r.None? <==> forall k :: 0 <= k < |results| ==> results[k].None?
    ensures r.Some? ==> r == results[FirstIndex(results)]
    decreases |results|
  {
    if |results| == 0 then None
    else if results[0].Some? then results[0]
    else
      assert forall k :: 0 <= k < |results| - 1 ==> results[1..][k] == results[k + 1];
      FirstObject(results[1..])
  }

  /** Index of the first object among the results, `|results|` if none. */
  function FirstIndex(results: seq<Option<Dict>>): (k: nat)
    ensures k <= |results|
    ensures forall j :: 0 <= j < k ==> results[j].None?
    ensures k < |results| ==> results[k].Some?
  {
    if |results| == 0 || results[0].Some? then 0 else 1 + FirstIndex(results[1..])
  }

  /** Each provider's result, in list order. */
  function ProviderResults(attempts: seq<JsonAttempt>, loads: string -> Option<Json>): (rs: seq<Option<Dict>>)
    ensures |rs| == |attempts| && forall k :: 0 <= k < |attempts| ==> rs[k] == ProviderJson(attempts[k], loads)
  {
    seq(|attempts|, k requires 0 <= k < |attempts| => ProviderJson(attempts[k], loads))
  }

  /** `chat_json`: the object from the first provider that yields one; the
      later providers are not consulted, and the result is `None` when all
      fail or there are none. */
  function ChatJson(attempts: seq<JsonAttempt>, loads: string -> Option<Json>): (r: Option<Dict>)
    ensures r.None? <==> forall k :: 0 <= k < |attempts| ==> ProviderJson(attempts[k], loads).None?
    ensures r.Some? ==> var k := FirstIndex(ProviderResults(attempts, loads));
              k < |attempts| && r == ProviderJson(attempts[k], loads)
              && forall j :: 0 <= j < k ==> ProviderJson(attempts[j], loads).None?
  {
    FirstObject(ProviderResults(attempts, loads))
  }
}

=== FILE: pipeline.dfy ===
/** The conversation pipeline (app/services/pipeline.py): transcript, then the
    LLM's streamed reply cut into sentences, each synthesised and queued as a
    marker followed by its audio frames, then forwarded to the client.

    The producer and the consumer run concurrently in the source but share
    only a FIFO queue, so the queue is modelled as the ordered sequence of
    items the producer puts. Each side sees the abort flag only through its
    own calls of `is_aborted()`, so each side is given what those calls
    return, read by read (`pAborted` for the producer, `cAborted` for the
    consumer). The flag can be cleared again mid-turn (`listen start`, the
    goodbye flow, an alarm delivery), so nothing ties a later read to an
    earlier one. The TTS engine is a function from text to the frames it
    yields. */
module Pipeline {

  import opened Basics
  import opened Strings
  import opened JsonValues
  import opened Segmenter
  import Intent

  /** A queue item: a sentence marker, one encoded audio frame, or the end. */
  datatype Item = Marker(text: string) | Audio(frame: Bytes) | Done

  /** Callbacks the pipeline fires, in the order it fires them. */
  datatype Event =
    | SttResult(text: string)
    | TtsStart
    | TtsSentence(text: string)
    | TtsAudio(frame: Bytes)
    | TtsStop
    | MusicAction(payload: Dict)

  /** The callbacks the consumer and the preview streamer fire. */
  predicate Streamed(e: Event) {
    e.TtsSentence? || e.TtsAudio?
  }

  /** One enqueued piece of text and the frames queued after its marker. */
  datatype Block = Block(text: string, frames: seq<Bytes>)

  /** The LLM reply as the producer sees it: the chunks it yields, and
      whether iterating raises once they are exhausted. */
  datatype ChunkStream = ChunkStream(chunks: seq<string>, raises: bool)

  /** Producer state: the blocks queued so far, the reply text accumulated,
      the unsent text and the number of `is_aborted()` calls made. */
  datatype Producer = Producer(blocks: seq<Block>, full: string, buffer: string, calls: nat)

  /** What one side's calls of `is_aborted()` return: `aborted(n)` is the
      result of its `n`-th call, counting from 0. */
  type AbortReads = nat -> bool

  /** None of the reads `from` .. `from + n - 1` reports an abort. */
  ghost predicate Clear(aborted: AbortReads, from: nat, n: nat) {
    forall j :: from <= j < from + n ==> !aborted(j)
  }

  /** Of `calls` reads, the last one reports an abort. */
  ghost predicate LastReports(aborted: AbortReads, calls: nat) {
    calls > 0 && aborted(calls - 1)
  }

  /** Every one of the reads `from` .. `from + n - 1` reports an abort. */
  ghost predicate Raised(aborted: AbortReads, from: nat, n: nat) {
    forall j :: from <= j < from + n ==> aborted(j)
  }

  /** Audio items for a run of frames. */
  function AudioItems(frames: seq<Bytes>): (items: seq<Item>)
    ensures |items| == |frames|
    ensures forall k :: 0 <= k < |frames| ==> items[k] == Audio(frames[k])
  {
    if |frames| == 0 then [] else [Audio(frames[0])] + AudioItems(frames[1..])
  }

  /** The queue contents for a run of blocks: each block's marker, then its frames. */
  function Flatten(blocks: seq<Block>): seq<Item> {
    if |blocks| == 0 then []
    else [Marker(blocks[0].text)] + AudioItems(blocks[0].frames) + Flatten(blocks[1..])
  }

  /** What the producer leaves in the queue: its blocks, then `_DONE`. */
  function QueueOf(blocks: seq<Block>): seq<Item> {
    Flatten(blocks) + [Done]
  }

  /** No queue item but the last is `_DONE`. */
  lemma {:induction false} FlattenHasNoDone(blocks: seq<Block>)
    ensures forall k :: 0 <= k < |Flatten(blocks)| ==> !Flatten(blocks)[k].Done?
    decreases |blocks|
  {
    if |blocks| > 0 {
      FlattenHasNoDone(blocks[1..]);
      var head := [Marker(blocks[0].text)] + AudioItems(blocks[0].frames);
      assert Flatten(blocks) == head + Flatten(blocks[1..]);
    }
  }

  /** Flattening distributes over concatenation of block runs. */
  lemma {:induction false} FlattenAppend(a: seq<Block>, b: seq<Block>)
    ensures Flatten(a + b) == Flatten(a) + Flatten(b)
    decreases |a|
  {
    if |a| == 0 {
      assert a + b == b;
    } else {
      assert (a + b)[1..] == a[1..] + b;
      FlattenAppend(a[1..], b);
    }
  }

  /** The frame loop of `_enqueue_sentence`: before each frame the abort
      flag is read, and the loop stops at the first read reporting an abort.
      Returns how many frames were queued and the call count afterwards. */
  function PutFrames(frames: seq<Bytes>, calls: nat, aborted: AbortReads): (r: (nat, nat))
    ensures r.0 <= |frames|
    ensures Clear(aborted, calls, r.0)
    ensures r.0 < |frames| ==> aborted(calls + r.0)
    ensures r.1 == calls + (if r.0 < |frames| then r.0 + 1 else r.0)
    decreases |frames|
  {
    if |frames| == 0 then (0, calls)
    else if aborted(calls) then (0, calls + 1)
    else
      var (k, c) := PutFrames(frames[1..], calls + 1, aborted);
      (k + 1, c)
  }

  /** Total number of frames in a run of blocks. */
  function FrameCount(blocks: seq<Block>): nat {
    if |blocks| == 0 then 0 else |blocks[0].frames| + FrameCount(blocks[1..])
  }

  lemma {:induction false} FrameCountAppend(a: seq<Block>, b: seq<Block>)
    ensures FrameCount(a + b) == FrameCount(a) + FrameCount(b)
    decreases |a|
  {
    if |a| == 0 {
      assert a + b == b;
    } else {
      assert (a + b)[1..] == a[1..] + b;
      FrameCountAppend(a[1..], b);
    }
  }

  /** A queued block: its text is non-empty and does not end in whitespace,
      and its frames are a prefix of that text's synthesis. */
  ghost predicate GoodBlock(b: Block, synth: string -> seq<Bytes>) {
    |b.text| > 0 && !IsSpace(b.text[|b.text| - 1])
    && |b.frames| <= |synth(b.text)| && b.frames == synth(b.text)[..|b.frames|]
  }

  /** A block carrying every frame of its text's synthesis. */
  ghost predicate CompleteBlock(b: Block, synth: string -> seq<Bytes>) {
    b.frames == synth(b.text)
  }

  /** The producer's invariant over its blocks and call count: every block
      is good; every queued frame cost one `is_aborted()` call; and while no
      call has reported an abort every block is complete. */
  ghost predicate Sound(blocks: seq<Block>, calls: nat, synth: string -> seq<Bytes>, aborted: AbortReads) {
    && (forall k :: 0 <= k < |blocks| ==> GoodBlock(blocks[k], synth))
    && FrameCount(blocks) <= calls
    && (Clear(aborted, 0, calls) ==> forall k :: 0 <= k < |blocks| ==> CompleteBlock(blocks[k], synth))
  }

  /** `a` starts with `b`. */
  predicate Extends(a: seq<Block>, b: seq<Block>) {
    |b| <= |a| && a[..|b|] == b
  }

  lemma ExtendsTrans(a: seq<Block>, b: seq<Block>, c: seq<Block>)
    requires Extends(a, b) && Extends(b, c)
    ensures Extends(a, c)
  {
    assert a[..|c|] == a[..|b|][..|c|];
  }

  /** Appending a good block paid for by the calls made keeps the invariant. */
  lemma SoundExtend(blocks: seq<Block>, calls: nat, b: Block, calls': nat, synth: string -> seq<Bytes>, aborted: AbortReads)
    requires Sound(blocks, calls, synth, aborted)
    requires GoodBlock(b, synth)
    requires calls <= calls'
    requires |b.frames| <= calls' - calls
    requires Clear(aborted, 0, calls') ==> CompleteBlock(b, synth)
    ensures Sound(blocks + [b], calls', synth, aborted)
    ensures Extends(blocks + [b], blocks)
  {
    var r := blocks + [b];
    FrameCountAppend(blocks, [b]);
    assert FrameCount([b]) == |b.frames|;
    assert forall k :: 0 <= k < |blocks| ==> r[k] == blocks[k];
    assert r[..|blocks|] == blocks;
  }

  /** `_enqueue_sentence`: the marker goes in unconditionally, then the
      sentence's frames until a read of the abort flag reports an abort.
      Returns the blocks with the new one appended and the call count
      afterwards. */
  function Enqueue(blocks: seq<Block>, calls: nat, text: string, synth: string -> seq<Bytes>, aborted: AbortReads)
    : (r: (seq<Block>, nat))
    requires |text| > 0 && !IsSpace(text[|text| - 1])
    requires Sound(blocks, calls, synth, aborted)
    ensures Sound(r.0, r.1, synth, aborted)
    ensures r.1 >= calls
    ensures |r.0| == |blocks| + 1 && Extends(r.0, blocks) && r.0[|blocks|].text == text
    ensures var queued := r.0[|blocks|].frames;
            && |queued| <= |synth(text)| && queued == synth(text)[..|queued|]
            && Clear(aborted, calls, |queued|)
            && (|queued| < |synth(text)| ==> aborted(calls + |queued|))
    ensures aborted(calls) ==> r.0[|blocks|].frames == []
  {
    var frames := synth(text);
    var (k, c) := PutFrames(frames, calls, aborted);
    var b := Block(text, frames[..k]);
    assert Clear(aborted, 0, c) ==> k == |frames| by {
      if k < |frames| { assert !Clear(aborted, 0, c) by { assert aborted(calls + k); } }
    }
    SoundExtend(blocks, calls, b, c, synth, aborted);
    (blocks + [b], c)
  }

  /** The producer after `_enqueue_sentence(text)` with the flag read from
      `calls` on, its buffer left as `rest`: one block more, nothing else
      changed but the read count. */
  function Push(st: Producer, calls: nat, text: string, rest: string, synth: string -> seq<Bytes>, aborted: AbortReads)
    : (r: Producer)
    requires |text| > 0 && !IsSpace(text[|text| - 1])
    requires Sound(st.blocks, calls, synth, aborted)
    ensures Sound(r.blocks, r.calls, synth, aborted)
    ensures r.full == st.full && r.buffer == rest && r.calls >= calls
    ensures |r.blocks| == |st.blocks| + 1 && Extends(r.blocks, st.blocks) && r.blocks[|st.blocks|].text == text
  {
    var (blocks, c) := Enqueue(st.blocks, calls, text, synth, aborted);
    Producer(blocks, st.full, rest, c)
  }

  /** A sentence cut from the buffer is non-empty and does not end in whitespace. */
  lemma SentenceText(buffer: string)
    requires ExtractSentence(buffer).0.Some?
    ensures var s := ExtractSentence(buffer).0.value;
            |s| > 0 && !IsSpace(s[|s| - 1])
  {
  }

  /** The inner `while True` loop: cut and enqueue sentences until
      `_extract_sentence` yields none. A dropped one-character sentence also
      ends the loop, its text consumed. */
  function DrainSentences(st: Producer, synth: string -> seq<Bytes>, aborted: AbortReads): (r: Producer)
    requires Sound(st.blocks, st.calls, synth, aborted)
    ensures Sound(r.blocks, r.calls, synth, aborted)
    ensures r.full == st.full && r.calls >= st.calls
    ensures Extends(r.blocks, st.blocks)
    ensures NoEnding(st.buffer) ==> r == st
    decreases |st.buffer|
  {
    var (sentence, rest) := ExtractSentence(st.buffer);
    if sentence.None? then st.(buffer := rest)
    else
      var next := PushSentence(st, synth, aborted);
      var r := DrainSentences(next, synth, aborted);
      ExtendsTrans(r.blocks, next.blocks, st.blocks);
      r
  }

  /** A pass of the sentence loop that cut a sentence: it is enqueued and
      the text after it stays in the buffer. */
  function PushSentence(st: Producer, synth: string -> seq<Bytes>, aborted: AbortReads): (r: Producer)
    requires ExtractSentence(st.buffer).0.Some?
    requires Sound(st.blocks, st.calls, synth, aborted)
    ensures Sound(r.blocks, r.calls, synth, aborted)
    ensures r.full == st.full && r.calls >= st.calls && |r.buffer| < |st.buffer|
    ensures |r.blocks| == |st.blocks| + 1 && Extends(r.blocks, st.blocks)
  {
    var (sentence, rest) := ExtractSentence(st.buffer);
    SentenceText(st.buffer);
    Push(st, st.calls, sentence.value, rest, synth, aborted)
  }

  /** A soft chunk is non-empty and does not end in whitespace. */
  lemma SoftChunkText(buffer: string)
    requires ExtractSoftChunk(buffer).0.Some?
    ensures var s := ExtractSoftChunk(buffer).0.value;
            |s| > 0 && !IsSpace(s[|s| - 1])
  {
  }

  /** The soft-chunk loop: while the buffer holds at least 90 characters and
      no abort is seen, cut and enqueue a soft chunk; stop when none can be cut. */
  function DrainSoft(st: Producer, synth: string -> seq<Bytes>, aborted: AbortReads): (r: Producer)
    requires Sound(st.blocks, st.calls, synth, aborted)
    ensures Sound(r.blocks, r.calls, synth, aborted)
    ensures r.full == st.full && r.calls >= st.calls
    ensures Extends(r.blocks, st.blocks)
    ensures |st.buffer| < ChunkHardLimit ==> r == st
    ensures Clear(aborted, st.calls, r.calls - st.calls) ==>
              Texts(r.blocks) == Texts(st.blocks) + SoftCuts(st.buffer).texts
              && r.buffer == SoftCuts(st.buffer).rest
    decreases |st.buffer|
  {
    if |st.buffer| < ChunkHardLimit then
      assert Texts(st.blocks) + [] == Texts(st.blocks);
      st
    else if aborted(st.calls) || ExtractSoftChunk(st.buffer).0.None? then
      assert Texts(st.blocks) + [] == Texts(st.blocks);
      st.(calls := st.calls + 1)
    else
      SoundMoreCalls(st.blocks, st.calls, synth, aborted);
      var next := PushSoft(st.(calls := st.calls + 1), synth, aborted);
      var r := DrainSoft(next, synth, aborted);
      ExtendsTrans(r.blocks, next.blocks, st.blocks);
      var (chunk, rest) := ExtractSoftChunk(st.buffer);
      ThenCuts(aborted, st.calls, st.calls + 1, next.calls, r.calls, Texts(st.blocks), [chunk.value],
               Texts(next.blocks), Texts(r.blocks), SoftCuts(rest).texts);
      r
  }

  /** A pass of the soft-chunk loop that cut a chunk: it is enqueued and
      the rest stays in the buffer. */
  function PushSoft(st: Producer, synth: string -> seq<Bytes>, aborted: AbortReads): (r: Producer)
    requires ExtractSoftChunk(st.buffer).0.Some?
    requires Sound(st.blocks, st.calls, synth, aborted)
    ensures Sound(r.blocks, r.calls, synth, aborted)
    ensures r.full == st.full && r.calls >= st.calls && |r.buffer| < |st.buffer|
    ensures |r.blocks| == |st.blocks| + 1 && Extends(r.blocks, st.blocks)
    ensures r.buffer == ExtractSoftChunk(st.buffer).1
    ensures Texts(r.blocks) == Texts(st.blocks) + [ExtractSoftChunk(st.buffer).0.value]
  {
    var (chunk, rest) := ExtractSoftChunk(st.buffer);
    SoftChunkText(st.buffer);
    var r := Push(st, st.calls, chunk.value, rest, synth, aborted);
    TextsGrow(r.blocks, st.blocks);
    r
  }

  /** What the chunk loop leaves: the producer state, whether the loop
      broke on an abort, and how many chunks it took in. */
  datatype Taken = Taken(st: Producer, broke: bool, count: nat)

  /** The `async for` over the LLM chunks: an abort check before each chunk,
      then the chunk is appended to both the reply and the buffer, and the
      sentence and soft-chunk loops run. */
  function ProduceChunks(st: Producer, chunks: seq<string>, synth: string -> seq<Bytes>, aborted: AbortReads)
    : (r: Taken)
    requires Sound(st.blocks, st.calls, synth, aborted)
    ensures r.broke ==> r.st.calls > st.calls && LastReports(aborted, r.st.calls)
    ensures Sound(r.st.blocks, r.st.calls, synth, aborted)
    ensures r.st.calls >= st.calls
    ensures Extends(r.st.blocks, st.blocks)
    ensures r.count <= |chunks| && r.st.full == st.full + Concat(chunks[..r.count])
    ensures !r.broke ==> r.count == |chunks|
    ensures Clear(aborted, st.calls, r.st.calls - st.calls) ==>
              r.count == |chunks|
              && Texts(r.st.blocks) == Texts(st.blocks) + StreamCuts(st.buffer, chunks).texts
              && r.st.buffer == StreamCuts(st.buffer, chunks).rest
    decreases |chunks|
  {
    if |chunks| == 0 then
      assert chunks[..0] == [];
      Taken(st, false, 0)
    else if aborted(st.calls) then
      assert chunks[..0] == [];
      Taken(st.(calls := st.calls + 1), true, 0)
    else
      SoundMoreCalls(st.blocks, st.calls, synth, aborted);
      var next := Feed(st.(calls := st.calls + 1), chunks[0], synth, aborted);
      var r := ProduceChunks(next, chunks[1..], synth, aborted);
      ExtendsTrans(r.st.blocks, next.blocks, st.blocks);
      ConcatStep(st.full, chunks, r.count);
      FeedTexts(st.(calls := st.calls + 1), chunks[0], synth, aborted);
      ChunkStep(aborted, st.calls, next.calls, r.st.calls, Texts(st.blocks), FeedCuts(st.buffer, chunks[0]),
                Texts(next.blocks), next.buffer, Texts(r.st.blocks), r.st.buffer, chunks[1..]);
      r.(count := r.count + 1)
  }

  /** One chunk taken in: appended to the reply and the buffer, then the
      sentence loop and the soft-chunk loop run. */
  function Feed(st: Producer, c: string, synth: string -> seq<Bytes>, aborted: AbortReads): (r: Producer)
    requires Sound(st.blocks, st.calls, synth, aborted)
    ensures Sound(r.blocks, r.calls, synth, aborted)
    ensures r.full == st.full + c && r.calls >= st.calls
    ensures Extends(r.blocks, st.blocks)
  {
    var fed := Producer(st.blocks, st.full + c, st.buffer + c, st.calls);
    var afterSentences := DrainSentences(fed, synth, aborted);
    var afterSoft := DrainSoft(afterSentences, synth, aborted);
    ExtendsTrans(afterSoft.blocks, afterSentences.blocks, st.blocks);
    afterSoft
  }

  /** While its reads report no abort, taking in one chunk enqueues exactly
      the texts `FeedCuts` finds and leaves its remainder in the buffer. */
  lemma FeedTexts(st: Producer, c: string, synth: string -> seq<Bytes>, aborted: AbortReads)
    requires Sound(st.blocks, st.calls, synth, aborted)
    ensures var r := Feed(st, c, synth, aborted);
            Clear(aborted, st.calls, r.calls - st.calls) ==>
              Texts(r.blocks) == Texts(st.blocks) + FeedCuts(st.buffer, c).texts
              && r.buffer == FeedCuts(st.buffer, c).rest
  {
    var fed := Producer(st.blocks, st.full + c, st.buffer + c, st.calls);
    var afterSentences := DrainSentences(fed, synth, aborted);
    DrainSentencesTexts(fed, synth, aborted);
    var afterSoft := DrainSoft(afterSentences, synth, aborted);
    ThenCuts(aborted, st.calls, st.calls, afterSentences.calls, afterSoft.calls, Texts(st.blocks),
             SentenceCuts(st.buffer + c).texts, Texts(afterSentences.blocks), Texts(afterSoft.blocks),
             SoftCuts(SentenceCuts(st.buffer + c).rest).texts);
  }

  /** Two runs of cuts one after the other, the first read from `from` on:
      when no read from `calls` on reports an abort, the texts of the
      second follow those of the first. */
  lemma ThenCuts(aborted: AbortReads, calls: nat, from: nat, midCalls: nat, rCalls: nat, before: seq<string>,
                 first: seq<string>, mid: seq<string>, after: seq<string>, second: seq<string>)
    requires calls <= from <= midCalls <= rCalls
    requires Clear(aborted, from, midCalls - from) ==> mid == before + first
    requires Clear(aborted, midCalls, rCalls - midCalls) ==> after == mid + second
    ensures Clear(aborted, calls, rCalls - calls) ==> after == before + (first + second)
  {
    if Clear(aborted, calls, rCalls - calls) {
      ClearFrom(aborted, calls, rCalls - calls, from);
      ClearShorter(aborted, from, rCalls - from, midCalls - from);
      ClearFrom(aborted, calls, rCalls - calls, midCalls);
      AppendAssoc(before, first, second);
    }
  }

  /** One chunk, then the rest of the chunks: when no read from `calls` on
      reports an abort, the first chunk was cut as `f` and the rest are cut
      from what it left. */
  lemma ChunkStep(aborted: AbortReads, calls: nat, midCalls: nat, rCalls: nat, before: seq<string>, f: Cuts,
                  mid: seq<string>, midRest: string, after: seq<string>, afterRest: string, tail: seq<string>)
    requires calls < midCalls <= rCalls
    requires Clear(aborted, calls + 1, midCalls - calls - 1) ==> mid == before + f.texts && midRest == f.rest
    requires Clear(aborted, midCalls, rCalls - midCalls) ==>
               after == mid + StreamCuts(midRest, tail).texts && afterRest == StreamCuts(midRest, tail).rest
    ensures Clear(aborted, calls, rCalls - calls) ==>
              after == before + (f.texts + StreamCuts(f.rest, tail).texts) && afterRest == StreamCuts(f.rest, tail).rest
    ensures Clear(aborted, calls, rCalls - calls) ==> Clear(aborted, midCalls, rCalls - midCalls)
  {
    if Clear(aborted, calls, rCalls - calls) {
      ClearFrom(aborted, calls, rCalls - calls, calls + 1);
      ClearShorter(aborted, calls + 1, rCalls - calls - 1, midCalls - calls - 1);
      ClearFrom(aborted, calls, rCalls - calls, midCalls);
      AppendAssoc(before, f.texts, StreamCuts(f.rest, tail).texts);
    }
  }

  /** Concatenation of text chunks. */
  function Concat(chunks: seq<string>): string {
    if |chunks| == 0 then "" else chunks[0] + Concat(chunks[1..])
  }

  /** Feeding the first chunk, then `m` more, feeds the first `m + 1`. */
  lemma ConcatStep(prefix: string, chunks: seq<string>, m: nat)
    requires m < |chunks|
    ensures (prefix + chunks[0]) + Concat(chunks[1..][..m]) == prefix + Concat(chunks[..m + 1])
  {
    assert chunks[..m + 1][1..] == chunks[1..][..m];
  }

  /** No abort in a run of reads means none in any shorter run from the same start. */
  lemma ClearShorter(aborted: AbortReads, from: nat, n: nat, m: nat)
    requires m <= n && Clear(aborted, from, n)
    ensures Clear(aborted, from, m)
  {
  }

  /** No abort in a run of reads means none in any later part of it. */
  lemma ClearFrom(aborted: AbortReads, from: nat, n: nat, from': nat)
    requires from <= from' <= from + n && Clear(aborted, from, n)
    ensures Clear(aborted, from', from + n - from')
  {
  }

  /** Reading the flag once more keeps the invariant. */
  lemma SoundMoreCalls(blocks: seq<Block>, calls: nat, synth: string -> seq<Bytes>, aborted: AbortReads)
    requires Sound(blocks, calls, synth, aborted)
    ensures Sound(blocks, calls + 1, synth, aborted)
  {
  }

  /** What the producer leaves behind: the queued blocks (the queue is
      `QueueOf(blocks)`), the full reply, how many chunks it consumed and
      how many times it read the abort flag. */
  datatype Produced = Produced(blocks: seq<Block>, full: string, consumed: nat, calls: nat)

  /** The producer's tail: unless the chunk iterator raised, the stripped
      remainder of the buffer is enqueued when non-empty and a read of the
      flag reports no abort. */
  function Flush(st: Producer, raised: bool, consumed: nat, synth: string -> seq<Bytes>, aborted: AbortReads): (r: Produced)
    requires Sound(st.blocks, st.calls, synth, aborted)
    ensures Sound(r.blocks, r.calls, synth, aborted)
    ensures r.full == st.full && r.consumed == consumed && r.calls >= st.calls
    ensures Extends(r.blocks, st.blocks)
    ensures raised || Strip(st.buffer) == "" ==> r.blocks == st.blocks
    ensures !raised && Strip(st.buffer) != "" && !aborted(st.calls) ==>
              |r.blocks| == |st.blocks| + 1 && r.blocks[|st.blocks|].text == Strip(st.buffer)
  {
    if raised then Produced(st.blocks, st.full, consumed, st.calls)
    else
      var remaining := Strip(st.buffer);
      if |remaining| == 0 then Produced(st.blocks, st.full, consumed, st.calls)
      else if aborted(st.calls) then Produced(st.blocks, st.full, consumed, st.calls + 1)
      else
        SoundMoreCalls(st.blocks, st.calls, synth, aborted);
        var next := Push(st, st.calls + 1, remaining, "", synth, aborted);
        Produced(next.blocks, st.full, consumed, next.calls)
  }

  /** The producer coroutine of `_stream_response`. After the chunk loop the
      stripped remainder is enqueued when non-empty and no abort is seen;
      when the chunk iterator raises, that flush is skipped. `_DONE` is put
      in every case (see `QueueOf`). The reply is exactly the chunks taken
      in; when no read of the flag reported an abort all chunks were taken
      in and every block is complete. */
  function Produce(stream: ChunkStream, synth: string -> seq<Bytes>, aborted: AbortReads): (r: Produced)
    ensures r.consumed <= |stream.chunks| && r.full == Concat(stream.chunks[..r.consumed])
    ensures Clear(aborted, 0, r.calls) ==> r.consumed == |stream.chunks| && Texts(r.blocks) == ReplyTexts(stream)
    ensures Sound(r.blocks, r.calls, synth, aborted)
  {
    var start := Producer([], "", "", 0);
    assert FrameCount([]) == 0;
    var Taken(st, broke, n) := ProduceChunks(start, stream.chunks, synth, aborted);
    assert st.full == Concat(stream.chunks[..n]) by {
      assert "" + Concat(stream.chunks[..n]) == Concat(stream.chunks[..n]);
    }
    var r := Flush(st, stream.raises && !broke, n, synth, aborted);
    FlushTexts(st, stream.raises && !broke, n, synth, aborted);
    assert Clear(aborted, 0, r.calls) ==> Clear(aborted, 0, st.calls) && Texts(r.blocks) == ReplyTexts(stream) by {
      if Clear(aborted, 0, r.calls) {
        ClearShorter(aborted, 0, r.calls, st.calls);
        assert !broke;
        assert [] + StreamCuts("", stream.chunks).texts == StreamCuts("", stream.chunks).texts;
      }
    }
    r
  }

  // ---------------------------------------------------------------------
  // The texts a reply is spoken in
  // ---------------------------------------------------------------------

  /** Texts cut from a buffer, in order, and what is left of the buffer. */
  datatype Cuts = Cuts(texts: seq<string>, rest: string)

  /** The sentence loop on text alone: the sentences `_extract_sentence`
      cuts one after the other, until it yields none (no ending left, or a
      one-character piece dropped). */
  function SentenceCuts(buffer: string): (r: Cuts)
    ensures NoEnding(buffer) ==> r == Cuts([], buffer)
    decreases |buffer|
  {
    var (sentence, rest) := ExtractSentence(buffer);
    if sentence.None? then Cuts([], rest)
    else
      var r := SentenceCuts(rest);
      Cuts([sentence.value] + r.texts, r.rest)
  }

  /** Texts of at least two characters, each ending at its only sentence
      ending. */
  predicate WholeSentences(texts: seq<string>) {
    forall k :: 0 <= k < |texts| ==> |texts[k]| >= 2 && EndsOnce(texts[k])
  }

  /** Every text the sentence loop cuts is at least two characters long and
      ends at its only sentence ending. */
  lemma {:induction false} SentenceCutsShape(buffer: string)
    ensures WholeSentences(SentenceCuts(buffer).texts)
    decreases |buffer|
  {
    var e := ExtractSentence(buffer);
    if e.0.Some? {
      SentenceShape(buffer);
      SentenceCutsShape(e.1);
      ShapeCons(e.0.value, SentenceCuts(e.1).texts);
    }
  }

  /** Putting a well-shaped sentence in front of well-shaped sentences. */
  lemma ShapeCons(s: string, texts: seq<string>)
    requires |s| >= 2 && EndsOnce(s) && WholeSentences(texts)
    ensures WholeSentences([s] + texts)
  {
    var all := [s] + texts;
    assert forall k :: 1 <= k < |all| ==> all[k] == texts[k - 1];
  }

  /** The soft-chunk loop on text alone: while the buffer holds at least
      90 characters, the chunks `_extract_soft_chunk` cuts; it stops when
      the buffer is shorter or no chunk can be cut. */
  function SoftCuts(buffer: string): (r: Cuts)
    ensures |buffer| < ChunkHardLimit ==> r == Cuts([], buffer)
    decreases |buffer|
  {
    if |buffer| < ChunkHardLimit then Cuts([], buffer)
    else
      var (chunk, rest) := ExtractSoftChunk(buffer);
      if chunk.None? then Cuts([], buffer)
      else
        var r := SoftCuts(rest);
        Cuts([chunk.value] + r.texts, r.rest)
  }

  /** Texts of 28 to 90 characters. */
  predicate SoftSized(texts: seq<string>) {
    forall k :: 0 <= k < |texts| ==> ChunkMinChars <= |texts[k]| <= ChunkHardLimit
  }

  /** Every soft chunk is 28 to 90 characters long. */
  lemma {:induction false} SoftCutsSized(buffer: string)
    ensures SoftSized(SoftCuts(buffer).texts)
    decreases |buffer|
  {
    if |buffer| >= ChunkHardLimit {
      var e := ExtractSoftChunk(buffer);
      if e.0.Some? {
        SoftCutsSized(e.1);
        SizedCons(e.0.value, SoftCuts(e.1).texts);
      }
    }
  }

  lemma SizedCons(s: string, texts: seq<string>)
    requires ChunkMinChars <= |s| <= ChunkHardLimit && SoftSized(texts)
    ensures SoftSized([s] + texts)
  {
    var all := [s] + texts;
    assert forall k :: 1 <= k < |all| ==> all[k] == texts[k - 1];
  }

  /** The soft-chunk loop stops only when the buffer is shorter than 90
      characters or no chunk can be cut from it. */
  lemma {:induction false} SoftCutsStop(buffer: string)
    ensures var rest := SoftCuts(buffer).rest;
            |rest| < ChunkHardLimit || ExtractSoftChunk(rest).0.None?
    decreases |buffer|
  {
    if |buffer| >= ChunkHardLimit {
      var e := ExtractSoftChunk(buffer);
      if e.0.Some? {
        SoftCutsStop(e.1);
      }
    }
  }

  /** One LLM chunk appended to the buffer: its sentences, then its soft
      chunks. */
  function FeedCuts(buffer: string, c: string): (r: Cuts)
    ensures var s := SentenceCuts(buffer + c);
            r.texts == s.texts + SoftCuts(s.rest).texts && r.rest == SoftCuts(s.rest).rest
  {
    var s := SentenceCuts(buffer + c);
    var t := SoftCuts(s.rest);
    Cuts(s.texts + t.texts, t.rest)
  }

  /** The chunks fed one after the other from `buffer`. */
  function StreamCuts(buffer: string, chunks: seq<string>): (r: Cuts)
    ensures |chunks| == 0 ==> r == Cuts([], buffer)
    decreases |chunks|
  {
    if |chunks| == 0 then Cuts([], buffer)
    else
      var f := FeedCuts(buffer, chunks[0]);
      var r := StreamCuts(f.rest, chunks[1..]);
      Cuts(f.texts + r.texts, r.rest)
  }

  /** The texts a reply is spoken in when nothing aborts it: the cuts of
      the chunks as they arrive, then the stripped remainder unless it is
      blank or the chunk iterator raised. */
  function ReplyTexts(stream: ChunkStream): (texts: seq<string>)
  {
    var r := StreamCuts("", stream.chunks);
    var remaining := Strip(r.rest);
    r.texts + (if !stream.raises && |remaining| > 0 then [remaining] else [])
  }

  /** The texts of a run of blocks, in order. */
  function Texts(blocks: seq<Block>): (texts: seq<string>)
    ensures |texts| == |blocks|
  {
    if |blocks| == 0 then [] else [blocks[0].text] + Texts(blocks[1..])
  }

  /** Each text is its block's. */
  lemma {:induction false} TextsAt(blocks: seq<Block>)
    ensures forall k :: 0 <= k < |blocks| ==> Texts(blocks)[k] == blocks[k].text
    decreases |blocks|
  {
    if |blocks| > 0 {
      TextsAt(blocks[1..]);
      assert forall k :: 1 <= k < |blocks| ==> Texts(blocks)[k] == Texts(blocks[1..])[k - 1];
    }
  }

  /** One block more adds its text at the end. */
  lemma TextsGrow(a: seq<Block>, b: seq<Block>)
    requires Extends(a, b) && |a| == |b| + 1
    ensures Texts(a) == Texts(b) + [a[|b|].text]
  {
    TextsAt(a);
    TextsAt(b);
    assert forall k :: 0 <= k < |b| ==> a[k] == b[k];
  }

  /** The sentence loop enqueues exactly the sentences `SentenceCuts`
      finds, whatever the flag reads, and leaves the same buffer. */
  lemma {:induction false} DrainSentencesTexts(st: Producer, synth: string -> seq<Bytes>, aborted: AbortReads)
    requires Sound(st.blocks, st.calls, synth, aborted)
    ensures var r := DrainSentences(st, synth, aborted);
            Texts(r.blocks) == Texts(st.blocks) + SentenceCuts(st.buffer).texts
            && r.buffer == SentenceCuts(st.buffer).rest
    decreases |st.buffer|
  {
    var (sentence, rest) := ExtractSentence(st.buffer);
    if sentence.Some? {
      var next := PushSentence(st, synth, aborted);
      TextsGrow(next.blocks, st.blocks);
      DrainSentencesTexts(next, synth, aborted);
      AppendAssoc(Texts(st.blocks), [sentence.value], SentenceCuts(rest).texts);
    }
  }

  /** The flush adds the stripped remainder, when it is not blank and the
      iterator did not raise, provided its read reports no abort. */
  lemma FlushTexts(st: Producer, raised: bool, consumed: nat, synth: string -> seq<Bytes>, aborted: AbortReads)
    requires Sound(st.blocks, st.calls, synth, aborted)
    ensures var r := Flush(st, raised, consumed, synth, aborted);
            var remaining := Strip(st.buffer);
            Clear(aborted, 0, r.calls) ==>
              Texts(r.blocks) == Texts(st.blocks) + (if !raised && |remaining| > 0 then [remaining] else [])
  {
    var r := Flush(st, raised, consumed, synth, aborted);
    if !raised && |Strip(st.buffer)| > 0 && Clear(aborted, 0, r.calls) {
      assert r.calls > st.calls;
      TextsGrow(r.blocks, st.blocks);
    }
  }

  /** The callbacks for speaking a run of texts completely: each text's
      sentence callback, then one audio callback per frame of its
      synthesis. */
  function Spoken(texts: seq<string>, synth: string -> seq<Bytes>): (events: seq<Event>)
    ensures forall k :: 0 <= k < |events| ==> Streamed(events[k])
  {
    if |texts| == 0 then []
    else [TtsSentence(texts[0])] + AudioEvents(synth(texts[0])) + Spoken(texts[1..], synth)
  }

  /** Complete blocks turn into the callbacks of speaking their texts. */
  lemma {:induction false} CompleteBlocksSpoken(blocks: seq<Block>, synth: string -> seq<Bytes>)
    requires forall k :: 0 <= k < |blocks| ==> blocks[k].frames == synth(blocks[k].text)
    ensures BlockEvents(blocks) == Spoken(Texts(blocks), synth)
    decreases |blocks|
  {
    if |blocks| > 0 {
      CompleteBlocksSpoken(blocks[1..], synth);
      assert Texts(blocks)[1..] == Texts(blocks[1..]);
    }
  }

  /** Where the text is cut depends on how the reply is chunked, not only
      on the reply: a lone "." ends the sentence loop, so the sentences
      after it in the same chunk stay together until the flush. */
  lemma ChunkingMatters()
    ensures ReplyTexts(ChunkStream([". Hi. Yo."], false)) == ["Hi. Yo."]
    ensures ReplyTexts(ChunkStream([".", " Hi. Yo."], false)) == ["Hi.", "Yo."]
  {
    OneChunkExample();
    TwoChunksExample();
  }

  /** Example: ". Hi. Yo." in one chunk is spoken in one piece. */
  lemma OneChunkExample()
    ensures ReplyTexts(ChunkStream([". Hi. Yo."], false)) == ["Hi. Yo."]
  {
    ExampleSpelling();
    OneChunk(". Hi. Yo.", " Hi. Yo.", "Hi. Yo.");
  }

  /** Example: "." then " Hi. Yo." is spoken in two sentences. */
  lemma TwoChunksExample()
    ensures ReplyTexts(ChunkStream([".", " Hi. Yo."], false)) == ["Hi.", "Yo."]
  {
    ExampleSpelling();
    TwoChunks(".", " Hi. Yo.", "Hi.", " Yo.", "Yo.");
  }

  /** How the example texts are put together. */
  lemma ExampleSpelling()
    ensures ". Hi. Yo." == ['.'] + " Hi. Yo."
    ensures " Hi. Yo." == [' '] + "Hi. Yo." && " Hi. Yo." == [' '] + "Hi." + " Yo."
    ensures " Yo." == [' '] + "Yo." + ""
  {
  }

  /** A "." then a short text in one chunk: the lone "." is dropped and
      ends the sentence loop, and the text waits for the flush. */
  lemma OneChunk(c: string, rest: string, text: string)
    requires c == ['.'] + rest && rest == [' '] + text && |rest| < ChunkHardLimit
    requires |text| > 0 && !IsSpace(text[0]) && !IsSpace(text[|text| - 1])
    ensures ReplyTexts(ChunkStream([c], false)) == [text]
  {
    LoneDot(c, rest);
    StripSpaceFirst(text);
    StripOfTrimmed(text);
    FlushOnly(c, rest);
  }

  /** A "." alone, then two short sentences in the next chunk: the second
      chunk meets the sentence loop whole and both are cut. */
  lemma TwoChunks(first: string, second: string, s1: string, mid: string, s2: string)
    requires first == ['.'] && second == [' '] + s1 + mid && mid == [' '] + s2 + ""
    requires |s1| == 3 && s1[2] == '.' && !IsSpace(s1[0]) && !IsSentenceEnding(s1[0]) && !IsSentenceEnding(s1[1])
    requires |s2| == 3 && s2[2] == '.' && !IsSpace(s2[0]) && !IsSentenceEnding(s2[0]) && !IsSentenceEnding(s2[1])
    ensures ReplyTexts(ChunkStream([first, second], false)) == [s1, s2]
  {
    SentenceExample(second, s1, mid);
    SentenceExample(mid, s2, "");
    assert SentenceCuts("") == Cuts([], "");
    assert SentenceCuts(mid) == Cuts([s2], "");
    assert SentenceCuts(second) == Cuts([s1, s2], "");
    LoneDot(first, "");
    SecondChunk(first, second, [s1, s2]);
  }

  /** A chunk whose sentence loop cuts nothing, with no soft cut either,
      is left whole for the flush. */
  lemma FlushOnly(c: string, rest: string)
    requires SentenceCuts(c) == Cuts([], rest) && |rest| < ChunkHardLimit
    ensures ReplyTexts(ChunkStream([c], false)) == if |Strip(rest)| > 0 then [Strip(rest)] else []
  {
    var chunks: seq<string> := [c];
    assert "" + c == c;
    assert |chunks[1..]| == 0;
    assert StreamCuts("", chunks) == Cuts([], rest);
  }

  /** A lone "." ends the sentence loop, dropped. */
  lemma LoneDot(buffer: string, rest: string)
    requires buffer == ['.'] + rest
    ensures ExtractSentence(buffer) == (None, rest)
    ensures SentenceCuts(buffer) == Cuts([], rest)
  {
    assert FindFirst(buffer, IsSentenceEnding) == 0;
    assert buffer[..1] == ['.'] && buffer[1..] == rest;
    assert !AllBy(['.'], IsSpace);
  }

  /** A first chunk that leaves nothing behind, then a second chunk cut
      into whole sentences with nothing left. */
  lemma SecondChunk(first: string, second: string, texts: seq<string>)
    requires SentenceCuts(first) == Cuts([], "") && SentenceCuts(second) == Cuts(texts, "")
    ensures ReplyTexts(ChunkStream([first, second], false)) == texts
  {
    FeedWhole(first, []);
    FeedWhole(second, texts);
    var chunks: seq<string> := [first, second];
    StreamStep("", chunks);
    StreamStep("", chunks[1..]);
    assert chunks[1..][1..] == [];
    assert [] + (texts + []) == texts;
    assert Strip("") == "";
  }

  /** A chunk fed into an empty buffer whose sentences take it all. */
  lemma FeedWhole(c: string, texts: seq<string>)
    requires SentenceCuts(c) == Cuts(texts, "")
    ensures FeedCuts("", c) == Cuts(texts, "")
  {
    assert "" + c == c;
    assert texts + [] == texts;
  }

  /** The cuts of the chunks: the first chunk's, then those of the rest
      from what it left. */
  lemma StreamStep(buffer: string, chunks: seq<string>)
    requires |chunks| > 0
    ensures var f := FeedCuts(buffer, chunks[0]);
            var r := StreamCuts(f.rest, chunks[1..]);
            StreamCuts(buffer, chunks) == Cuts(f.texts + r.texts, r.rest)
  {
  }


  /** A space, a two-letter word and a "." make one sentence. */
  lemma SentenceExample(buffer: string, sentence: string, rest: string)
    requires buffer == [' '] + sentence + rest && |sentence| == 3 && sentence[2] == '.'
    requires !IsSpace(sentence[0]) && !IsSentenceEnding(sentence[0]) && !IsSentenceEnding(sentence[1])
    ensures ExtractSentence(buffer) == (Some(sentence), rest)
  {
    assert buffer[0] == ' ' && buffer[1] == sentence[0] && buffer[2] == sentence[1] && buffer[3] == '.';
    assert FindFirst(buffer, IsSentenceEnding) == 3;
    assert buffer[..4] == [' '] + sentence && buffer[4..] == rest;
    StripSpaceFirst(sentence);
    StripOfTrimmed(sentence);
  }

  /** The callback an item turns into when the consumer forwards it. */
  function Forward(item: Item): Event
    requires !item.Done?
  {
    match item
    case Marker(t) => TtsSentence(t)
    case Audio(f) => TtsAudio(f)
  }

  /** Callbacks for a run of items, in queue order, up to the first `_DONE`. */
  function ForwardAll(items: seq<Item>): (events: seq<Event>)
    ensures forall k :: 0 <= k < |events| ==> Streamed(events[k])
  {
    if |items| == 0 || items[0].Done? then [] else [Forward(items[0])] + ForwardAll(items[1..])
  }

  /** The consumer coroutine: take items in FIFO order until `_DONE`; before
      each other item read the abort flag, and drain the item silently when
      the read reports an abort. `calls` counts the consumer's
      `is_aborted()` calls so far. */
  function ConsumeFrom(q: seq<Item>, calls: nat, aborted: AbortReads): (events: seq<Event>)
    ensures |events| <= DoneIndex(q)
    ensures forall k :: 0 <= k < |events| ==> Streamed(events[k])
    ensures Raised(aborted, calls, DoneIndex(q)) ==> events == []
    decreases |q|
  {
    if |q| == 0 || q[0].Done? then []
    else if aborted(calls) then ConsumeFrom(q[1..], calls + 1, aborted)
    else [Forward(q[0])] + ConsumeFrom(q[1..], calls + 1, aborted)
  }

  /** Position of `_DONE` in the queue (or its length when absent). */
  function DoneIndex(q: seq<Item>): (k: nat)
    ensures k <= |q|
    ensures forall j :: 0 <= j < k ==> !q[j].Done?
    ensures k < |q| ==> q[k].Done?
  {
    if |q| == 0 || q[0].Done? then 0 else 1 + DoneIndex(q[1..])
  }

  /** The items of a run that survive the consumer's checks: item `k` is
      kept exactly when read `calls + k` reports no abort. */
  function Kept(items: seq<Item>, calls: nat, aborted: AbortReads): (r: seq<Item>)
    ensures |r| <= |items|
    ensures forall x :: x in r ==> x in items
    ensures Clear(aborted, calls, |items|) ==> r == items
    ensures Raised(aborted, calls, |items|) ==> r == []
    decreases |items|
  {
    if |items| == 0 then []
    else
      var rest := Kept(items[1..], calls + 1, aborted);
      assert forall x :: x in rest ==> x in items;
      assert items == [items[0]] + items[1..];
      (if aborted(calls) then [] else [items[0]]) + rest
  }

  /** Keeping is decided read by read, so it distributes over concatenation. */
  lemma {:induction false} KeptAppend(a: seq<Item>, b: seq<Item>, calls: nat, aborted: AbortReads)
    ensures Kept(a + b, calls, aborted) == Kept(a, calls, aborted) + Kept(b, calls + |a|, aborted)
    decreases |a|
  {
    if |a| == 0 {
      assert a + b == b;
      assert [] + Kept(b, calls, aborted) == Kept(b, calls, aborted);
    } else {
      var head := if aborted(calls) then [] else [a[0]];
      assert (a + b)[0] == a[0];
      assert (a + b)[1..] == a[1..] + b;
      KeptAppend(a[1..], b, calls + 1, aborted);
      var k1, k2 := Kept(a[1..], calls + 1, aborted), Kept(b, calls + |a|, aborted);
      assert Kept(a + b, calls, aborted) == head + (k1 + k2);
      assert Kept(a, calls, aborted) == head + k1;
      AppendAssoc(head, k1, k2);
    }
  }

  /** Item `k` is dropped when its read reports an abort, and kept in place
      when it does not, whatever the other reads report. */
  lemma KeptAt(items: seq<Item>, calls: nat, aborted: AbortReads, k: nat)
    requires k < |items|
    ensures aborted(calls + k) ==>
              Kept(items, calls, aborted) == Kept(items[..k], calls, aborted) + Kept(items[k + 1..], calls + k + 1, aborted)
    ensures !aborted(calls + k) ==>
              Kept(items, calls, aborted) == Kept(items[..k], calls, aborted) + [items[k]] + Kept(items[k + 1..], calls + k + 1, aborted)
  {
    var rest := items[k..];
    KeptSplit(items, calls, aborted, k);
    assert rest[0] == items[k] && rest[1..] == items[k + 1..];
    var kb, ka := Kept(items[..k], calls, aborted), Kept(items[k + 1..], calls + k + 1, aborted);
    var head := if aborted(calls + k) then [] else [items[k]];
    assert Kept(rest, calls + k, aborted) == head + ka;
    if aborted(calls + k) {
      assert head + ka == ka;
    } else {
      AppendAssoc(kb, [items[k]], ka);
    }
  }

  /** Keeping the first `m` items and the rest separately, the rest's reads
      counted on from `calls + m`, is keeping them all. */
  lemma KeptSplit(items: seq<Item>, calls: nat, aborted: AbortReads, m: nat)
    requires m <= |items|
    ensures Kept(items, calls, aborted) == Kept(items[..m], calls, aborted) + Kept(items[m..], calls + m, aborted)
  {
    assert items[..m] + items[m..] == items;
    KeptAppend(items[..m], items[m..], calls, aborted);
  }

  /** The consumer forwards exactly the kept items before `_DONE`, in queue
      order: one callback per item whose read reports no abort, none for an
      item whose read reports one, and nothing after `_DONE`. */
  lemma {:induction false} ConsumeForwardsKept(q: seq<Item>, calls: nat, aborted: AbortReads)
    ensures ConsumeFrom(q, calls, aborted) == ForwardAll(Kept(q[..DoneIndex(q)], calls, aborted))
    decreases |q|
  {
    var d := DoneIndex(q);
    if |q| == 0 || q[0].Done? {
      assert q[..d] == [];
    } else {
      ConsumeForwardsKept(q[1..], calls + 1, aborted);
      assert q[..d][1..] == q[1..][..d - 1];
      assert q[..d] == [q[0]] + q[..d][1..];
      var rest := Kept(q[1..][..d - 1], calls + 1, aborted);
      assert Kept(q[..d], calls, aborted) == (if aborted(calls) then [] else [q[0]]) + rest;
      if !aborted(calls) {
        var kept := [q[0]] + rest;
        assert kept[0] == q[0] && kept[1..] == rest;
        assert ForwardAll(kept) == [Forward(q[0])] + ForwardAll(rest);
      } else {
        assert [] + rest == rest;
      }
    }
  }

  /** Callbacks for a run of frames. */
  function AudioEvents(frames: seq<Bytes>): (events: seq<Event>)
    ensures forall k :: 0 <= k < |events| ==> Streamed(events[k])
  {
    if |frames| == 0 then [] else [TtsAudio(frames[0])] + AudioEvents(frames[1..])
  }

  /** The callbacks a run of blocks turns into when nothing is aborted: each
      block's sentence callback, then one audio callback per frame. */
  function BlockEvents(blocks: seq<Block>): (events: seq<Event>)
    ensures forall k :: 0 <= k < |events| ==> Streamed(events[k])
  {
    if |blocks| == 0 then []
    else [TtsSentence(blocks[0].text)] + AudioEvents(blocks[0].frames) + BlockEvents(blocks[1..])
  }

  /** Forwarding is done item by item, so it distributes over a `_DONE`-free prefix. */
  lemma {:induction false} ForwardAllAppend(a: seq<Item>, b: seq<Item>)
    requires forall k :: 0 <= k < |a| ==> !a[k].Done?
    ensures ForwardAll(a + b) == ForwardAll(a) + ForwardAll(b)
    decreases |a|
  {
    if |a| == 0 {
      assert a + b == b;
    } else {
      assert (a + b)[1..] == a[1..] + b;
      ForwardAllAppend(a[1..], b);
    }
  }

  lemma {:induction false} ForwardAudio(frames: seq<Bytes>)
    ensures ForwardAll(AudioItems(frames)) == AudioEvents(frames)
    decreases |frames|
  {
    if |frames| > 0 {
      ForwardAudio(frames[1..]);
    }
  }

  /** The queued blocks forward to exactly their block events. */
  lemma {:induction false} ForwardFlatten(blocks: seq<Block>)
    ensures ForwardAll(Flatten(blocks)) == BlockEvents(blocks)
    decreases |blocks|
  {
    if |blocks| > 0 {
      var audio := AudioItems(blocks[0].frames);
      var tail := Flatten(blocks[1..]);
      var head := [Marker(blocks[0].text)] + audio;
      assert Flatten(blocks) == head + tail;
      ForwardAllAppend(head, tail);
      ForwardAllAppend([Marker(blocks[0].text)], audio);
      ForwardAudio(blocks[0].frames);
      ForwardFlatten(blocks[1..]);
    }
  }

  /** Without an abort the consumer replays the queue exactly: each
      sentence's callback, then its frames, before the next sentence's. */
  lemma ConsumeInOrder(blocks: seq<Block>, aborted: AbortReads)
    requires Clear(aborted, 0, |Flatten(blocks)|)
    ensures ConsumeFrom(QueueOf(blocks), 0, aborted) == BlockEvents(blocks)
  {
    var q := QueueOf(blocks);
    FlattenHasNoDone(blocks);
    assert q[..|Flatten(blocks)|] == Flatten(blocks);
    assert DoneIndex(q) == |Flatten(blocks)| by {
      assert q[|Flatten(blocks)|].Done?;
    }
    ConsumeForwardsKept(q, 0, aborted);
    ForwardFlatten(blocks);
  }

  /** While the flag stays raised from read `a` on, no callback fires after
      that read: at most `a - calls` items are forwarded, all of them kept
      items from before it. */
  lemma SilentWhileRaised(q: seq<Item>, calls: nat, aborted: AbortReads, a: nat)
    requires calls <= a
    requires forall n: nat :: a <= n ==> aborted(n)
    ensures |ConsumeFrom(q, calls, aborted)| <= a - calls
    ensures var d := DoneIndex(q);
            var m := if a - calls < d then a - calls else d;
            ConsumeFrom(q, calls, aborted) == ForwardAll(Kept(q[..m], calls, aborted))
  {
    var d := DoneIndex(q);
    var m := if a - calls < d then a - calls else d;
    ConsumeForwardsKept(q, calls, aborted);
    assert q[..d] == q[..m] + q[m..d];
    KeptAppend(q[..m], q[m..d], calls, aborted);
    assert Raised(aborted, calls + m, d - m);
    assert Kept(q[..d], calls, aborted) == Kept(q[..m], calls, aborted);
    ForwardAllLength(Kept(q[..m], calls, aborted));
  }

  lemma {:induction false} ForwardAllLength(items: seq<Item>)
    ensures |ForwardAll(items)| <= |items|
    decreases |items|
  {
    if |items| > 0 && !items[0].Done? {
      ForwardAllLength(items[1..]);
    }
  }

  /** The fast music path's payload from `_call_music_tool`. */
  function MusicPayload(songName: string, toolOk: bool, toolContent: Json): Dict {
    var requestBody := map["song_name" := JStr(songName), "query" := JStr(songName), "limit" := JInt(5)];
    map["intent" := JStr("music"), "song_name" := JStr(songName), "request_body" := JObj(requestBody),
        "ok" := JBool(toolOk), "content" := toolContent]
  }

  /** Inputs `process` takes from collaborators the model does not interpret. */
  datatype Collaborators = Collaborators(
    transcript: string,              // STT result; "" when it returned nothing
    stream: ChunkStream,             // the LLM reply
    synth: string -> seq<Bytes>,     // the TTS engine
    toolOk: bool, toolContent: Json, // the music search result
    preview: seq<Block>)             // texts and frames of the music preview

  /** The result of `process` and the callbacks it fired. */
  datatype Outcome = Outcome(result: Option<(string, string)>, events: seq<Event>)

  /** The reply path's callbacks between `on_tts_start` and `on_tts_stop`:
      what the consumer forwards from the producer's queue. */
  function ReplyEvents(p: Produced, cAborted: AbortReads): (events: seq<Event>)
    ensures forall k :: 0 <= k < |events| ==> Streamed(events[k])
  {
    ConsumeForwardsKept(QueueOf(p.blocks), 0, cAborted);
    ConsumeFrom(QueueOf(p.blocks), 0, cAborted)
  }

  /** A turn's callbacks: `on_stt_result`, `on_tts_start`, the middle, and
      `on_tts_stop` unless the turn is aborted at the end. */
  function TurnEvents(transcript: string, middle: seq<Event>, endAborted: bool): (events: seq<Event>)
    requires forall k :: 0 <= k < |middle| ==> middle[k] != TtsStop
    ensures |events| >= 2 && events[0] == SttResult(transcript) && events[1] == TtsStart
    ensures TtsStop in events <==> !endAborted
    ensures TtsStop in events ==> events[|events| - 1] == TtsStop
  {
    var events := [SttResult(transcript), TtsStart] + middle + (if endAborted then [] else [TtsStop]);
    assert forall k :: 0 <= k < |events| - 1 ==> events[k] != TtsStop;
    events
  }

  /** The fast music path: the tool's payload, then the preview. */
  function MusicTurn(transcript: string, songName: string, env: Collaborators, endAborted: bool): (o: Outcome)
    ensures o.result == Some((transcript, ""))
    ensures |o.events| >= 2 && o.events[0] == SttResult(transcript) && o.events[1] == TtsStart
    ensures TtsStop in o.events <==> !endAborted
    ensures TtsStop in o.events ==> o.events[|o.events| - 1] == TtsStop
  {
    var payload := MusicPayload(songName, env.toolOk, env.toolContent);
    var preview := BlockEvents(env.preview);
    var middle := [MusicAction(payload)] + preview;
    assert forall k :: 1 <= k < |middle| ==> middle[k] == preview[k - 1];
    Outcome(Some((transcript, "")), TurnEvents(transcript, middle, endAborted))
  }

  /** The reply path: produce, consume, and return the reply unless empty. */
  function ReplyTurn(transcript: string, p: Produced, cAborted: AbortReads, endAborted: bool): (o: Outcome)
    ensures o.result.None? <==> p.full == ""
    ensures o.result.Some? ==> o.result.value == (transcript, p.full)
    ensures |o.events| >= 2 && o.events[0] == SttResult(transcript) && o.events[1] == TtsStart
    ensures TtsStop in o.events <==> !endAborted
    ensures TtsStop in o.events ==> o.events[|o.events| - 1] == TtsStop
  {
    Outcome(if p.full == "" then None else Some((transcript, p.full)),
            TurnEvents(transcript, ReplyEvents(p, cAborted), endAborted))
  }

  /** `process`: transcribe; an empty transcript ends the turn before any
      callback. A fast-path music request fires the tool, streams its
      preview and returns `(text, "")`. Otherwise the reply is produced and
      consumed, `on_tts_stop` fires unless the turn was aborted at the end,
      and the result is `None` exactly when the reply is empty. */
  function Process(env: Collaborators, pAborted: AbortReads, cAborted: AbortReads, endAborted: bool): (o: Outcome)
    ensures env.transcript == "" ==> o == Outcome(None, [])
    ensures env.transcript != "" ==> |o.events| >= 2 && o.events[0] == SttResult(env.transcript) && o.events[1] == TtsStart
    ensures env.transcript != "" ==> (TtsStop in o.events <==> !endAborted)
    ensures TtsStop in o.events ==> o.events[|o.events| - 1] == TtsStop
    ensures o.result.Some? ==> o.result.value.0 == env.transcript
    ensures env.transcript != "" && Intent.DetectFast(env.transcript).intent == "music" ==>
              o.result == Some((env.transcript, ""))
    ensures env.transcript != "" && Intent.DetectFast(env.transcript).intent != "music" ==>
              var p := Produce(env.stream, env.synth, pAborted);
              (o.result.None? <==> p.full == "") && (o.result.Some? ==> o.result.value.1 == p.full)
  {
    if env.transcript == "" then Outcome(None, [])
    else
      var fast := Intent.DetectFast(env.transcript);
      if fast.intent == "music" then MusicTurn(env.transcript, fast.songName, env, endAborted)
      else ReplyTurn(env.transcript, Produce(env.stream, env.synth, pAborted), cAborted, endAborted)
  }

  /** A reply turn that nothing aborts: when no read of the flag by the
      producer or the consumer reports an abort and none does at the end,
      the callbacks are `on_stt_result`, `on_tts_start`, then each text
      `ReplyTexts` cuts from the stream spoken completely, then
      `on_tts_stop`. */
  lemma ProcessTrace(env: Collaborators, pAborted: AbortReads, cAborted: AbortReads)
    requires env.transcript != "" && Intent.DetectFast(env.transcript).intent != "music"
    requires var p := Produce(env.stream, env.synth, pAborted);
             Clear(pAborted, 0, p.calls) && Clear(cAborted, 0, |Flatten(p.blocks)|)
    ensures Process(env, pAborted, cAborted, false).events
            == [SttResult(env.transcript), TtsStart] + Spoken(ReplyTexts(env.stream), env.synth) + [TtsStop]
  {
    var p := Produce(env.stream, env.synth, pAborted);
    ReplySpoken(env.stream, env.synth, pAborted, cAborted);
    ReplyTurnTrace(env.transcript, p, cAborted, Spoken(ReplyTexts(env.stream), env.synth));
    ProcessReplies(env, pAborted, cAborted, false);
  }

  /** A transcript that is not a fast-path music request takes the reply path. */
  lemma ProcessReplies(env: Collaborators, pAborted: AbortReads, cAborted: AbortReads, endAborted: bool)
    requires env.transcript != "" && Intent.DetectFast(env.transcript).intent != "music"
    ensures Process(env, pAborted, cAborted, endAborted)
            == ReplyTurn(env.transcript, Produce(env.stream, env.synth, pAborted), cAborted, endAborted)
  {
  }

  /** A reply turn not aborted at the end: its callbacks frame the
      consumer's between `on_tts_start` and `on_tts_stop`. */
  lemma ReplyTurnTrace(transcript: string, p: Produced, cAborted: AbortReads, middle: seq<Event>)
    requires ReplyEvents(p, cAborted) == middle
    ensures ReplyTurn(transcript, p, cAborted, false).events == [SttResult(transcript), TtsStart] + middle + [TtsStop]
  {
  }

  /** The consumer of a reply that nothing aborts speaks each of its texts
      completely, in order. */
  lemma ReplySpoken(stream: ChunkStream, synth: string -> seq<Bytes>, pAborted: AbortReads, cAborted: AbortReads)
    requires var p := Produce(stream, synth, pAborted);
             Clear(pAborted, 0, p.calls) && Clear(cAborted, 0, |Flatten(p.blocks)|)
    ensures ReplyEvents(Produce(stream, synth, pAborted), cAborted) == Spoken(ReplyTexts(stream), synth)
  {
    var p := Produce(stream, synth, pAborted);
    assert forall k :: 0 <= k < |p.blocks| ==> p.blocks[k].frames == synth(p.blocks[k].text) by {
      assert forall k :: 0 <= k < |p.blocks| ==> CompleteBlock(p.blocks[k], synth);
    }
    CompleteBlocksSpoken(p.blocks, synth);
    ConsumeInOrder(p.blocks, cAborted);
  }

  /** The `dict`-typed elements of a list, in order. */
  function DictsOnly(items: seq<Json>): (r: seq<Dict>)
    ensures |r| <= |items|
    ensures forall k :: 0 <= k < |r| ==> JObj(r[k]) in items
    ensures (forall k :: 0 <= k < |items| ==> items[k].JObj?) ==> |r| == |items| && forall k :: 0 <= k < |r| ==> items[k] == JObj(r[k])
  {
    if |items| == 0 then []
    else
      var rest := DictsOnly(items[1..]);
      assert forall k :: 0 <= k < |rest| ==> JObj(rest[k]) in items;
      match items[0]
      case JObj(d) => [d] + rest
      case _ => rest
  }

  /** The track list a content item carries, when it is a `{"type": "json",
      "json": {"tracks": [...]}}` dict. */
  function TracksOf(item: Json): Option<seq<Json>> {
    if !item.JObj? || Get(item.fields, "type", JNull) != JStr("json") then None
    else
      var data := Get(item.fields, "json", JNull);
      if !data.JObj? then None
      else
        var tracks := Get(data.fields, "tracks", JNull);
        if tracks.JArr? then Some(tracks.items) else None
  }

  /** Index of the first content item carrying a track list, or `|items|`. */
  function FirstWithTracks(items: seq<Json>): (k: nat)
    ensures k <= |items|
    ensures forall j :: 0 <= j < k ==> TracksOf(items[j]).None?
    ensures k < |items| ==> TracksOf(items[k]).Some?
  {
    if |items| == 0 || TracksOf(items[0]).Some? then 0 else 1 + FirstWithTracks(items[1..])
  }

  /** Scans the content items in order, returning the dicts of the first
      track list found. */
  function ScanTracks(items: seq<Json>): (r: seq<Dict>)
    ensures var k := FirstWithTracks(items);
            r == if k < |items| then DictsOnly(TracksOf(items[k]).value) else []
  {
    if |items| == 0 then []
    else match TracksOf(items[0])
      case Some(tracks) => DictsOnly(tracks)
      case None => ScanTracks(items[1..])
  }

  /** `_extract_tracks`: the dict tracks of the first json content item with
      a track list; `[]` when `content` is not a list or no item has one. */
  function ExtractTracks(payload: Dict): (r: seq<Dict>)
    ensures !Get(payload, "content", JNull).JArr? ==> r == []
    ensures var content := Get(payload, "content", JNull);
            content.JArr? ==>
              var k := FirstWithTracks(content.items);
              r == if k < |content.items| then DictsOnly(TracksOf(content.items[k]).value) else []
  {
    var content := Get(payload, "content", JNull);
    if content.JArr? then ScanTracks(content.items) else []
  }

  /** `_send_frames_with_pacing` without the pacing: before each frame the
      abort flag is read; a read reporting an abort ends the stream and the
      count returned is 0, otherwise it is the number of frames sent. */
  method SendFramesWithPacing(frames: seq<Bytes>, aborted: AbortReads) returns (sent: seq<Bytes>, count: nat)
    ensures |sent| <= |frames| && sent == frames[..|sent|]
    ensures Clear(aborted, 0, |sent|)
    ensures |sent| < |frames| ==> aborted(|sent|) && count == 0
    ensures |sent| == |frames| ==> count == |frames|
  {
    sent := [];
    var i := 0;
    while i < |frames|
      invariant 0 <= i <= |frames|
      invariant sent == frames[..i]
      invariant Clear(aborted, 0, i)
    {
      if aborted(i) {
        return sent, 0;
      }
      sent := sent + [frames[i]];
      i := i + 1;
    }
    count := i;
  }
}

=== FILE: segmenter.dfy ===
/** Cutting streamed LLM text into pieces small enough to synthesise early
    (app/services/pipeline.py). A sentence is cut at the first ending mark;
    a run-on buffer without one is cut at a soft break (a comma-like mark or,
    failing that, a space) between 28 and 90 characters in. */
module Segmenter {

  import opened Basics
  import opened Strings

  /** The characters that end a sentence: `. ! ? ; ,` and newline. */
  predicate IsSentenceEnding(c: char) {
    c == '.' || c == '!' || c == '?' || c == ';' || c == ',' || c == '\n'
  }

  /** The preferred soft breaks: ASCII and full-width comma and colon, and the
      ideographic comma. */
  predicate IsPunctBreak(c: char) {
    c == ',' || c == '\U{FF0C}' || c == ':' || c == '\U{FF1A}' || c == '\U{3001}'
  }

  /** The fallback soft break. */
  predicate IsSpaceBreak(c: char) {
    c == ' '
  }

  /** Shortest soft chunk, and the earliest index a soft cut may sit at. */
  const ChunkMinChars: nat := 28

  /** Longest soft chunk; the producer also starts soft cutting at this length. */
  const ChunkHardLimit: nat := 90

  /** No sentence-ending character anywhere in `s`. */
  predicate NoEnding(s: string) {
    forall k :: 0 <= k < |s| ==> !IsSentenceEnding(s[k])
  }

  /** Cuts the first complete sentence off `buffer`. The remaining text is what
      follows the first ending character; the sentence is the stripped text up
      to and including it, kept only when longer than one character (a lone
      "." is consumed but dropped). Without an ending the buffer is returned
      unchanged. */
  function ExtractSentence(buffer: string): (r: (Option<string>, string))
    ensures |r.1| <= |buffer| && r.1 == buffer[|buffer| - |r.1|..]
    ensures r.1 == buffer <==> NoEnding(buffer)
    ensures NoEnding(buffer) ==> r.0.None?
    ensures |r.1| < |buffer| ==>
              var cut := |buffer| - |r.1|;
              IsSentenceEnding(buffer[cut - 1]) && NoEnding(buffer[..cut - 1])
    ensures r.0.Some? <==> |r.1| < |buffer| && |Strip(buffer[..|buffer| - |r.1|])| > 1
    ensures r.0.Some? ==> r.0.value == Strip(buffer[..|buffer| - |r.1|])
  {
    var i := FindFirst(buffer, IsSentenceEnding);
    if i == |buffer| then (None, buffer)
    else
      var sentence := Strip(buffer[..i + 1]);
      assert NoEnding(buffer[..i]) by {
        assert forall k :: 0 <= k < i ==> buffer[..i][k] == buffer[k];
      }
      if |sentence| > 1 then (Some(sentence), buffer[i + 1..]) else (None, buffer[i + 1..])
  }

  /** A slice of text without an ending has none either. */
  lemma NoEndingSlice(s: string, i: nat, j: nat)
    requires NoEnding(s) && i <= j <= |s|
    ensures NoEnding(s[i..j])
  {
    assert forall k :: 0 <= k < j - i ==> s[i..j][k] == s[i + k];
  }

  /** The shape of a stripped sentence: no sentence-ending character before
      its last one, and the last one is an ending character itself unless
      there is none at all (the newline that `strip` removes). */
  predicate EndsOnce(s: string) {
    |s| > 0 ==> NoEnding(s[..|s| - 1]) && (IsSentenceEnding(s[|s| - 1]) || NoEnding(s))
  }

  /** A stretch of `piece` that stops before its last character has no
      sentence ending. */
  lemma InsideBody(piece: string, a: nat, s: string)
    requires |piece| > 0 && NoEnding(piece[..|piece| - 1])
    requires a + |s| < |piece| && s == piece[a..a + |s|]
    ensures NoEnding(s)
  {
    var n := |piece| - 1;
    assert s == piece[..n][a..a + |s|];
    NoEndingSlice(piece[..n], a, a + |s|);
  }

  /** A stretch of `piece` that runs to its end keeps the last character of
      `piece` last, with no sentence ending before it. */
  lemma ReachesEnd(piece: string, a: nat, s: string)
    requires |piece| > 0 && NoEnding(piece[..|piece| - 1])
    requires |s| > 0 && a + |s| == |piece| && s == piece[a..]
    ensures NoEnding(s[..|s| - 1]) && s[|s| - 1] == piece[|piece| - 1]
  {
    var n := |piece| - 1;
    assert s[..|s| - 1] == piece[..n][a..];
    NoEndingSlice(piece[..n], a, n);
  }

  /** Stripping a piece that ends with its only sentence-ending character
      keeps that character last, unless it was the newline, which goes. */
  lemma StripEndingPiece(piece: string)
    requires |piece| > 0 && IsSentenceEnding(piece[|piece| - 1]) && NoEnding(piece[..|piece| - 1])
    ensures EndsOnce(Strip(piece))
  {
    var s := Strip(piece);
    if |s| > 0 {
      var a := LeadingCount(piece, IsSpace);
      StripIsSlice(piece);
      if a + |s| < |piece| {
        InsideBody(piece, a, s);
        NoEndingSlice(s, 0, |s| - 1);
      } else {
        ReachesEnd(piece, a, s);
      }
    }
  }

  /** A sentence cut at the first ending character has the shape of
      `StripEndingPiece`. */
  lemma SentenceOfCut(buffer: string, cut: nat, s: string)
    requires 0 < cut <= |buffer| && IsSentenceEnding(buffer[cut - 1]) && NoEnding(buffer[..cut - 1])
    requires s == Strip(buffer[..cut])
    ensures EndsOnce(s)
  {
    TakeOfTake(buffer, cut, cut - 1);
    assert buffer[..cut][cut - 1] == buffer[cut - 1];
    StripEndingPiece(buffer[..cut]);
  }

  /** A returned sentence is at least two characters long, holds no
      sentence-ending character before its last, and ends with the ending
      character itself unless that was the newline that `strip` removes. */
  lemma SentenceShape(buffer: string)
    requires ExtractSentence(buffer).0.Some?
    ensures |ExtractSentence(buffer).0.value| >= 2 && EndsOnce(ExtractSentence(buffer).0.value)
  {
    var i := FindFirst(buffer, IsSentenceEnding);
    assert NoEnding(buffer[..i]) by {
      assert forall k :: 0 <= k < i ==> buffer[..i][k] == buffer[k];
    }
    SentenceOfCut(buffer, i + 1, Strip(buffer[..i + 1]));
  }

  /** Where `_extract_soft_chunk` cuts: at a punctuation break, at a space, or nowhere. */
  datatype SoftCut = AtPunct(i: nat) | AtSpace(i: nat) | NoBreak

  /** `min(len(buffer), 90)`: soft cuts sit in `[28, SoftLimit)`. */
  function SoftLimit(buffer: string): nat {
    if |buffer| < ChunkHardLimit then |buffer| else ChunkHardLimit
  }

  /** The cut point: the LAST punctuation break at an index in `[28, limit)`;
      failing that, the LAST space in that range; failing that, none. */
  function FindSoftCut(buffer: string): (c: SoftCut)
    requires |buffer| >= ChunkMinChars
    ensures c.AtPunct? ==>
              ChunkMinChars <= c.i < SoftLimit(buffer) && IsPunctBreak(buffer[c.i])
              && forall k :: c.i < k < SoftLimit(buffer) ==> !IsPunctBreak(buffer[k])
    ensures c.AtSpace? ==>
              ChunkMinChars <= c.i < SoftLimit(buffer) && buffer[c.i] == ' '
              && (forall k :: ChunkMinChars <= k < SoftLimit(buffer) ==> !IsPunctBreak(buffer[k]))
              && forall k :: c.i < k < SoftLimit(buffer) ==> buffer[k] != ' '
    ensures c.NoBreak? <==>
              forall k :: ChunkMinChars <= k < SoftLimit(buffer) ==> !IsPunctBreak(buffer[k]) && buffer[k] != ' '
  {
    var limit := SoftLimit(buffer);
    var p := LastIndexIn(buffer, ChunkMinChars, limit, IsPunctBreak);
    if p != -1 then AtPunct(p)
    else
      var s := LastIndexIn(buffer, ChunkMinChars, limit, IsSpaceBreak);
      if s != -1 then AtSpace(s) else NoBreak
  }

  /** Chunk and remainder around a seam of whitespace `buffer[j..k]`:
      the chunk is a prefix, the remainder a suffix, and only whitespace lies
      between them. */
  predicate SeamShape(buffer: string, chunk: string, rest: string) {
    && |chunk| + |rest| <= |buffer|
    && chunk == buffer[..|chunk|]
    && rest == buffer[|buffer| - |rest|..]
    && AllBy(buffer[|chunk|..|buffer| - |rest|], IsSpace)
    && (|chunk| > 0 ==> !IsSpace(chunk[|chunk| - 1]))
    && (|rest| > 0 ==> !IsSpace(rest[0]))
  }

  lemma SeamOfCut(buffer: string, j: nat, k: nat)
    requires j <= k <= |buffer|
    requires AllBy(buffer[j..k], IsSpace)
    ensures SeamShape(buffer, RStrip(buffer[..j]), LStrip(buffer[k..]))
    ensures |LStrip(buffer[k..])| <= |buffer| - k
    ensures |RStrip(buffer[..j])| <= j
  {
    var chunk := RStrip(buffer[..j]);
    var rest := LStrip(buffer[k..]);
    TakeOfTake(buffer, j, |chunk|);
    DropOfDrop(buffer, k, |buffer| - k - |rest|);
    SeamGap(buffer, j, k, |chunk|, |rest|);
  }

  /** Whitespace at the end of the part before `j`, between `j` and `k` and
      at the start of the part after `k` makes one run of whitespace. */
  lemma SeamGap(buffer: string, j: nat, k: nat, c: nat, r: nat)
    requires j <= k <= |buffer| && c <= j && r <= |buffer| - k
    requires AllBy(buffer[..j][c..], IsSpace) && AllBy(buffer[j..k], IsSpace)
    requires AllBy(buffer[k..][..|buffer| - k - r], IsSpace)
    ensures AllBy(buffer[c..|buffer| - r], IsSpace)
  {
    var left := buffer[..j][c..];
    var right := buffer[k..][..|buffer| - k - r];
    AllByAppend(left, buffer[j..k], IsSpace);
    AllByAppend(left + buffer[j..k], right, IsSpace);
    SliceInThree(buffer, c, j, k, |buffer| - r);
  }

  /** The chunk and remainder a soft cut produces: the chunk runs up to and
      including a punctuation break, or up to a space that is dropped. */
  function CutPieces(buffer: string, c: SoftCut): (r: (string, string))
    requires |buffer| >= ChunkMinChars && !c.NoBreak?
    requires c.i < SoftLimit(buffer)
    requires c.AtPunct? ==> IsPunctBreak(buffer[c.i])
    requires c.AtSpace? ==> buffer[c.i] == ' '
    ensures |r.0| <= ChunkHardLimit && |r.1| < |buffer|
    ensures SeamShape(buffer, r.0, r.1)
    ensures c.AtPunct? ==> r.0 == buffer[..c.i + 1] && r.1 == LStrip(buffer[c.i + 1..])
    ensures c.AtSpace? ==> r.0 == RStrip(buffer[..c.i]) && r.1 == LStrip(buffer[c.i + 1..])
  {
    var i := c.i;
    if c.AtPunct? then
      PunctCut(buffer, i);
      (RStrip(buffer[..i + 1]), LStrip(buffer[i + 1..]))
    else
      SpaceCut(buffer, i);
      (RStrip(buffer[..i]), LStrip(buffer[i + 1..]))
  }

  /** Cutting after a punctuation break keeps the whole prefix. */
  lemma PunctCut(buffer: string, i: nat)
    requires i < |buffer| && IsPunctBreak(buffer[i])
    ensures RStrip(buffer[..i + 1]) == buffer[..i + 1]
    ensures |LStrip(buffer[i + 1..])| < |buffer|
    ensures SeamShape(buffer, RStrip(buffer[..i + 1]), LStrip(buffer[i + 1..]))
  {
    assert buffer[i + 1..i + 1] == [];
    SeamOfCut(buffer, i + 1, i + 1);
    PunctEndKept(buffer, i);
  }

  /** Cutting at a space drops it and the whitespace around it. */
  lemma SpaceCut(buffer: string, i: nat)
    requires i < |buffer| && buffer[i] == ' '
    ensures |RStrip(buffer[..i])| <= i && |LStrip(buffer[i + 1..])| < |buffer| - i
    ensures SeamShape(buffer, RStrip(buffer[..i]), LStrip(buffer[i + 1..]))
  {
    assert buffer[i..i + 1] == [' '];
    SeamOfCut(buffer, i, i + 1);
  }

  /** Between a chunk and a remainder that do not meet, the character right
      after the chunk is whitespace. */
  lemma SeamBoundary(buffer: string, chunk: string, rest: string)
    requires SeamShape(buffer, chunk, rest) && |chunk| + |rest| < |buffer|
    ensures IsSpace(buffer[|chunk|])
  {
    var gap := buffer[|chunk|..|buffer| - |rest|];
    assert gap[0] == buffer[|chunk|];
  }

  /** Right-stripping text that ends in a punctuation break changes nothing. */
  lemma PunctEndKept(buffer: string, i: nat)
    requires i < |buffer| && IsPunctBreak(buffer[i])
    ensures RStrip(buffer[..i + 1]) == buffer[..i + 1]
  {
    var piece := buffer[..i + 1];
    assert !IsSpace(piece[|piece| - 1]);
    assert TrailingCount(piece, IsSpace) == 0;
  }

  /** Cuts a soft chunk off a long buffer that has no sentence ending yet.
      The chunk is right-stripped, the remainder left-stripped; the result is
      `(None, buffer)` when the buffer is shorter than 28, has no break point,
      or the chunk would come out shorter than 28. */
  function ExtractSoftChunk(buffer: string): (r: (Option<string>, string))
    ensures r.0.None? ==> r.1 == buffer
    ensures |buffer| < ChunkMinChars ==> r.0.None?
    ensures |buffer| >= ChunkMinChars && FindSoftCut(buffer).NoBreak? ==> r.0.None?
    ensures r.0.Some? ==>
              && |buffer| >= ChunkMinChars
              && ChunkMinChars <= |r.0.value| <= ChunkHardLimit
              && |r.1| < |buffer|
              && SeamShape(buffer, r.0.value, r.1)
              && !FindSoftCut(buffer).NoBreak?
              && (r.0.value, r.1) == CutPieces(buffer, FindSoftCut(buffer))
  {
    if |buffer| < ChunkMinChars then (None, buffer)
    else
      var c := FindSoftCut(buffer);
      if c.NoBreak? then (None, buffer)
      else
        var (chunk, remaining) := CutPieces(buffer, c);
        if |chunk| < ChunkMinChars then (None, buffer) else (Some(chunk), remaining)
  }

  /** A soft chunk never ends inside a word: it ends with a punctuation break,
      or the character right after it in the buffer is whitespace. */
  lemma SoftChunkAtWordBoundary(buffer: string)
    requires ExtractSoftChunk(buffer).0.Some?
    ensures
      var chunk := ExtractSoftChunk(buffer).0.value;
      IsPunctBreak(chunk[|chunk| - 1]) || (|chunk| < |buffer| && IsSpace(buffer[|chunk|]))
  {
    CutAtWordBoundary(buffer, FindSoftCut(buffer));
  }

  /** A non-empty chunk of a soft cut ends with its punctuation break, or
      is followed in the buffer by whitespace. */
  lemma CutAtWordBoundary(buffer: string, c: SoftCut)
    requires |buffer| >= ChunkMinChars && !c.NoBreak?
    requires c.i < SoftLimit(buffer)
    requires c.AtPunct? ==> IsPunctBreak(buffer[c.i])
    requires c.AtSpace? ==> buffer[c.i] == ' '
    requires |CutPieces(buffer, c).0| > 0
    ensures var chunk := CutPieces(buffer, c).0;
            IsPunctBreak(chunk[|chunk| - 1]) || (|chunk| < |buffer| && IsSpace(buffer[|chunk|]))
  {
    var (chunk, rest) := CutPieces(buffer, c);
    match c
    case AtPunct(i) =>
      assert chunk[|chunk| - 1] == buffer[i];
    case AtSpace(i) =>
      SpaceCut(buffer, i);
      SeamBoundary(buffer, chunk, rest);
  }
}

=== FILE: session.dfy ===
/** Per-connection state (app/websocket/session.py): the PCM buffer the
    device's microphone frames are decoded into, the abort and speaking
    flags, the chat history and the energy-based voice activity detector.
    Decoding and the RMS computation are not modelled: `append_audio` is
    given the decoder's result and `check_vad` the frame's RMS as a natural
    number. */
module Sessions {

  import opened Basics

  /** One chat-history entry, `{"role": ..., "content": ...}`. */
  datatype Turn = Turn(role: string, content: string)

  /** The session record. `isIdling` is `None` while the attribute has never
      been assigned: the constructor does not create it, only the handler
      and the alarm scheduler assign it. */
  datatype Session = Session(
    id: string,
    pcm: Bytes,
    history: seq<Turn>,
    isSpeaking: bool,
    aborted: bool,
    isIdling: Option<bool>,
    silentFrames: nat,
    hasSpeech: bool,
    speechFrames: nat,
    maxHistory: int)

  /** `max_chat_history` in the application configuration. */
  const MaxChatHistory: int := 20

  /** A freshly constructed session. */
  function NewSession(id: string, maxHistory: int): (s: Session)
    ensures s.id == id && s.pcm == [] && s.history == [] && !s.isSpeaking && !s.aborted
    ensures s.isIdling.None? && s.silentFrames == 0 && !s.hasSpeech && s.speechFrames == 0
  {
    Session(id, [], [], false, false, None, 0, false, 0, maxHistory)
  }

  /** `reset_audio_buffer`: empties the buffer, zeroes both VAD counters,
      forgets the speech, and clears the abort flag. */
  function ResetAudioBuffer(s: Session): (r: Session)
    ensures r.pcm == [] && r.silentFrames == 0 && r.speechFrames == 0 && !r.hasSpeech && !r.aborted
    ensures r.id == s.id && r.history == s.history && r.isSpeaking == s.isSpeaking && r.isIdling == s.isIdling
    ensures r.maxHistory == s.maxHistory
  {
    s.(pcm := [], silentFrames := 0, hasSpeech := false, speechFrames := 0, aborted := false)
  }

  /** `append_audio`, given what the decoder returned for the frame (`None`
      when it raised). Aborted sessions and failed decodes return `None` and
      leave the buffer as it was; otherwise the decoded PCM is appended and
      returned. */
  function AppendAudio(s: Session, decoded: Option<Bytes>): (r: (Session, Option<Bytes>))
    ensures r.1.None? ==> r.0 == s
    ensures r.1.None? <==> s.aborted || decoded.None?
    ensures r.1.Some? ==> r.1 == decoded && r.0 == s.(pcm := s.pcm + decoded.value)
  {
    if s.aborted then (s, None)
    else match decoded
      case None => (s, None)
      case Some(pcm) => (s.(pcm := s.pcm + pcm), Some(pcm))
  }

  /** `take_audio_buffer`: hands over the whole buffer and empties it. */
  function TakeAudioBuffer(s: Session): (r: (Session, Bytes))
    ensures r.1 == s.pcm && r.0.pcm == []
    ensures r.0 == s.(pcm := r.0.pcm)
  {
    (s.(pcm := []), s.pcm)
  }

  /** Taking the buffer after appending frames to an empty buffer returns
      the frames' PCM in arrival order. */
  lemma TakeAfterAppends(s: Session, decoded: seq<Bytes>)
    requires s.pcm == [] && !s.aborted
    ensures TakeAudioBuffer(AppendAll(s, decoded)).1 == ConcatBytes(decoded)
  {
    AppendAllPcm(s, decoded);
  }

  /** The buffer after appending a run of successfully decoded frames. */
  function AppendAll(s: Session, decoded: seq<Bytes>): Session
    decreases |decoded|
  {
    if |decoded| == 0 then s else AppendAll(AppendAudio(s, Some(decoded[0])).0, decoded[1..])
  }

  lemma {:induction false} AppendAllPcm(s: Session, decoded: seq<Bytes>)
    requires !s.aborted
    ensures AppendAll(s, decoded).pcm == s.pcm + ConcatBytes(decoded)
    ensures !AppendAll(s, decoded).aborted
    decreases |decoded|
  {
    if |decoded| > 0 {
      var next := AppendAudio(s, Some(decoded[0])).0;
      AppendAllPcm(next, decoded[1..]);
      assert s.pcm + decoded[0] + ConcatBytes(decoded[1..]) == s.pcm + (decoded[0] + ConcatBytes(decoded[1..]));
    }
  }

  /** What `check_vad` reports for one frame. */
  datatype Vad = Speech | Silence | SilenceAfterSpeech

  /** `check_vad`'s default thresholds: loud above 2500, quiet at or below
      2000, 8 loud frames confirm speech, 10 quiet frames end it. */
  const SpeechThreshold: nat := 2500
  const SilenceThreshold: nat := 2000
  const SpeechFramesNeeded: nat := 8
  const SilenceFramesNeeded: nat := 10

  /** `check_vad` for a frame of the given RMS energy. A loud frame counts
      towards confirming speech; any frame above the silence threshold
      breaks the quiet run; a quiet frame extends it and, once speech is
      confirmed and the run reaches 10, reports the end of the utterance. */
  function CheckVad(s: Session, rms: nat): (r: (Session, Vad))
    ensures r.0 == s.(silentFrames := r.0.silentFrames, speechFrames := r.0.speechFrames, hasSpeech := r.0.hasSpeech)
    ensures rms > SilenceThreshold ==> r.0.silentFrames == 0
    ensures rms <= SilenceThreshold ==> r.0.silentFrames == s.silentFrames + 1
    ensures r.0.speechFrames == s.speechFrames + (if rms > SpeechThreshold then 1 else 0)
    ensures r.0.hasSpeech <==> s.hasSpeech || (rms > SpeechThreshold && r.0.speechFrames >= SpeechFramesNeeded)
    ensures r.1 == SilenceAfterSpeech <==> rms <= SilenceThreshold && s.hasSpeech && r.0.silentFrames >= SilenceFramesNeeded
    ensures r.1 == Speech <==> rms > SpeechThreshold || (rms > SilenceThreshold && s.hasSpeech)
  {
    if rms > SpeechThreshold then
      var speech := s.speechFrames + 1;
      (s.(silentFrames := 0, speechFrames := speech, hasSpeech := s.hasSpeech || speech >= SpeechFramesNeeded), Speech)
    else if rms > SilenceThreshold then
      (s.(silentFrames := 0), if s.hasSpeech then Speech else Silence)
    else
      var silent := s.silentFrames + 1;
      (s.(silentFrames := silent), if s.hasSpeech && silent >= SilenceFramesNeeded then SilenceAfterSpeech else Silence)
  }

  /** `check_vad` over a run of frames; returns the session and the last report. */
  function RunVad(s: Session, frames: seq<nat>): (r: (Session, seq<Vad>))
    ensures |r.1| == |frames|
    decreases |frames|
  {
    if |frames| == 0 then (s, [])
    else
      var (next, v) := CheckVad(s, frames[0]);
      var (fin, rest) := RunVad(next, frames[1..]);
      (fin, [v] + rest)
  }

  /** Number of loud frames in a run. */
  function LoudCount(frames: seq<nat>): nat {
    if |frames| == 0 then 0 else (if frames[0] > SpeechThreshold then 1 else 0) + LoudCount(frames[1..])
  }

  /** Length of the run of quiet frames at the end. */
  function QuietTail(frames: seq<nat>): nat {
    if |frames| == 0 then 0
    else if frames[|frames| - 1] <= SilenceThreshold then 1 + QuietTail(frames[..|frames| - 1])
    else 0
  }

  lemma QuietTailAppend(frames: seq<nat>, x: nat)
    ensures QuietTail(frames + [x]) == if x <= SilenceThreshold then QuietTail(frames) + 1 else 0
  {
    assert (frames + [x])[..|frames|] == frames;
  }

  lemma {:induction false} LoudCountAppend(frames: seq<nat>, x: nat)
    ensures LoudCount(frames + [x]) == LoudCount(frames) + (if x > SpeechThreshold then 1 else 0)
    decreases |frames|
  {
    if |frames| > 0 {
      assert (frames + [x])[1..] == frames[1..] + [x];
      LoudCountAppend(frames[1..], x);
    }
  }

  /** Counter semantics of the detector after a reset: the speech counter
      is the number of loud frames seen (quiet frames never lower it),
      speech is confirmed exactly when 8 loud frames have been seen, and the
      silent counter is the length of the current quiet run. */
  lemma {:induction false} VadCounters(s: Session, frames: seq<nat>)
    requires s.silentFrames == 0 && s.speechFrames == 0 && !s.hasSpeech
    ensures var fin := RunVad(s, frames).0;
            && fin.speechFrames == LoudCount(frames)
            && (fin.hasSpeech <==> LoudCount(frames) >= SpeechFramesNeeded)
            && fin.silentFrames == QuietTail(frames)
    decreases |frames|
  {
    if |frames| > 0 {
      var init := frames[..|frames| - 1];
      var last := frames[|frames| - 1];
      assert frames == init + [last];
      VadCounters(s, init);
      RunVadSnoc(s, init, last);
      LoudCountAppend(init, last);
      QuietTailAppend(init, last);
    }
  }

  /** Running the detector over one more frame is one more `check_vad`. */
  lemma {:induction false} RunVadSnoc(s: Session, frames: seq<nat>, x: nat)
    ensures RunVad(s, frames + [x]).0 == CheckVad(RunVad(s, frames).0, x).0
    ensures RunVad(s, frames + [x]).1 == RunVad(s, frames).1 + [CheckVad(RunVad(s, frames).0, x).1]
    decreases |frames|
  {
    if |frames| == 0 {
      assert frames + [x] == [x];
    } else {
      assert (frames + [x])[1..] == frames[1..] + [x];
      RunVadSnoc(CheckVad(s, frames[0]).0, frames[1..], x);
    }
  }

  /** The end of an utterance is reported exactly when speech has been
      confirmed and the last 10 or more frames were quiet. */
  lemma EndOfUtterance(s: Session, frames: seq<nat>, x: nat)
    requires s.silentFrames == 0 && s.speechFrames == 0 && !s.hasSpeech
    ensures var before := RunVad(s, frames).0;
            CheckVad(before, x).1 == SilenceAfterSpeech
            <==> LoudCount(frames) >= SpeechFramesNeeded && QuietTail(frames + [x]) >= SilenceFramesNeeded
  {
    VadCounters(s, frames);
    QuietTailAppend(frames, x);
  }

  /** Speech once confirmed stays confirmed until the next reset. */
  lemma {:induction false} SpeechSticks(s: Session, frames: seq<nat>)
    requires s.hasSpeech
    ensures RunVad(s, frames).0.hasSpeech
    decreases |frames|
  {
    if |frames| > 0 {
      SpeechSticks(CheckVad(s, frames[0]).0, frames[1..]);
    }
  }

  /** Python's `items[-n:]`: for positive `n` the last `n` items (all of
      them when there are fewer); for `n == 0` all items, since `-0` is `0`;
      for negative `n` the items from index `-n` on. */
  function PyTail<T>(items: seq<T>, n: int): (r: seq<T>)
    ensures |r| <= |items| && r == items[|items| - |r|..]
    ensures n > 0 ==> |r| == Min(n, |items|)
    ensures n == 0 ==> |r| == |items|
    ensures n < 0 ==> |r| == |items| - Min(-n, |items|)
  {
    if n > 0 then items[|items| - Min(n, |items|)..]
    else if n == 0 then items
    else items[Min(-n, |items|)..]
  }

  function Min(a: int, b: nat): nat
    requires a >= 0
  {
    if a < b then a else b
  }

  /** `save_history`: appends the user's turn and then the assistant's; when
      the history grows past `max_history` only the newest `max_history`
      entries are kept. */
  function SaveHistory(s: Session, userText: string, assistantText: string): (r: Session)
    ensures r == s.(history := r.history)
    ensures var grown := s.history + [Turn("user", userText), Turn("assistant", assistantText)];
            |grown| > s.maxHistory > 0 ==> r.history == grown[|grown| - s.maxHistory..]
    ensures var grown := s.history + [Turn("user", userText), Turn("assistant", assistantText)];
            |grown| <= s.maxHistory ==> r.history == grown
    ensures s.maxHistory >= 2 || s.maxHistory == 0 ==>
              |r.history| >= 2 && r.history[|r.history| - 2..] == [Turn("user", userText), Turn("assistant", assistantText)]
  {
    var grown := s.history + [Turn("user", userText), Turn("assistant", assistantText)];
    var kept := if |grown| > s.maxHistory then PyTail(grown, s.maxHistory) else grown;
    s.(history := kept)
  }

  /** With the configured limit of 20 the history never holds more than 20
      entries once saved, whatever it held before. */
  lemma HistoryBounded(s: Session, userText: string, assistantText: string)
    requires s.maxHistory == MaxChatHistory
    ensures |SaveHistory(s, userText, assistantText).history| <= MaxChatHistory
  {
  }

  /** `abort`: raises the abort flag and stops speaking, nothing else. */
  function Abort(s: Session): (r: Session)
    ensures r.aborted && !r.isSpeaking
    ensures r.id == s.id && r.pcm == s.pcm && r.history == s.history && r.isIdling == s.isIdling
    ensures r.silentFrames == s.silentFrames && r.hasSpeech == s.hasSpeech && r.speechFrames == s.speechFrames
    ensures r.maxHistory == s.maxHistory
  {
    s.(aborted := true, isSpeaking := false)
  }

  /** The process-wide registry of live sessions: a dict keyed by session
      id. A Python dict keeps its keys in first-insertion order, so that
      order is kept beside the table. */
  datatype Registry = Registry(order: seq<string>, table: map<string, Session>)

  /** The registry as the dict makes it: the order lists every key exactly
      once, and each session sits under its own id. */
  ghost predicate Consistent(reg: Registry) {
    && Distinct(reg.order)
    && (forall id :: id in reg.order <==> id in reg.table)
    && (forall id :: id in reg.table ==> reg.table[id].id == id)
  }

  /** `_active_sessions` at start-up. */
  const EmptyRegistry: Registry := Registry([], map[])

  /** `create_session`: registers the session under its id. A new id goes
      last; re-registering an id replaces its session in place. */
  function CreateSession(reg: Registry, s: Session): (r: Registry)
    ensures s.id in r.table && r.table[s.id] == s
    ensures forall id :: id in reg.table && id != s.id ==> id in r.table && r.table[id] == reg.table[id]
    ensures r.table.Keys == reg.table.Keys + {s.id}
    ensures s.id !in reg.table ==> r.order == reg.order + [s.id]
    ensures s.id in reg.table ==> r.order == reg.order
    ensures Consistent(reg) ==> Consistent(r)
  {
    Registry(if s.id in reg.table then reg.order else reg.order + [s.id], reg.table[s.id := s])
  }

  /** No id occurs twice. */
  predicate Distinct(ids: seq<string>) {
    forall i, j :: 0 <= i < j < |ids| ==> ids[i] != ids[j]
  }

  /** The tail of a duplicate-free list is duplicate-free and lacks its head. */
  lemma DistinctTail(ids: seq<string>)
    requires |ids| > 0 && Distinct(ids)
    ensures Distinct(ids[1..]) && ids[0] !in ids[1..]
  {
    assert forall i, j :: 0 <= i < j < |ids| - 1 ==> ids[1..][i] == ids[i + 1] && ids[1..][j] == ids[j + 1];
  }

  /** A new head keeps a duplicate-free list duplicate-free. */
  lemma DistinctCons(x: string, ids: seq<string>)
    requires x !in ids && Distinct(ids)
    ensures Distinct([x] + ids)
  {
    var r := [x] + ids;
    assert forall j :: 1 <= j < |r| ==> r[j] == ids[j - 1];
  }

  /** The ids of `ids` other than `id`, in order. */
  function Without(ids: seq<string>, id: string): (r: seq<string>)
    ensures |r| <= |ids|
    ensures forall x :: x in r <==> x in ids && x != id
    ensures id !in ids ==> r == ids
    ensures Distinct(ids) ==> Distinct(r)
  {
    if ids == [] then []
    else
      var rest := Without(ids[1..], id);
      assert ids == [ids[0]] + ids[1..];
      if ids[0] == id then
        assert Distinct(ids) ==> Distinct(rest) by {
          if Distinct(ids) { DistinctTail(ids); }
        }
        rest
      else
        var r := [ids[0]] + rest;
        assert Distinct(ids) ==> Distinct(r) by {
          if Distinct(ids) {
            DistinctTail(ids);
            DistinctCons(ids[0], rest);
          }
        }
        r
  }

  /** Dropping an id from an order that holds it once splices it out. */
  lemma {:induction false} WithoutSplice(a: seq<string>, id: string, b: seq<string>)
    requires id !in a && id !in b
    ensures Without(a + [id] + b, id) == a + b
    decreases |a|
  {
    if a == [] {
      assert a + [id] + b == [id] + b;
      assert ([id] + b)[1..] == b;
    } else {
      WithoutSplice(a[1..], id, b);
      assert (a + [id] + b)[1..] == a[1..] + [id] + b;
      assert a + b == [a[0]] + (a[1..] + b);
    }
  }

  /** `remove_session`: drops the id if present, keeping the others in order. */
  function RemoveSession(reg: Registry, id: string): (r: Registry)
    ensures id !in r.table && id !in r.order
    ensures forall other :: other in reg.table && other != id ==> other in r.table && r.table[other] == reg.table[other]
    ensures r.table.Keys == reg.table.Keys - {id}
    ensures id !in reg.order ==> r.order == reg.order
    ensures forall k :: 0 <= k < |reg.order| && reg.order[k] == id && id !in reg.order[..k] && id !in reg.order[k + 1..] ==>
              r.order == reg.order[..k] + reg.order[k + 1..]
    ensures Consistent(reg) ==> Consistent(r)
  {
    var r := Registry(Without(reg.order, id), map k | k in reg.table && k != id :: reg.table[k]);
    forall k | 0 <= k < |reg.order| && reg.order[k] == id && id !in reg.order[..k] && id !in reg.order[k + 1..]
      ensures r.order == reg.order[..k] + reg.order[k + 1..]
    {
      assert reg.order == reg.order[..k] + [id] + reg.order[k + 1..];
      WithoutSplice(reg.order[..k], id, reg.order[k + 1..]);
    }
    r
  }

  /** Removing a session twice is removing it once. */
  lemma RemoveIdempotent(reg: Registry, id: string)
    ensures RemoveSession(RemoveSession(reg, id), id) == RemoveSession(reg, id)
  {
  }

  /** Removing a just-created session restores a registry that did not hold it. */
  lemma CreateThenRemove(reg: Registry, s: Session)
    requires Consistent(reg) && s.id !in reg.table
    ensures RemoveSession(CreateSession(reg, s), s.id) == reg
  {
    WithoutSplice(reg.order, s.id, []);
    assert reg.order + [s.id] + [] == reg.order + [s.id];
    assert reg.order + [] == reg.order;
  }

  /** `get_all_sessions`: the registered sessions in registration order. */
  function AllSessions(reg: Registry): (r: seq<Session>)
    requires Consistent(reg)
    ensures |r| == |reg.order|
    ensures forall k :: 0 <= k < |r| ==> r[k].id == reg.order[k] && r[k] == reg.table[reg.order[k]]
    ensures forall s :: s in r <==> exists id :: id in reg.table && reg.table[id] == s
  {
    seq(|reg.order|, k requires 0 <= k < |reg.order| => reg.table[reg.order[k]])
  }

  /** The ids of a list of sessions, in order. */
  function Ids(sessions: seq<Session>): (ids: seq<string>)
    ensures |ids| == |sessions| && forall k :: 0 <= k < |ids| ==> ids[k] == sessions[k].id
  {
    seq(|sessions|, k requires 0 <= k < |sessions| => sessions[k].id)
  }

  /** Registering a new session puts it after every session already there. */
  lemma RegisterAppends(reg: Registry, s: Session)
    requires Consistent(reg) && s.id !in reg.table
    ensures AllSessions(CreateSession(reg, s)) == AllSessions(reg) + [s]
  {
    var r := CreateSession(reg, s);
    assert forall k :: 0 <= k < |reg.order| ==> reg.order[k] != s.id;
  }

  /** The registered ids, listed by `get_all_sessions`, are the registration order. */
  lemma AllSessionIds(reg: Registry)
    requires Consistent(reg)
    ensures Ids(AllSessions(reg)) == reg.order
  {
  }
}

=== FILE: strings.dfy ===
/** Python string primitives the gateway relies on: whitespace as `str.isspace`
    sees it, `strip`/`lstrip`/`rstrip`, lower-casing, `split`, `partition`,
    substring search and `int()` on text. Strings are sequences of code points. */
module Strings {

  import opened Basics

  /** Python's `str.isspace()` for a single code point. */
  predicate IsSpace(c: char) {
    var n := c as int;
    n == 0x20 || (0x09 <= n <= 0x0D) || (0x1C <= n <= 0x1F) || n == 0x85 || n == 0xA0
    || n == 0x1680 || (0x2000 <= n <= 0x200A) || n == 0x2028 || n == 0x2029
    || n == 0x202F || n == 0x205F || n == 0x3000
  }

  /** Every character of `s` satisfies `p`. */
  predicate AllBy(s: string, p: char -> bool) {
    forall i :: 0 <= i < |s| ==> p(s[i])
  }

  /** Length of the longest prefix of `s` whose characters satisfy `p`. */
  function LeadingCount(s: string, p: char -> bool): (k: nat)
    ensures k <= |s|
    ensures AllBy(s[..k], p)
    ensures k < |s| ==> !p(s[k])
  {
    if |s| == 0 || !p(s[0]) then 0
    else
      var k := 1 + LeadingCount(s[1..], p);
      assert forall i :: 1 <= i < k ==> s[..k][i] == s[1..][..k - 1][i - 1];
      k
  }

  /** Length of the longest suffix of `s` whose characters satisfy `p`. */
  function TrailingCount(s: string, p: char -> bool): (k: nat)
    ensures k <= |s|
    ensures AllBy(s[|s| - k..], p)
    ensures k < |s| ==> !p(s[|s| - k - 1])
  {
    if |s| == 0 || !p(s[|s| - 1]) then 0
    else
      var init := s[..|s| - 1];
      var k := 1 + TrailingCount(init, p);
      assert s[|s| - k..] == init[|init| - (k - 1)..] + [s[|s| - 1]];
      k
  }

  /** `s` with the leading and trailing characters satisfying `p` removed
      (Python's `strip(chars)` when `p` is membership in `chars`). */
  function StripBy(s: string, p: char -> bool): (r: string)
    ensures |r| <= |s|
    ensures
      var a := LeadingCount(s, p);
      a + |r| <= |s| && r == s[a..a + |r|] && AllBy(s[..a], p) && AllBy(s[a + |r|..], p)
    ensures |r| > 0 ==> !p(r[0]) && !p(r[|r| - 1])
  {
    var a := LeadingCount(s, p);
    var t := s[a..];
    var b := TrailingCount(t, p);
    var n := |t| - b;
    DropThenTake(s, a, n);
    var r := t[..n];
    assert n > 0 ==> r[0] == s[a] && r[n - 1] == t[|t| - b - 1];
    r
  }

  /** Python's `str.strip()`. */
  function Strip(s: string): (r: string)
    ensures |r| <= |s|
    ensures |r| > 0 ==> !IsSpace(r[0]) && !IsSpace(r[|r| - 1])
    ensures r == [] <==> AllBy(s, IsSpace)
  {
    var r := StripBy(s, IsSpace);
    var a := LeadingCount(s, IsSpace);
    if r == [] then
      assert s == s[..a] + s[a..];
      AllByAppend(s[..a], s[a..], IsSpace);
      r
    else
      assert s[a] == r[0];
      r
  }

  /** `AllBy` distributes over concatenation. */
  lemma AllByAppend(a: string, b: string, p: char -> bool)
    requires AllBy(a, p) && AllBy(b, p)
    ensures AllBy(a + b, p)
  {
    assert forall i :: 0 <= i < |a + b| ==> (a + b)[i] == if i < |a| then a[i] else b[i - |a|];
  }

  /** Text with no whitespace at either end is its own `strip()`. */
  lemma StripOfTrimmed(s: string)
    requires |s| > 0 ==> !IsSpace(s[0]) && !IsSpace(s[|s| - 1])
    ensures Strip(s) == s
  {
    if |s| > 0 {
      assert LeadingCount(s, IsSpace) == 0;
      assert TrailingCount(s, IsSpace) == 0;
    }
  }

  /** `strip()` returns a slice of its argument. */
  lemma StripIsSlice(s: string)
    ensures var a := LeadingCount(s, IsSpace);
            a + |Strip(s)| <= |s| && Strip(s) == s[a..a + |Strip(s)|]
  {
  }

  /** A leading space makes no difference to the stripped text. */
  lemma StripSpaceFirst(s: string)
    ensures Strip([' '] + s) == Strip(s)
  {
    var t := [' '] + s;
    assert t[1..] == s;
    assert LeadingCount(t, IsSpace) == 1 + LeadingCount(s, IsSpace);
    assert t[1 + LeadingCount(s, IsSpace)..] == s[LeadingCount(s, IsSpace)..];
  }

  /** Stripping twice is stripping once. */
  lemma StripIdempotent(s: string)
    ensures Strip(Strip(s)) == Strip(s)
  {
    StripOfTrimmed(Strip(s));
  }

  /** Python's `str.lstrip()`: drops leading whitespace only. */
  function LStrip(s: string): (r: string)
    ensures |r| <= |s| && r == s[|s| - |r|..]
    ensures AllBy(s[..|s| - |r|], IsSpace)
    ensures |r| > 0 ==> !IsSpace(r[0])
  {
    s[LeadingCount(s, IsSpace)..]
  }

  /** Python's `str.rstrip()`: drops trailing whitespace only. */
  function RStrip(s: string): (r: string)
    ensures |r| <= |s| && r == s[..|r|]
    ensures AllBy(s[|r|..], IsSpace)
    ensures |r| > 0 ==> !IsSpace(r[|r| - 1])
  {
    s[..|s| - TrailingCount(s, IsSpace)]
  }

  /** Python's `str.lower()` on one code point, for the scripts the gateway
      meets: ASCII, Latin-1, Latin Extended-A up to U+0137, the Vietnamese
      horned letters and Latin Extended Additional (U+1EA0..U+1EF9). */
  function LowerChar(c: char): char {
    var n := c as int;
    if 0x41 <= n <= 0x5A || (0xC0 <= n <= 0xDE && n != 0xD7) then (n + 32) as char
    else if (0x100 <= n <= 0x137 || 0x1EA0 <= n <= 0x1EF8) && n % 2 == 0 then (n + 1) as char
    else if n == 0x1A0 || n == 0x1AF then (n + 1) as char
    else c
  }

  /** Python's `str.lower()`, character by character. */
  function Lower(s: string): (r: string)
    ensures |r| == |s|
    ensures forall i :: 0 <= i < |s| ==> r[i] == LowerChar(s[i])
  {
    seq(|s|, i requires 0 <= i < |s| => LowerChar(s[i]))
  }

  /** `t` is the lower-casing of `s` when it agrees with it character by
      character. */
  lemma LowerIs(s: string, t: string)
    requires |s| == |t| && forall i :: 0 <= i < |s| ==> t[i] == LowerChar(s[i])
    ensures Lower(s) == t
  {
  }

  /** Lower-case ASCII letters and `_` are unchanged by `lower()`. */
  lemma LowerOfLowerAscii(s: string)
    requires forall i :: 0 <= i < |s| ==> 'a' <= s[i] <= 'z' || s[i] == '_'
    ensures Lower(s) == s
  {
  }

  /** A word of lower-case ASCII letters and `_` is its own
      `strip().lower()`. */
  lemma LowerWord(w: string)
    requires |w| > 0 && forall i :: 0 <= i < |w| ==> 'a' <= w[i] <= 'z' || w[i] == '_'
    ensures Strip(w) == w && Lower(Strip(w)) == w
  {
    StripOfTrimmed(w);
    LowerOfLowerAscii(w);
  }

  /** Lower-casing twice is lower-casing once. */
  lemma LowerIdempotent(s: string)
    ensures Lower(Lower(s)) == Lower(s)
  {
    assert forall i :: 0 <= i < |s| ==> LowerChar(LowerChar(s[i])) == LowerChar(s[i]);
  }

  /** `w` occurs in `s` starting at index `i`. */
  predicate OccursAt(s: string, w: string, i: nat) {
    i + |w| <= |s| && s[i..i + |w|] == w
  }

  /** Python's `w in s` (substring test). */
  function Contains(s: string, w: string): (b: bool)
    ensures b <==> exists i: nat :: OccursAt(s, w, i)
    decreases |s|
  {
    if |w| > |s| then
      assert forall i: nat :: !OccursAt(s, w, i);
      false
    else if s[..|w|] == w then
      assert OccursAt(s, w, 0);
      true
    else
      var b := Contains(s[1..], w);
      assert forall i: nat :: OccursAt(s[1..], w, i) <==> OccursAt(s, w, i + 1);
      assert forall i: nat :: OccursAt(s, w, i) && i > 0 ==> OccursAt(s[1..], w, i - 1);
      b
  }

  /** Index of the first character of `s` satisfying `p`, or `|s|` if none. */
  function FindFirst(s: string, p: char -> bool): (k: nat)
    ensures k <= |s|
    ensures forall i :: 0 <= i < k ==> !p(s[i])
    ensures k < |s| ==> p(s[k])
  {
    if |s| == 0 || p(s[0]) then 0 else 1 + FindFirst(s[1..], p)
  }

  /** Index of the last character in `s[lo..hi]` satisfying `p`, or -1 when
      there is none (Python's `rfind` of a one-character needle, and a
      backwards `for` loop over `range(hi - 1, lo - 1, -1)`). */
  function LastIndexIn(s: string, lo: nat, hi: nat, p: char -> bool): (r: int)
    requires lo <= hi <= |s|
    ensures r == -1 || lo <= r < hi
    ensures r == -1 ==> forall k :: lo <= k < hi ==> !p(s[k])
    ensures r != -1 ==> p(s[r]) && forall k :: r < k < hi ==> !p(s[k])
    decreases hi - lo
  {
    if hi <= lo then -1
    else if p(s[hi - 1]) then hi - 1
    else LastIndexIn(s, lo, hi - 1, p)
  }

  /** Joins `parts` with the separator `sep` (Python's `sep.join(parts)`). */
  function Join(parts: seq<string>, sep: char): string
    requires |parts| >= 1
  {
    if |parts| == 1 then parts[0] else parts[0] + [sep] + Join(parts[1..], sep)
  }

  /** Python's `s.split(sep)` for a one-character separator: never empty, no
      part contains the separator, and joining the parts gives `s` back. */
  function Split(s: string, sep: char): (parts: seq<string>)
    ensures |parts| >= 1
    ensures forall k :: 0 <= k < |parts| ==> sep !in parts[k]
    ensures Join(parts, sep) == s
    decreases |s|
  {
    var i := FindFirst(s, c => c == sep);
    if i == |s| then [s]
    else
      var rest := Split(s[i + 1..], sep);
      assert s == s[..i] + [sep] + s[i + 1..];
      [s[..i]] + rest
  }

  /** Splitting a joined list gives the list back when no part holds the separator. */
  lemma {:induction false} SplitJoin(parts: seq<string>, sep: char)
    requires |parts| >= 1
    requires forall k :: 0 <= k < |parts| ==> sep !in parts[k]
    ensures Split(Join(parts, sep), sep) == parts
    decreases |parts|
  {
    var s := Join(parts, sep);
    var i := FindFirst(s, c => c == sep);
    if |parts| == 1 {
      assert i == |s|;
    } else {
      var p0 := parts[0];
      assert s == p0 + [sep] + Join(parts[1..], sep);
      assert s[|p0|] == sep;
      assert forall j :: 0 <= j < |p0| ==> s[j] == p0[j];
      assert i == |p0|;
      assert s[i + 1..] == Join(parts[1..], sep);
      SplitJoin(parts[1..], sep);
      assert s[..i] == p0;
    }
  }

  /** Python's `s.partition(sep)` for a one-character separator:
      the text before the first `sep`, and the text after it. */
  function Partition(s: string, sep: char): (r: (string, string))
    requires sep in s
    ensures sep !in r.0
    ensures s == r.0 + [sep] + r.1
  {
    var i := FindFirst(s, c => c == sep);
    assert s == s[..i] + [sep] + s[i + 1..];
    (s[..i], s[i + 1..])
  }

  /** The first separator is the one after a prefix free of it, so the
      partition of `a + [sep] + b` is `(a, b)`. */
  lemma PartitionOf(s: string, sep: char, a: string, b: string)
    requires s == a + [sep] + b && sep !in a
    ensures sep in s
    ensures Partition(s, sep) == (a, b)
  {
    assert s[|a|] == sep;
    var r := Partition(s, sep);
    assert r.0 == s[..|a|] == a;
    assert r.1 == s[|a| + 1..] == b;
  }

  /** ASCII decimal digit. */
  predicate IsDigit(c: char) {
    '0' <= c <= '9'
  }

  /** Value of a run of decimal digits. */
  function DigitsValue(s: string): nat
    requires AllBy(s, IsDigit)
  {
    if |s| == 0 then 0
    else DigitsValue(s[..|s| - 1]) * 10 + (s[|s| - 1] as int - '0' as int)
  }

  /** The digits Python's `int()` reads: ASCII digits in groups joined by
      single underscores, as in `"1_000"`. */
  predicate DigitGroups(s: string) {
    && |s| > 0 && IsDigit(s[0]) && IsDigit(s[|s| - 1])
    && (forall i :: 0 <= i < |s| ==> IsDigit(s[i]) || s[i] == '_')
    && (forall i :: 0 <= i < |s| - 1 ==> s[i] == '_' ==> IsDigit(s[i + 1]))
  }

  /** The digits of `s` with the underscores left out. */
  function Digits(s: string): (d: string)
    ensures |d| <= |s|
    ensures AllBy(d, IsDigit)
    ensures AllBy(s, IsDigit) ==> d == s
    ensures |s| > 0 && IsDigit(s[0]) ==> |d| > 0
  {
    if |s| == 0 then []
    else if IsDigit(s[0]) then [s[0]] + Digits(s[1..])
    else Digits(s[1..])
  }

  /** Dropping underscores distributes over concatenation. */
  lemma {:induction false} DigitsAppend(a: string, b: string)
    ensures Digits(a + b) == Digits(a) + Digits(b)
    decreases |a|
  {
    if |a| == 0 {
      assert a + b == b;
    } else {
      assert (a + b)[1..] == a[1..] + b;
      DigitsAppend(a[1..], b);
    }
  }

  /** Python's default `int_max_str_digits`: `int()` on text with more
      digits than this raises `ValueError`. */
  const MaxStrDigits := 4300

  /** Python's `int(text)`: surrounding whitespace, an optional sign and
      underscore-joined groups of at most 4300 ASCII digits; anything else
      is `None`, where Python raises. Python also reads non-ASCII decimal
      digits, which this model does not. */
  function ParseInt(text: string): (r: Option<int>)
    ensures r.Some? ==> exists b :: |b| > 0 && AllBy(b, IsDigit) && (r.value == DigitsValue(b) as int || r.value == 0 - DigitsValue(b) as int)
    ensures AllBy(text, IsSpace) ==> r.None?
  {
    var t := Strip(text);
    var neg := |t| > 0 && t[0] == '-';
    var body := if |t| > 0 && (t[0] == '-' || t[0] == '+') then t[1..] else t;
    if DigitGroups(body) && |Digits(body)| <= MaxStrDigits then
      var digits := Digits(body);
      Some(if neg then 0 - DigitsValue(digits) as int else DigitsValue(digits) as int)
    else None
  }

  /** Text that starts with a digit or an underscore and ends with no
      whitespace is read without strip or sign. */
  lemma ParseUnsigned(s: string)
    requires |s| > 0 && (IsDigit(s[0]) || s[0] == '_') && (IsDigit(s[|s| - 1]) || s[|s| - 1] == '_')
    ensures ParseInt(s) == if DigitGroups(s) && |Digits(s)| <= MaxStrDigits then Some(DigitsValue(Digits(s)) as int) else None
  {
    assert s[0] != '-' && s[0] != '+';
    StripOfTrimmed(s);
  }

  /** An underscore between two runs of digits does not change the value
      `int()` reads. */
  lemma UnderscoreIgnored(a: string, b: string)
    requires |a| > 0 && |b| > 0 && AllBy(a, IsDigit) && AllBy(b, IsDigit)
    ensures ParseInt(a + "_" + b) == ParseInt(a + b)
  {
    var s, t := a + "_" + b, a + b;
    assert s[0] == a[0] && t[0] == a[0] && s[|s| - 1] == b[|b| - 1] && t[|t| - 1] == b[|b| - 1];
    JoinedGroups(a, b);
    JoinedDigits(a, b);
    AllDigitsGroups(t);
    ParseUnsigned(s);
    ParseUnsigned(t);
    assert Digits(s) == Digits(t);
  }

  /** A run of digits is one group, and keeps all its digits. */
  lemma AllDigitsGroups(t: string)
    requires |t| > 0 && AllBy(t, IsDigit)
    ensures DigitGroups(t) && Digits(t) == t
  {
    assert IsDigit(t[0]) && IsDigit(t[|t| - 1]);
  }

  /** Two runs of digits joined by an underscore are digit groups. */
  lemma JoinedGroups(a: string, b: string)
    requires |a| > 0 && |b| > 0 && AllBy(a, IsDigit) && AllBy(b, IsDigit)
    ensures DigitGroups(a + "_" + b)
  {
    var s := a + "_" + b;
    assert s[0] == a[0] && s[|s| - 1] == b[|b| - 1];
    forall i | 0 <= i < |s|
      ensures IsDigit(s[i]) || s[i] == '_'
    {
      if i < |a| {
        assert s[i] == a[i];
      } else if i > |a| {
        assert s[i] == b[i - |a| - 1];
      }
    }
    forall i | 0 <= i < |s| - 1
      ensures s[i] == '_' ==> IsDigit(s[i + 1])
    {
      if i < |a| {
        assert s[i] == a[i];
      } else if i == |a| {
        assert s[i + 1] == b[0];
      } else {
        assert s[i] == b[i - |a| - 1];
      }
    }
  }

  /** Dropping the joining underscore leaves the two runs. */
  lemma JoinedDigits(a: string, b: string)
    requires AllBy(a, IsDigit) && AllBy(b, IsDigit)
    ensures Digits(a + "_" + b) == a + b
  {
    DigitsAppend(a + "_", b);
    DigitsAppend(a, "_");
    UnderscoreNoDigit();
  }

  /** A lone underscore keeps no digit. */
  lemma UnderscoreNoDigit()
    ensures Digits("_") == []
  {
    assert "_"[1..] == [];
  }

  /** A doubled underscore raises. */
  lemma DoubledUnderscoreRaises(a: string, b: string)
    requires |a| > 0 && |b| > 0 && AllBy(a, IsDigit) && AllBy(b, IsDigit)
    ensures ParseInt(a + "__" + b).None?
  {
    var u := a + "__" + b;
    assert u[0] == a[0] && u[|u| - 1] == b[|b| - 1];
    ParseUnsigned(u);
    assert u[|a|] == '_' && u[|a| + 1] == '_';
  }

  /** A leading or trailing underscore raises. */
  lemma EdgeUnderscoreRaises(a: string)
    requires |a| > 0 && AllBy(a, IsDigit)
    ensures ParseInt("_" + a).None? && ParseInt(a + "_").None?
  {
    var v, w := "_" + a, a + "_";
    assert v[0] == '_' && w[|w| - 1] == '_';
    assert w[0] == a[0] && v[|v| - 1] == a[|a| - 1];
    ParseUnsigned(v);
    ParseUnsigned(w);
  }

  /** `int(str(n))` recovers `n` for the decimal rendering of a natural number. */
  function NatToString(n: nat): (s: string)
    ensures |s| > 0 && AllBy(s, IsDigit)
    ensures DigitsValue(s) == n
  {
    var d := [(('0' as int) + n % 10) as char];
    if n < 10 then
      assert DigitsValue(d) == DigitsValue(d[..0]) * 10 + n % 10;
      d
    else
      var s := NatToString(n / 10) + d;
      assert s[..|s| - 1] == NatToString(n / 10);
      s
  }

  /** A run of at most 4300 digits reads as its value. */
  lemma DigitsWithinLimitRead(s: string)
    requires |s| > 0 && AllBy(s, IsDigit) && |s| <= MaxStrDigits
    ensures ParseInt(s) == Some(DigitsValue(s) as int)
  {
    assert IsDigit(s[0]) && IsDigit(s[|s| - 1]);
    ParseUnsigned(s);
  }

  /** A run of more than 4300 digits makes `int()` raise. */
  lemma TooManyDigitsRaises(s: string)
    requires AllBy(s, IsDigit) && |s| > MaxStrDigits
    ensures ParseInt(s).None?
  {
    assert IsDigit(s[0]) && IsDigit(s[|s| - 1]);
    ParseUnsigned(s);
  }

  /** `int()` reads back the decimal rendering of a natural number of at
      most 4300 digits. */
  lemma ParseIntOfNat(n: nat)
    requires |NatToString(n)| <= MaxStrDigits
    ensures ParseInt(NatToString(n)) == Some(n as int)
  {
    var s := NatToString(n);
    assert IsDigit(s[0]) && IsDigit(s[|s| - 1]);
    assert s[0] != '-' && s[0] != '+';
    StripOfTrimmed(s);
  }
}

=== FILE: tools.dfy ===
/** The server's own MCP tool registry (app/mcp/tools.py): one tool,
    `search_vietnamese_music`, which validates its arguments, asks the
    Deezer search API and reshapes the answer. The HTTP request is not
    modelled: the search takes the decoded response body as a parameter
    (`None` when the request or the decoding raised). */
module Tools {

  import opened Basics
  import opened Strings
  import opened JsonValues

  /** `MCPToolResult`. */
  datatype ToolResult = ToolResult(ok: bool, content: seq<Json>)

  /** The name of the only tool. */
  const SearchToolName: string := "search_vietnamese_music"

  /** Bounds and default of the `limit` argument. */
  const MinLimit: int := 1
  const MaxLimit: int := 20
  const DefaultLimit: int := 5

  /** A `{"type": "text", "text": ...}` content item. */
  function TextItem(text: string): Json {
    JObj(map["type" := JStr("text"), "text" := JStr(text)])
  }

  /** The JSON-Schema style description of one string or integer property. */
  function Property(kind: string, description: string): Json {
    JObj(map["type" := JStr(kind), "description" := JStr(description)])
  }

  /** `list_tools`: exactly one tool, the music search, whose three optional
      inputs are `song_name`, `query` and `limit` (an integer from 1 to 20,
      default 5). */
  function ListTools(): (r: seq<Json>)
    ensures |r| == 1 && r[0].JObj?
    ensures "name" in r[0].fields && r[0].fields["name"] == JStr(SearchToolName)
    ensures "inputSchema" in r[0].fields && r[0].fields["inputSchema"].JObj?
  {
    var limit := JObj(map[
      "type" := JStr("integer"),
      "description" := JStr("Số kết quả tối đa (1-20)"),
      "minimum" := JInt(MinLimit),
      "maximum" := JInt(MaxLimit),
      "default" := JInt(DefaultLimit)]);
    var schema := JObj(map[
      "type" := JStr("object"),
      "properties" := JObj(map[
        "song_name" := Property("string", "Tên bài hát cần tìm, ví dụ: Nơi này có anh"),
        "query" := Property("string", "Từ khóa tìm kiếm, ví dụ: Son Tung M-TP"),
        "limit" := limit]),
      "required" := JArr([])]);
    [JObj(map[
      "name" := JStr(SearchToolName),
      "description" := JStr("Tìm nhạc Việt theo từ khóa (artist/bài hát), trả metadata và link nghe."),
      "inputSchema" := schema])]
  }

  /** `max(1, min(int(raw_limit), 20))`, or 5 when `int()` raises. */
  function ClampLimit(raw: Json): (limit: int)
    ensures MinLimit <= limit <= MaxLimit
    ensures PyInt(raw).None? ==> limit == DefaultLimit
    ensures PyInt(raw).Some? && MinLimit <= PyInt(raw).value <= MaxLimit ==> limit == PyInt(raw).value
    ensures PyInt(raw).Some? && PyInt(raw).value < MinLimit ==> limit == MinLimit
    ensures PyInt(raw).Some? && PyInt(raw).value > MaxLimit ==> limit == MaxLimit
  {
    match PyInt(raw)
    case None => DefaultLimit
    case Some(v) => if v < MinLimit then MinLimit else if v > MaxLimit then MaxLimit else v
  }

  /** A limit written as a string of digits is read up to 4300 digits; a
      longer one makes `int()` raise and the default 5 is used, however
      large the number. */
  lemma DigitLimit(digits: string)
    requires |digits| > 0 && AllBy(digits, IsDigit)
    ensures |digits| > MaxStrDigits ==> ClampLimit(JStr(digits)) == DefaultLimit
    ensures |digits| <= MaxStrDigits ==> ClampLimit(JStr(digits)) == ClampLimit(JInt(DigitsValue(digits)))
  {
    if |digits| > MaxStrDigits {
      TooManyDigitsRaises(digits);
    } else {
      DigitsWithinLimitRead(digits);
    }
  }

  /** Clamping is idempotent: an echoed limit clamps to itself. */
  lemma ClampIdempotent(raw: Json)
    ensures ClampLimit(JInt(ClampLimit(raw))) == ClampLimit(raw)
  {
  }

  /** The search terms: the stripped `song_name`, else the stripped `query`.
      Both go through `str()` first, so a JSON `null` becomes "None". */
  function SearchTerms(arguments: Dict): (r: (string, string))
    ensures r.0 == Strip(PyStr(Get(arguments, "song_name", JStr(""))))
    ensures Strip(r.1) == r.1
    ensures r.1 == "" <==> AllBy(PyStr(Get(arguments, "song_name", JStr(""))), IsSpace)
                           && AllBy(PyStr(Get(arguments, "query", JStr(""))), IsSpace)
    ensures !AllBy(PyStr(Get(arguments, "song_name", JStr(""))), IsSpace) ==> r.1 == r.0
  {
    var songName := Strip(PyStr(Get(arguments, "song_name", JStr(""))));
    var query := if |songName| > 0 then songName else Strip(PyStr(Get(arguments, "query", JStr(""))));
    StripOfTrimmed(query);
    (songName, query)
  }

  /** `(x or {}).get(key)`: `None` when the truthy value is not a dict. */
  function NestedGet(x: Json, key: string): Option<Json> {
    if !Truthy(x) then Some(JNull)
    else if x.JObj? then Some(Get(x.fields, key, JNull))
    else None
  }

  /** The track record built from one Deezer item; `None` when the item, or
      its truthy `artist` or `album`, is not a dict. */
  function TrackOf(item: Json): (r: Option<Json>)
    ensures r.Some? ==> r.value.JObj? && r.value.fields.Keys == {"title", "artist", "album", "deezer_url", "preview_url", "duration"}
    ensures !item.JObj? ==> r.None?
  {
    if !item.JObj? then None
    else
      var f := item.fields;
      var artist := NestedGet(Get(f, "artist", JNull), "name");
      var album := NestedGet(Get(f, "album", JNull), "title");
      if artist.None? || album.None? then None
      else Some(JObj(map[
        "title" := Get(f, "title", JNull),
        "artist" := artist.value,
        "album" := album.value,
        "deezer_url" := Get(f, "link", JNull),
        "preview_url" := Get(f, "preview", JNull),
        "duration" := Get(f, "duration", JNull)]))
  }

  /** The tracks for the first `limit` items, in order; `None` as soon as one
      item cannot be read. */
  function TracksOfItems(items: seq<Json>): (r: Option<seq<Json>>)
    ensures r.Some? ==> |r.value| == |items|
    ensures r.Some? ==> forall k :: 0 <= k < |items| ==> TrackOf(items[k]) == Some(r.value[k])
    ensures r.None? ==> exists k :: 0 <= k < |items| && TrackOf(items[k]).None?
  {
    if |items| == 0 then Some([])
    else
      match (TrackOf(items[0]), TracksOfItems(items[1..]))
      case (Some(t), Some(rest)) => Some([t] + rest)
      case (None, _) => None
      case (_, None) => assert forall k :: 0 <= k < |items| - 1 ==> items[1..][k] == items[k + 1]; None
  }

  /** `data.get("data", [])[:limit]` turned into tracks: `None` when the body
      is not a dict, when `data` cannot be sliced, or an item cannot be read.
      A string slices into characters, which only an empty string survives. */
  function DeezerTracks(body: Json, limit: int): (r: Option<seq<Json>>)
    requires limit >= MinLimit
    ensures r.Some? ==> |r.value| <= limit
    ensures r.Some? ==> body.JObj?
  {
    if !body.JObj? then None
    else match Get(body.fields, "data", JArr([]))
      case JArr(items) => TracksOfItems(items[..if |items| < limit then |items| else limit])
      case JStr(s) => if |s| == 0 then Some([]) else None
      case _ => None
  }

  /** The search's reply when it found `tracks` for `query`. */
  function Found(songName: string, query: string, limit: int, tracks: seq<Json>): ToolResult {
    var text := "Tìm thấy " + NatToString(|tracks|) + " kết quả nhạc cho: " + query;
    var requestBody := map["song_name" := JStr(songName), "query" := JStr(query), "limit" := JInt(limit)];
    ToolResult(true, [
      TextItem(text),
      JObj(map["type" := JStr("json"), "json" := JObj(map["request_body" := JObj(requestBody), "tracks" := JArr(tracks)])])])
  }

  /** `_tool_search_vietnamese_music`, given the decoded response body of the
      search request (`None` when the request or its decoding raised). */
  function SearchMusic(arguments: Dict, response: Option<Json>): (r: ToolResult)
    ensures |SearchTerms(arguments).1| == 0 ==>
              r == ToolResult(false, [TextItem("Thiếu tham số song_name hoặc query")])
    ensures r.ok ==> |SearchTerms(arguments).1| > 0 && response.Some?
  {
    var (songName, query) := SearchTerms(arguments);
    if |query| == 0 then ToolResult(false, [TextItem("Thiếu tham số song_name hoặc query")])
    else
      var limit := ClampLimit(Get(arguments, "limit", JInt(DefaultLimit)));
      match response
      case None => ToolResult(false, [TextItem("Lỗi gọi Deezer API")])
      case Some(body) =>
        match DeezerTracks(body, limit)
        case None => ToolResult(false, [TextItem("Lỗi gọi Deezer API")])
        case Some(tracks) => Found(songName, query, limit, tracks)
  }

  /** A search without terms is refused before any request: its result does
      not depend on the response. */
  lemma NoTermsNoRequest(arguments: Dict, a: Option<Json>, b: Option<Json>)
    requires |SearchTerms(arguments).1| == 0
    ensures SearchMusic(arguments, a) == SearchMusic(arguments, b)
    ensures !SearchMusic(arguments, a).ok
  {
  }

  /** A successful search returns a summary line and one json item that
      echoes the effective `song_name`, `query` and clamped `limit`, with at
      most `limit` tracks. */
  lemma SearchEchoesRequest(arguments: Dict, response: Option<Json>)
    requires SearchMusic(arguments, response).ok
    ensures var r := SearchMusic(arguments, response);
            var (songName, query) := SearchTerms(arguments);
            var limit := ClampLimit(Get(arguments, "limit", JInt(DefaultLimit)));
            && |r.content| == 2
            && r.content[1].JObj? && "json" in r.content[1].fields
            && var json := r.content[1].fields["json"];
            && json.JObj? && "request_body" in json.fields && "tracks" in json.fields
            && json.fields["request_body"] == JObj(map["song_name" := JStr(songName), "query" := JStr(query), "limit" := JInt(limit)])
            && json.fields["tracks"].JArr?
            && |json.fields["tracks"].items| <= limit <= MaxLimit
  {
    var terms := SearchTerms(arguments);
    var limit := ClampLimit(Get(arguments, "limit", JInt(DefaultLimit)));
    var tracks := DeezerTracks(response.value, limit);
    assert tracks.Some?;
    var found := Found(terms.0, terms.1, limit, tracks.value);
    assert SearchMusic(arguments, response) == found;
    var json := found.content[1].fields["json"];
    assert json.fields["tracks"] == JArr(tracks.value);
  }

  /** `call_tool`: `None`/falsy arguments become `{}`; the music tool gets
      the arguments, any other name a "no such tool" reply. `None` when the
      music tool is handed truthy arguments that are not a dict (the
      `arguments.get` call raises). */
  function CallTool(name: string, arguments: Json, response: Option<Json>): (r: Option<ToolResult>)
    ensures name != SearchToolName ==> r == Some(ToolResult(false, [TextItem("Tool không tồn tại: " + name)]))
    ensures name == SearchToolName && !Truthy(arguments) ==> r == Some(SearchMusic(map[], response))
    ensures name == SearchToolName && arguments.JObj? ==> r == Some(SearchMusic(arguments.fields, response))
    ensures r.None? <==> name == SearchToolName && Truthy(arguments) && !arguments.JObj?
  {
    var args: Dict := if Truthy(arguments) && arguments.JObj? then arguments.fields else map[];
    if name != SearchToolName then Some(ToolResult(false, [TextItem("Tool không tồn tại: " + name)]))
    else if !Truthy(arguments) || arguments.JObj? then Some(SearchMusic(args, response))
    else None
  }

  /** Calling the music tool with no arguments at all is a refused search. */
  lemma CallWithoutArguments(response: Option<Json>)
    ensures CallTool(SearchToolName, JNull, response) == Some(ToolResult(false, [TextItem("Thiếu tham số song_name hoặc query")]))
  {
    var empty: Dict := map[];
    assert "song_name" !in empty;
    assert Strip(PyStr(JStr(""))) == "";
  }
}

=== FILE: tts.dfy ===
/** The framing side of text-to-speech (app/services/tts.py): PCM arriving
    in pieces of any size is cut into `frame_bytes` blocks for the Opus
    encoder as soon as a block is complete, and the tail is zero-padded to a
    whole frame at the end. Piper, the resampler, the robot voice effect,
    ffmpeg and the encoder are parameters; only the arithmetic and the
    ordering are modelled. */
module Tts {

  import opened Basics
  import opened Strings
  import opened OpusCodec

  // ---------------------------------------------------------------------
  // Framing with zero padding
  // ---------------------------------------------------------------------

  /** The blocks handed to the encoder for the whole PCM stream: every full
      block, then, when `pad` holds and bytes are left over, the remainder
      filled up with zero bytes to one block. */
  function Framed(pcm: Bytes, fb: nat, pad: bool): (bs: seq<Bytes>)
    requires fb > 0
    ensures forall i :: 0 <= i < |bs| ==> |bs[i]| == fb
    ensures FullBlocks(pcm, fb) <= bs
  {
    var rest := Remainder(pcm, fb);
    if pad && |rest| > 0 then FullBlocks(pcm, fb) + [rest + Zeros(fb - |rest|)]
    else FullBlocks(pcm, fb)
  }

  /** The number of frames: the PCM length divided by the frame length,
      rounded up when padding and down otherwise. */
  lemma FramedCount(pcm: Bytes, fb: nat, pad: bool)
    requires fb > 0
    ensures pad ==> |Framed(pcm, fb, true)| == (|pcm| + fb - 1) / fb
    ensures !pad ==> |Framed(pcm, fb, false)| == |pcm| / fb
  {
    var full := FullBlocks(pcm, fb);
    SplitBlocks(pcm, fb);
    ConcatLength(full, fb);
    CeilDiv(|pcm|, fb, |full|, |Remainder(pcm, fb)|);
  }

  /** For `n == q * fb + r` with `r < fb`, rounding `n / fb` up gives `q`
      when `r` is zero and `q + 1` otherwise. */
  lemma CeilDiv(n: nat, fb: nat, q: nat, r: nat)
    requires fb > 0 && r < fb && n == q * fb + r
    ensures r == 0 ==> (n + fb - 1) / fb == q
    ensures r > 0 ==> (n + fb - 1) / fb == q + 1
  {
    if r == 0 {
      DivOfBounds(n + fb - 1, fb, q);
    } else {
      assert (q + 1) * fb == q * fb + fb;
      DivOfBounds(n + fb - 1, fb, q + 1);
    }
  }

  /** With padding, the frames glue back to the PCM followed by fewer than
      one frame of zero bytes; without, to the PCM minus fewer than one
      frame of trailing bytes. */
  lemma FramedContent(pcm: Bytes, fb: nat)
    requires fb > 0
    ensures var glued := ConcatBytes(Framed(pcm, fb, true));
            |pcm| <= |glued| < |pcm| + fb && glued == pcm + Zeros(|glued| - |pcm|)
    ensures var glued := ConcatBytes(Framed(pcm, fb, false));
            |glued| <= |pcm| < |glued| + fb && glued == pcm[..|glued|]
  {
    var full := FullBlocks(pcm, fb);
    var rest := Remainder(pcm, fb);
    SplitBlocks(pcm, fb);
    var glued := ConcatBytes(full);
    assert pcm[..|glued|] == glued by {
      assert (glued + rest)[..|glued|] == glued;
    }
    if |rest| > 0 {
      var pad := Zeros(fb - |rest|);
      ConcatBytesSnoc(full, rest + pad);
      AppendAssoc(glued, rest, pad);
      assert ConcatBytes(Framed(pcm, fb, true)) == pcm + pad;
    }
  }

  /** The stream loop shared by `synthesize` and `stream_audio_url`: each
      arriving piece is appended to a buffer, every complete block at the
      front of the buffer is encoded at once, and at the end a non-empty
      buffer is zero-padded and encoded when `pad` holds (it does not when
      the stream ended with an exception). The frames are those of the
      concatenated stream, cut however the pieces arrived. A zero frame
      length would never leave the inner loop, so it is excluded. */
  method FrameStream(pieces: seq<Bytes>, fb: nat, pad: bool, encode: Bytes -> Bytes) returns (frames: seq<Bytes>)
    requires fb > 0
    ensures frames == EncodeEach(Framed(ConcatBytes(pieces), fb, pad), encode)
  {
    frames := [];
    ghost var blocks: seq<Bytes> := [];
    var buffer: Bytes := [];
    var i := 0;
    while i < |pieces|
      invariant i <= |pieces|
      invariant |buffer| < fb
      invariant forall k :: 0 <= k < |blocks| ==> |blocks[k]| == fb
      invariant ConcatBytes(blocks) + buffer == ConcatBytes(pieces[..i])
      invariant frames == EncodeEach(blocks, encode)
    {
      PieceArrives(blocks, buffer, pieces, i);
      buffer := buffer + pieces[i];
      while |buffer| >= fb
        invariant forall k :: 0 <= k < |blocks| ==> |blocks[k]| == fb
        invariant ConcatBytes(blocks) + buffer == ConcatBytes(pieces[..i + 1])
        invariant frames == EncodeEach(blocks, encode)
        decreases |buffer|
      {
        var frame := buffer[..fb];
        BlockLeaves(blocks, buffer, fb);
        EncodeEachSnoc(blocks, frame, encode);
        blocks := blocks + [frame];
        buffer := buffer[fb..];
        frames := frames + [encode(frame)];
      }
      i := i + 1;
    }
    assert pieces[..|pieces|] == pieces;
    BlocksUnique(blocks, buffer, ConcatBytes(pieces), fb);
    if pad && |buffer| > 0 {
      var last := buffer + Zeros(fb - |buffer|);
      EncodeEachSnoc(blocks, last, encode);
      frames := frames + [encode(last)];
    }
  }

  /** Appending an arriving piece to the buffer keeps the blocks and the
      buffer equal to the pieces received so far. */
  lemma PieceArrives(blocks: seq<Bytes>, buffer: Bytes, pieces: seq<Bytes>, i: nat)
    requires i < |pieces|
    requires ConcatBytes(blocks) + buffer == ConcatBytes(pieces[..i])
    ensures ConcatBytes(blocks) + (buffer + pieces[i]) == ConcatBytes(pieces[..i + 1])
  {
    assert pieces[..i + 1] == pieces[..i] + [pieces[i]];
    ConcatBytesSnoc(pieces[..i], pieces[i]);
    AppendAssoc(ConcatBytes(blocks), buffer, pieces[i]);
  }

  /** Moving the first `fb` bytes of the buffer onto the blocks keeps their
      concatenation with the buffer. */
  lemma BlockLeaves(blocks: seq<Bytes>, buffer: Bytes, fb: nat)
    requires fb <= |buffer|
    ensures ConcatBytes(blocks + [buffer[..fb]]) + buffer[fb..] == ConcatBytes(blocks) + buffer
  {
    ConcatBytesSnoc(blocks, buffer[..fb]);
    AppendAssoc(ConcatBytes(blocks), buffer[..fb], buffer[fb..]);
    assert buffer[..fb] + buffer[fb..] == buffer;
  }

  // ---------------------------------------------------------------------
  // Voice style
  // ---------------------------------------------------------------------

  /** The style profiles; only "normal" is a pass-through. */
  const Styles: seq<string> := ["normal", "robot", "robot_soft", "robot_deep"]

  /** `(voice_style or "normal").strip().lower()`, and "normal" when that is
      not a known profile. */
  function VoiceStyle(configured: string): (style: string)
    ensures style in Styles
    ensures var asked := Lower(Strip(if |configured| == 0 then "normal" else configured));
            (asked in Styles ==> style == asked) && (asked !in Styles ==> style == "normal")
  {
    var asked := Lower(Strip(if |configured| == 0 then "normal" else configured));
    if asked in Styles then asked else "normal"
  }

  /** A known style is its own normalisation: configuring the style the
      service settled on gives the same style. */
  lemma VoiceStyleStable(configured: string)
    ensures VoiceStyle(VoiceStyle(configured)) == VoiceStyle(configured)
  {
    KnownStyleFixed(VoiceStyle(configured));
  }

  /** Each profile name is already stripped and lower-case. */
  lemma KnownStyleFixed(style: string)
    requires style in Styles
    ensures Lower(Strip(style)) == style
  {
    if style == "normal" {
      LowerWord("normal");
    } else if style == "robot" {
      LowerWord("robot");
    } else if style == "robot_soft" {
      LowerWord("robot_soft");
    } else {
      LowerWord("robot_deep");
    }
  }

  /** The robot effect's memory between chunks, `_robot_phase` and
      `_robot_lp_prev`: zero when the service starts, and carried from one
      chunk to the next and from one synthesis to the next. */
  datatype EffectState = EffectState(phase: real, lpPrev: real)

  const InitialEffect := EffectState(0.0, 0.0)

  /** A styled chunk of PCM and the effect state after it. */
  datatype Styled = Styled(pcm: Bytes, after: EffectState)

  /** `_apply_voice_style`: "normal" returns the PCM unchanged, as does an
      empty chunk, and neither touches the effect state; the robot styles
      run the effect, a parameter from the style, the state before and the
      PCM to the styled PCM and the state after. */
  function ApplyStyle(style: string, robot: (string, EffectState, Bytes) -> Styled,
                      st: EffectState, pcm: Bytes): (r: Styled)
    requires style in Styles
    ensures style == "normal" || |pcm| == 0 ==> r == Styled(pcm, st)
    ensures style != "normal" && |pcm| > 0 ==> r == robot(style, st, pcm)
  {
    if style == "normal" || |pcm| == 0 then Styled(pcm, st) else robot(style, st, pcm)
  }

  // ---------------------------------------------------------------------
  // Resampling ratio
  // ---------------------------------------------------------------------

  /** Python's `math.gcd` on natural numbers (Euclid). */
  function Gcd(a: nat, b: nat): nat
    decreases b
  {
    if b == 0 then a else Gcd(b, a % b)
  }

  /** `k * g` leaves no remainder modulo `g`. */
  lemma MultipleMod(k: nat, g: nat)
    requires g > 0
    ensures (k * g) % g == 0
  {
    DivOfBounds(k * g, g, k);
  }

  /** `q * b + r` is a multiple of `g` when `b` and `r` are. */
  lemma MultipleSum(q: nat, b: nat, r: nat, g: nat)
    requires g > 0 && b % g == 0 && r % g == 0
    ensures (q * b + r) % g == 0
  {
    var kb := b / g;
    var kr := r / g;
    assert b == kb * g && r == kr * g;
    assert q * b == (q * kb) * g;
    assert q * b + r == (q * kb + kr) * g;
    MultipleMod(q * kb + kr, g);
  }

  /** The gcd of two numbers that are not both zero is positive and divides
      both. */
  lemma {:induction false} GcdDivides(a: nat, b: nat)
    requires a > 0 || b > 0
    ensures Gcd(a, b) > 0 && a % Gcd(a, b) == 0 && b % Gcd(a, b) == 0
    decreases b
  {
    if b == 0 {
      MultipleMod(0, a);
    } else {
      GcdDivides(b, a % b);
      RemainderStep(a, b, Gcd(b, a % b));
    }
  }

  /** A common divisor of `b` and `a % b` divides `a`. */
  lemma RemainderStep(a: nat, b: nat, g: nat)
    requires b > 0 && g > 0 && b % g == 0 && (a % b) % g == 0
    ensures a % g == 0
  {
    var q, r := a / b, a % b;
    assert a == q * b + r;
    MultipleSum(q, b, r, g);
  }

  /** The polyphase factors `(up, down)` from the source rate of the voice
      to the target rate of the output: `None` when the rates agree and no
      resampling happens, otherwise both rates divided by their gcd, so
      that `up / down` is exactly `target / source`. */
  function ResampleRatio(target: nat, source: nat): (r: Option<(nat, nat)>)
    ensures r.Some? <==> target != source
    ensures r.Some? ==> r.value.0 * source == r.value.1 * target
    ensures r.Some? ==> var g := Gcd(target, source);
              g > 0 && target == r.value.0 * g && source == r.value.1 * g
  {
    if target == source then None
    else
      GcdDivides(target, source);
      var g := Gcd(target, source);
      QuotientsCross(target, source, g);
      Some((target / g, source / g))
  }

  /** Dividing two multiples of `g` by `g` keeps their ratio. */
  lemma QuotientsCross(a: nat, b: nat, g: nat)
    requires g > 0 && a % g == 0 && b % g == 0
    ensures a == (a / g) * g && b == (b / g) * g
    ensures (a / g) * b == (b / g) * a
  {
    var x, y := a / g, b / g;
    assert a == x * g && b == y * g;
    calc {
      x * b;
      x * (y * g);
      { MulAssoc(x, y, g); }
      (x * y) * g;
      { MulAssoc(y, x, g); }
      y * (x * g);
      y * a;
    }
  }

  lemma MulAssoc(x: int, y: int, z: int)
    ensures x * (y * z) == (x * y) * z && x * y == y * x
  {
  }

  /** The shipped configuration: Piper voices at 22050 Hz played at
      24000 Hz resample by 160/147. */
  lemma DefaultResampleRatio()
    ensures Gcd(24000, 22050) == 150
    ensures ResampleRatio(24000, 22050) == Some((160, 147))
  {
  }

  // ---------------------------------------------------------------------
  // The two streams
  // ---------------------------------------------------------------------

  /** How one Piper chunk is turned into output PCM: resampled when the
      rates differ, then styled from the effect state `st`. */
  function ChunkPcm(ratio: Option<(nat, nat)>, resample: (nat, nat, Bytes) -> Bytes,
                    style: string, robot: (string, EffectState, Bytes) -> Styled,
                    st: EffectState, pcm: Bytes): Styled
    requires style in Styles
  {
    var rate := match ratio
      case None => pcm
      case Some((up, down)) => resample(up, down, pcm);
    ApplyStyle(style, robot, st, rate)
  }

  /** The producer's `if pcm:` filter: the non-empty pieces, in order. */
  function NonEmpty(pieces: seq<Bytes>): (r: seq<Bytes>)
    ensures |r| <= |pieces|
    ensures forall k :: 0 <= k < |r| ==> |r[k]| > 0
    ensures ConcatBytes(r) == ConcatBytes(pieces)
  {
    if |pieces| == 0 then []
    else if |pieces[0]| == 0 then
      assert ConcatBytes(pieces) == ConcatBytes(pieces[1..]);
      NonEmpty(pieces[1..])
    else
      var r := [pieces[0]] + NonEmpty(pieces[1..]);
      ConcatBytesCons(pieces[0], NonEmpty(pieces[1..]));
      r
  }

  /** The filter distributes over concatenation. */
  lemma {:induction false} NonEmptyAppend(a: seq<Bytes>, b: seq<Bytes>)
    ensures NonEmpty(a + b) == NonEmpty(a) + NonEmpty(b)
    decreases |a|
  {
    if |a| > 0 {
      assert (a + b)[1..] == a[1..] + b;
      NonEmptyAppend(a[1..], b);
      assert (a + b)[0] == a[0];
    } else {
      assert a + b == b;
    }
  }

  /** The filter keeps a single piece iff it is non-empty; with
      `NonEmptyAppend` this pins it down as "exactly the non-empty pieces,
      in their order". */
  lemma NonEmptySingle(p: Bytes)
    ensures NonEmpty([p]) == if |p| > 0 then [p] else []
  {
    assert [p][1..] == [];
  }

  /** A stream with no empty piece passes the filter unchanged. */
  lemma {:induction false} NonEmptyKeepsAll(pieces: seq<Bytes>)
    requires forall j :: 0 <= j < |pieces| ==> |pieces[j]| > 0
    ensures NonEmpty(pieces) == pieces
    decreases |pieces|
  {
    if |pieces| > 0 {
      NonEmptyKeepsAll(pieces[1..]);
      assert [pieces[0]] + pieces[1..] == pieces;
    }
  }

  /** The converted chunks, and the effect state before each of them
      followed by the state after the last. */
  datatype Conversion = Conversion(out: seq<Bytes>, states: seq<EffectState>)

  /** The consumer loop over the chunks it is given: each chunk converted
      from the state the previous one left. */
  function ConvertEach(pieces: seq<Bytes>, ratio: Option<(nat, nat)>, resample: (nat, nat, Bytes) -> Bytes,
                       style: string, robot: (string, EffectState, Bytes) -> Styled,
                       st: EffectState): (r: Conversion)
    requires style in Styles
    ensures |r.out| == |pieces| && |r.states| == |pieces| + 1 && r.states[0] == st
    ensures forall k :: 0 <= k < |pieces| ==>
              ChunkPcm(ratio, resample, style, robot, r.states[k], pieces[k]) == Styled(r.out[k], r.states[k + 1])
    ensures style == "normal" ==> forall k :: 0 <= k < |r.states| ==> r.states[k] == st
    decreases |pieces|
  {
    if |pieces| == 0 then Conversion([], [st])
    else
      var first := ChunkPcm(ratio, resample, style, robot, st, pieces[0]);
      var rest := ConvertEach(pieces[1..], ratio, resample, style, robot, first.after);
      var r := Conversion([first.pcm] + rest.out, [st] + rest.states);
      assert forall k :: 1 <= k < |pieces| ==>
               r.out[k] == rest.out[k - 1] && r.states[k] == rest.states[k - 1] && pieces[k] == pieces[1..][k - 1];
      assert forall k :: 1 <= k < |r.states| ==> r.states[k] == rest.states[k - 1];
      r
  }

  /** What reaches framing: the Piper chunks with the empty ones dropped,
      each resampled when needed and styled, in order, each from the effect
      state its predecessor left, starting from `st`. */
  function Converted(pieces: seq<Bytes>, ratio: Option<(nat, nat)>, resample: (nat, nat, Bytes) -> Bytes,
                     style: string, robot: (string, EffectState, Bytes) -> Styled,
                     st: EffectState): (r: Conversion)
    requires style in Styles
    ensures |r.out| == |NonEmpty(pieces)| && |r.states| == |r.out| + 1 && r.states[0] == st
    ensures forall k :: 0 <= k < |r.out| ==>
              ChunkPcm(ratio, resample, style, robot, r.states[k], NonEmpty(pieces)[k]) == Styled(r.out[k], r.states[k + 1])
    ensures style == "normal" ==> forall k :: 0 <= k < |r.states| ==> r.states[k] == st
  {
    ConvertEach(NonEmpty(pieces), ratio, resample, style, robot, st)
  }

  /** With no resampling and the "normal" style the conversion is the
      identity on the concatenated stream, and the effect state stays. */
  lemma ConvertedIdentity(pieces: seq<Bytes>, resample: (nat, nat, Bytes) -> Bytes,
                          robot: (string, EffectState, Bytes) -> Styled, st: EffectState)
    ensures ConcatBytes(Converted(pieces, None, resample, "normal", robot, st).out) == ConcatBytes(pieces)
  {
    var r := Converted(pieces, None, resample, "normal", robot, st);
    var kept := NonEmpty(pieces);
    forall k | 0 <= k < |r.out|
      ensures r.out[k] == kept[k]
    {
      assert ChunkPcm(None, resample, "normal", robot, r.states[k], kept[k]) == Styled(kept[k], r.states[k]);
      assert ChunkPcm(None, resample, "normal", robot, r.states[k], kept[k]) == Styled(r.out[k], r.states[k + 1]);
    }
    assert r.out == kept;
  }

  /** `synthesize`: nothing for empty or whitespace-only text; otherwise the
      Piper chunks `pieces` (the ones produced before Piper raised, when
      `raised` holds) are converted from the effect state `st` and framed,
      and the zero-padded tail frame is sent only when the synthesis
      completed. `after` is the effect state the next synthesis starts
      from. */
  method Synthesize(text: string, pieces: seq<Bytes>, raised: bool, fb: nat,
                    ratio: Option<(nat, nat)>, resample: (nat, nat, Bytes) -> Bytes,
                    style: string, robot: (string, EffectState, Bytes) -> Styled, st: EffectState,
                    encode: Bytes -> Bytes) returns (frames: seq<Bytes>, after: EffectState)
    requires fb > 0 && style in Styles
    ensures AllBy(text, IsSpace) ==> frames == [] && after == st
    ensures !AllBy(text, IsSpace) ==>
              var c := Converted(pieces, ratio, resample, style, robot, st);
              frames == EncodeEach(Framed(ConcatBytes(c.out), fb, !raised), encode)
              && after == c.states[|c.states| - 1]
    ensures !AllBy(text, IsSpace) && ratio.None? && style == "normal" ==>
              frames == EncodeEach(Framed(ConcatBytes(pieces), fb, !raised), encode)
    ensures style == "normal" ==> after == st
  {
    if |Strip(text)| == 0 {
      return [], st;
    }
    var c := Converted(pieces, ratio, resample, style, robot, st);
    frames := FrameStream(c.out, fb, !raised, encode);
    after := c.states[|c.states| - 1];
    if ratio.None? && style == "normal" {
      ConvertedIdentity(pieces, resample, robot, st);
    }
  }

  /** The chunks ffmpeg writes before end of file: reading stops at the
      first empty read. */
  function UntilEof(output: seq<Bytes>): (chunks: seq<Bytes>)
    ensures |chunks| <= |output| && chunks == output[..|chunks|]
    ensures forall k :: 0 <= k < |chunks| ==> |chunks[k]| > 0
    ensures |chunks| < |output| ==> |output[|chunks|]| == 0
  {
    if |output| == 0 || |output[0]| == 0 then []
    else [output[0]] + UntilEof(output[1..])
  }

  /** `stream_audio_url`: nothing for an empty URL or when ffmpeg is not
      installed; otherwise ffmpeg's output up to end of file is framed like
      speech, with the padded tail only when no error interrupted it. */
  method StreamAudioUrl(url: string, ffmpegFound: bool, output: seq<Bytes>, failed: bool, fb: nat,
                        encode: Bytes -> Bytes) returns (frames: seq<Bytes>)
    requires fb > 0
    ensures |url| == 0 || !ffmpegFound ==> frames == []
    ensures |url| > 0 && ffmpegFound ==> frames == EncodeEach(Framed(ConcatBytes(UntilEof(output)), fb, !failed), encode)
  {
    if |url| == 0 || !ffmpegFound {
      return [];
    }
    frames := FrameStream(UntilEof(output), fb, !failed, encode);
  }
}
